=== FILE: README.md ===
# RIFF/WAVE codec of VeryLasyWavePlayer, modelled in Dafny

This project models the in-memory RIFF/WAVE codec of the VeryLasyWavePlayer repository
(`Palmtree.Media/Wave/` and the byte helpers of `Palmtree.Core.Framework/`) and proves
properties of the model. Every operation is a pure function over immutable values; an exception
of the source becomes an `Err` carrying one `Errors.Error` variant per exception type, so each path
shows which kind it raises.

The layers, leaves first:

- `Ints` — the fixed-width integer types as subsets of `int`, with the `unchecked` casts
  (`Reinterpret`, `Truncate`), `checked` conversions (`CheckedInt32`) and unchecked 32-bit
  wrap-around (`WrapInt32`) written out.
- `Spans` — `ReadOnlySpan<T>` and `Span<T>` as `(source, offset, length)` windows over a `seq`;
  writes return the span over the updated array. `SpanExtensions` — the `AsSpan`/`AsReadOnlySpan`
  overloads and the array `CopyTo`.
- `ByteOrder` — the little- and big-endian value of a byte sequence and its inverse, with the
  round-trip lemmas everything else rests on.
- `ByteDataExtensions` — the exact-width integer decoders and encoders (16, 24, 32, 64 bits, both byte
  orders, signed and unsigned), 24-bit sign extension, and the GUID codec whose first three fields
  are little-endian (the layout of section 4.1.2 of RFC 4122 with Microsoft's byte order).
- `ChunkFraming` — the `id + LE size + payload + pad` framing every chunk kind repeats, and the
  `RawChunk` shared by the `data`, `id3 `, `LIST` and unknown chunks.
- `WaveFormatExtensible`, `WaveFormatExtendedInfo`, `WaveFormatChunk` — the `fmt ` chunk, its
  WAVE_FORMAT_EXTENSIBLE block, and the derived sample type, channel layout and valid bit depth.
- `WaveDataChunk`, `WaveFactChunk`, `WaveId3TagChunk`, `WaveListChunk`, `WaveUnknownChunk` — the
  other chunk kinds.
- `WaveFileContainer` — the outer `RIFF`/`WAVE` header, the chunk scan (modelled as the list of
  chunks met, `ScanChunks`, folded into the loop's variables by `Collect`), frame counting, sample
  access, and serialisation, including the copy loop of the private `Serialize` as a method with
  loop invariants.

The source's own defects are modelled as written and exhibited by lemmas:

- the `data`, `id3 `, `LIST` and unknown chunks write a 12-byte header, so four zero bytes precede the
  payload and a re-parse reads the payload four bytes early (`ChunkFraming.RawReparse`);
- the container writes an outer size 12 bytes too large, so its parser rejects its own output
  (`WaveFileContainer.OwnOutputRejected`), while a file with the size the RIFF definition asks for is
  accepted (`WaveFileContainer.RiffFileParses`);
- the `fmt ` chunk's total size counts no pad byte after an odd-sized payload
  (`WaveFormatChunk.Deserialize`);
- the extensible block narrows the channel mask through a checked 16-bit cast
  (`WaveFormatExtensible.Serialize`);
- `AsSpan(array, offset)` and `AsReadOnlySpan(array, offset)` only work for offset 0
  (`SpanExtensions.OneArgumentOverloadsRejectPositiveOffsets`);
- an extensible `fmt ` chunk without an extension is written with cbSize 0, which its own parser
  rejects (`WaveFormatChunk.ExtensibleWithoutExtensionIsRejected`).

Error kinds and edge cases as the code has them:

- An unrecognised format tag raises `BadMediaFormatException` (Palmtree.Media/Wave/WaveFormatChunk.cs:177), and so does
  a bit depth the sub-format does not allow (WaveFormatChunk.cs:103, 115); `NotSupportedException` is raised only
  for an unknown sub-format GUID (WaveFormatChunk.cs:120).
- A `fmt ` payload shorter than 16 bytes raises `BadImageFormatException` (WaveFormatChunk.cs:168), as do a missing
  `WAVE` form id (Palmtree.Media/Wave/WaveFileContainer.cs:119-120) and a data length that is not a whole number of
  frames (Palmtree.Media/Wave/WaveDataChunk.cs:31-32).
- The data chunk's parser accepts any payload length (WaveDataChunk.cs:68-82); only `TotalFrames`, through
  `GetSampleLength`, fails on a length that is not a whole number of frames (WaveFileContainer.cs:63).
- The outer size field is written as the output length + 4 (WaveFileContainer.cs:210), and every opaque chunk is
  written with a 12-byte header (WaveDataChunk.cs:94-98), so the code's own output does not parse back
  (see above).
- The `fmt ` chunk's total size is `chunkSize + 8` with no pad byte for an odd-sized payload
  (WaveFormatChunk.cs:184, 203).
- A final chunk of odd size without its pad byte fails in `Slice` with `ArgumentOutOfRangeException`
  (WaveFileContainer.cs:143-160), not with a format error.
- The sample accessors never check the channel against the channel count (WaveDataChunk.cs:44-58).

## Model

| member | source | states |
|---|---|---|
| `Ints.Reinterpret` | Palmtree.Core.Framework/ByteDataExtensions.cs:99-100 | an unchecked unsigned-to-signed cast yields a value in the signed range equal to the input or to the input minus 2^width |
| `Ints.Truncate` | Palmtree.Core.Framework/ByteDataExtensions.cs:336-337 | an unchecked signed-to-unsigned cast yields a value in [0, 2^width) equal to the input or to the input plus 2^width |
| `Ints.CheckedInt32` | Palmtree.Media/Wave/WaveDataChunk.cs:73 | a checked conversion to `int` succeeds exactly for values in the 32-bit signed range, keeping the value, and otherwise raises Overflow |
| `Ints.WrapNonNegativeSum` | Palmtree.Core.Framework/SpanExtensions.cs:29 | the unchecked sum of two non-negative int32 values is exact when it fits and otherwise 2^32 below the exact sum, hence negative |
| `Ints.WrapInt32` | Palmtree.Media/Wave/WaveDataChunk.cs:38 | unchecked 32-bit arithmetic gives a result congruent to the exact one modulo 2^32, and the exact one whenever it fits |
| `Spans.Overwrite` | Palmtree.Core.Framework/ReadOnlySpan.cs:72 | `Array.Copy` into a target: the target range holds the copied elements and nothing outside it changes |
| `Spans.ReadOnlySpan.Create` | Palmtree.Core.Framework/ReadOnlySpan.cs:14-26 | the constructor succeeds exactly when 0 ≤ offset ≤ length, count ≥ 0 and offset + count ≤ length, viewing exactly that range; a failure is Overflow when the checked end passes INT32_MAX and ArgumentOutOfRange otherwise |
| `Spans.ReadOnlySpan.FromArray` | Palmtree.Core.Framework/ReadOnlySpan.cs:84-85 | an array converts to a view of all of it, empty exactly when the array is |
| `Spans.ReadOnlySpan.Get` | Palmtree.Core.Framework/ReadOnlySpan.cs:28-35 | the indexer succeeds exactly for 0 ≤ index < Length and returns that element of the view; otherwise IndexOutOfRange |
| `Spans.ReadOnlySpan.IsEmpty` | Palmtree.Core.Framework/ReadOnlySpan.cs:43-47 | true exactly when the view holds no element |
| `Spans.ReadOnlySpan.Slice` | Palmtree.Core.Framework/ReadOnlySpan.cs:50-55 | succeeds exactly for 0 ≤ o ≤ Length, giving a view of the same array with Length − o elements equal to the suffix from o; otherwise ArgumentOutOfRange |
| `Spans.ReadOnlySpan.SliceN` | Palmtree.Core.Framework/ReadOnlySpan.cs:58-65 | succeeds exactly for 0 ≤ o ≤ Length, c ≥ 0 and o + c ≤ Length, giving the c elements from o; otherwise ArgumentOutOfRange |
| `Spans.ReadOnlySpan.CopyTo` | Palmtree.Core.Framework/ReadOnlySpan.cs:68-73 | fails with ArgumentError exactly when the destination is shorter; otherwise the destination starts with the view's elements, its remaining elements are unchanged and nothing outside the written range of its array changes |
| `Spans.ReadOnlySpan.ToArray` | Palmtree.Core.Framework/ReadOnlySpan.cs:76-81 | a sequence of Length elements whose i-th is what the indexer returns at i |
| `Spans.Span.Create` | Palmtree.Core.Framework/Span.cs:14-28 | the constructor succeeds exactly when offset ≥ 0, count ≥ 0 and offset + count ≤ length; a negative argument is ArgumentOutOfRange, a window past the end IndexOutOfRange |
| `Spans.Span.FromArray` | Palmtree.Core.Framework/Span.cs:100-101 | an array converts to a writable view of all of it from offset 0 |
| `Spans.Span.AsReadOnly` | Palmtree.Core.Framework/Span.cs:96-97 | the read-only view of a span has the same array, offset and elements |
| `Spans.Span.Get` | Palmtree.Core.Framework/Span.cs:33-38 | the getter succeeds exactly for 0 ≤ index < Length and returns that element; otherwise IndexOutOfRange |
| `Spans.Span.Set` | Palmtree.Core.Framework/Span.cs:41-46 | the setter succeeds exactly for 0 ≤ index < Length, after which that element holds the value and no other array element changes; otherwise IndexOutOfRange |
| `Spans.Span.IsEmpty` | Palmtree.Core.Framework/Span.cs:55-59 | true exactly when the span holds no element |
| `Spans.Span.Slice` | Palmtree.Core.Framework/Span.cs:62-67 | same bounds and contents rule as the read-only suffix slice, at offset + o in the same array |
| `Spans.Span.SliceN` | Palmtree.Core.Framework/Span.cs:70-77 | same bounds and contents rule as the read-only two-argument slice |
| `Spans.Span.CopyTo` | Palmtree.Core.Framework/Span.cs:80-85 | ArgumentError exactly when the destination is shorter; otherwise exactly Length elements are copied to its front and nothing else changes |
| `Spans.Span.ToArray` | Palmtree.Core.Framework/Span.cs:88-93 | a sequence of Length elements whose i-th is what the getter returns at i |
| `SpanExtensions.AsSpanFrom` | Palmtree.Core.Framework/SpanExtensions.cs:7-10 | the one-argument `AsSpan` succeeds exactly for offset 0, viewing the whole array; a positive offset inside the array fails in the constructor with IndexOutOfRange, any other with ArgumentOutOfRange |
| `SpanExtensions.AsSpan` | Palmtree.Core.Framework/SpanExtensions.cs:12-17 | succeeds exactly when 0 ≤ o ≤ length, c ≥ 0 and o + c ≤ length, viewing exactly array[o..o+c]; otherwise ArgumentOutOfRange |
| `SpanExtensions.SpanAsReadOnlySpan` | Palmtree.Core.Framework/SpanExtensions.cs:19-20 | keeps the array, offset, length and elements |
| `SpanExtensions.AsReadOnlySpanFrom` | Palmtree.Core.Framework/SpanExtensions.cs:22-25 | the one-argument `AsReadOnlySpan` succeeds exactly for offset 0; a positive offset fails with Overflow when offset + length passes INT32_MAX and ArgumentOutOfRange otherwise |
| `SpanExtensions.AsReadOnlySpan` | Palmtree.Core.Framework/SpanExtensions.cs:26-31 | succeeds exactly when offset and count are non-negative and the window ends inside the array, viewing those elements; a window whose end passes INT32_MAX slips past the unchecked bound check and fails with Overflow in the constructor, any other rejected window with ArgumentOutOfRange |
| `SpanExtensions.CopyArrayTo` | Palmtree.Core.Framework/SpanExtensions.cs:34-39 | ArgumentError exactly when the destination is shorter than the array; otherwise the array is copied to its front and nothing else changes |
| `SpanExtensions.OneArgumentOverloadsRejectPositiveOffsets` | Palmtree.Core.Framework/SpanExtensions.cs:7-32 | for every offset 0 < o ≤ length the one-argument overloads fail while the three-argument ones accept (o, length − o) |
| `ByteOrder.LeValue2` | Palmtree.Core.Framework/ByteDataExtensions.cs:107-118 | the little-endian value of two bytes is b0 + 2^8·b1 |
| `ByteOrder.BeValue2` | Palmtree.Core.Framework/ByteDataExtensions.cs:121-132 | the big-endian value of two bytes is b1 + 2^8·b0 |
| `ByteOrder.LeValue3` | Palmtree.Core.Framework/ByteDataExtensions.cs:143-154 | the little-endian value of three bytes is b0 + 2^8·b1 + 2^16·b2 |
| `ByteOrder.BeValue3` | Palmtree.Core.Framework/ByteDataExtensions.cs:157-168 | the big-endian value of three bytes is b2 + 2^8·b1 + 2^16·b0 |
| `ByteOrder.LeValue4` | Palmtree.Core.Framework/ByteDataExtensions.cs:179-190 | the little-endian value of four bytes is b0 + 2^8·b1 + 2^16·b2 + 2^24·b3 |
| `ByteOrder.BeValue4` | Palmtree.Core.Framework/ByteDataExtensions.cs:193-204 | the big-endian value of four bytes is b3 + 2^8·b2 + 2^16·b1 + 2^24·b0 |
| `ByteOrder.LeValue8` | Palmtree.Core.Framework/ByteDataExtensions.cs:215-226 | the little-endian value of eight bytes is Σ 2^(8i)·bi |
| `ByteOrder.BeValue8` | Palmtree.Core.Framework/ByteDataExtensions.cs:229-240 | the big-endian value of eight bytes is Σ 2^(8i)·b(7−i) |
| `ByteOrder.BeValueIsReversedLe` | Palmtree.Core.Framework/ByteDataExtensions.cs:121-132 | a big-endian reading is the little-endian reading of the reversed bytes |
| `ByteOrder.LeValueOfLeBytes` | Palmtree.Core.Framework/ByteDataExtensions.cs:342-354 | the bytes an encoder writes for a value below 2^(8n) read back as that value |
| `ByteOrder.LeBytesOfLeValue` | Palmtree.Core.Framework/ByteDataExtensions.cs:107-118 | reading bytes and writing the value back reproduces the bytes |
| `ByteDataExtensions.AsUint16Le` | Palmtree.Core.Framework/ByteDataExtensions.cs:107-118 | succeeds exactly on a 2-byte window, returning its little-endian value; otherwise ArgumentError, never a truncated read |
| `ByteDataExtensions.AsUint16Be` | Palmtree.Core.Framework/ByteDataExtensions.cs:121-132 | succeeds exactly on a 2-byte window, returning its big-endian value; otherwise ArgumentError |
| `ByteDataExtensions.AsInt16Le` | Palmtree.Core.Framework/ByteDataExtensions.cs:99-100 | the two's-complement reading of the unsigned little-endian value: congruent to it modulo 2^16, negative exactly when the high byte is ≥ 0x80 |
| `ByteDataExtensions.AsInt16Be` | Palmtree.Core.Framework/ByteDataExtensions.cs:103-104 | the two's-complement reading of the unsigned big-endian value, negative exactly when the first byte is ≥ 0x80 |
| `ByteDataExtensions.AsUint24Le` | Palmtree.Core.Framework/ByteDataExtensions.cs:143-154 | succeeds exactly on a 3-byte window, returning its little-endian value, below 2^24 |
| `ByteDataExtensions.AsUint24Be` | Palmtree.Core.Framework/ByteDataExtensions.cs:157-168 | succeeds exactly on a 3-byte window, returning its big-endian value, below 2^24 |
| `ByteDataExtensions.FromUint24ToInt24` | Palmtree.Core.Framework/ByteDataExtensions.cs:705-708 | sign-extends bit 23: the result lies in [−2^23, 2^23), is congruent to the input modulo 2^24, and is u − 2^24 exactly when a 24-bit u has bit 23 set |
| `ByteDataExtensions.AsInt24Le` | Palmtree.Core.Framework/ByteDataExtensions.cs:135-136 | succeeds exactly on 3 bytes, giving a value in [−2^23, 2^23) equal to the unsigned reading or that minus 2^24, negative exactly when the last byte is ≥ 0x80 |
| `ByteDataExtensions.AsInt24Be` | Palmtree.Core.Framework/ByteDataExtensions.cs:139-140 | the big-endian counterpart: negative exactly when the first byte is ≥ 0x80 |
| `ByteDataExtensions.AsUint32Le` | Palmtree.Core.Framework/ByteDataExtensions.cs:179-190 | succeeds exactly on a 4-byte window, returning its little-endian value; otherwise ArgumentError |
| `ByteDataExtensions.AsUint32Be` | Palmtree.Core.Framework/ByteDataExtensions.cs:193-204 | succeeds exactly on a 4-byte window, returning its big-endian value; otherwise ArgumentError |
| `ByteDataExtensions.AsInt32Le` | Palmtree.Core.Framework/ByteDataExtensions.cs:171-172 | the two's-complement reading of the unsigned little-endian value, negative exactly when the last byte is ≥ 0x80 |
| `ByteDataExtensions.AsInt32Be` | Palmtree.Core.Framework/ByteDataExtensions.cs:175-176 | the two's-complement reading of the unsigned big-endian value, negative exactly when the first byte is ≥ 0x80 |
| `ByteDataExtensions.AsUint64Le` | Palmtree.Core.Framework/ByteDataExtensions.cs:215-226 | succeeds exactly on an 8-byte window, returning its little-endian value; otherwise ArgumentError |
| `ByteDataExtensions.AsUint64Be` | Palmtree.Core.Framework/ByteDataExtensions.cs:229-240 | succeeds exactly on an 8-byte window, returning its big-endian value; otherwise ArgumentError |
| `ByteDataExtensions.AsInt64Le` | Palmtree.Core.Framework/ByteDataExtensions.cs:207-208 | the two's-complement reading of the unsigned little-endian value, negative exactly when the last byte is ≥ 0x80 |
| `ByteDataExtensions.AsInt64Be` | Palmtree.Core.Framework/ByteDataExtensions.cs:211-212 | the two's-complement reading of the unsigned big-endian value, negative exactly when the first byte is ≥ 0x80 |
| `ByteDataExtensions.GuidToByteArray` | Palmtree.Core.Framework/ByteDataExtensions.cs:544 | `Guid.ToByteArray`: 16 bytes, the first field as a LE u32 in bytes 0-3, the second and third as LE u16s in bytes 4-5 and 6-7, and the final 8 bytes as stored |
| `ByteDataExtensions.GuidFromByteArray` | Palmtree.Media/Wave/WaveFormatExtensible.cs:78 | `new Guid(byte[])` is a right inverse of `ToByteArray`: the GUID built from 16 bytes writes those bytes back |
| `ByteDataExtensions.GuidFromToByteArray` | Palmtree.Media/Wave/WaveFormatExtensible.cs:78 | and a left inverse: building a GUID from its own bytes gives the same GUID |
| `ByteDataExtensions.AsGuid` | Palmtree.Core.Framework/ByteDataExtensions.cs:307-330 | succeeds exactly on a 16-byte window, otherwise ArgumentError; the GUID read is the one whose wire bytes are the window |
| `ByteDataExtensions.GuidLayout` | Palmtree.Core.Framework/ByteDataExtensions.cs:315-327 | a GUID whose fields are the LE u32 of bytes 0-3, the LE u16s of bytes 4-5 and 6-7 and the raw bytes 8-15 has exactly those bytes as its wire form |
| `ByteDataExtensions.StoreUint16Le` | Palmtree.Core.Framework/ByteDataExtensions.cs:342-354 | succeeds exactly on a 2-byte window, otherwise ArgumentError; the window then holds the value little-endian and nothing outside it changes |
| `ByteDataExtensions.StoreUint16Be` | Palmtree.Core.Framework/ByteDataExtensions.cs:356-368 | succeeds exactly on a 2-byte window; the window holds the value big-endian and nothing outside it changes |
| `ByteDataExtensions.StoreInt16Le` | Palmtree.Core.Framework/ByteDataExtensions.cs:336-337 | the window holds the two's-complement image of the value (v + 2^16 for negative v), little-endian, and nothing else changes |
| `ByteDataExtensions.StoreInt16Be` | Palmtree.Core.Framework/ByteDataExtensions.cs:339-340 | the window holds the two's-complement image of the value, big-endian, and nothing else changes |
| `ByteDataExtensions.StoreUint24Le` | Palmtree.Core.Framework/ByteDataExtensions.cs:376-389 | succeeds exactly on a 3-byte window; it holds the low 24 bits of the value little-endian and nothing else changes |
| `ByteDataExtensions.StoreUint24Be` | Palmtree.Core.Framework/ByteDataExtensions.cs:391-404 | succeeds exactly on a 3-byte window; it holds the low 24 bits of the value big-endian and nothing else changes |
| `ByteDataExtensions.Low24` | Palmtree.Core.Framework/ByteDataExtensions.cs:370-371 | `(uint)value & 0xFFFFFF` is below 2^24, congruent to the value modulo 2^24, and the 24-bit two's-complement image of an in-range value |
| `ByteDataExtensions.StoreInt24Le` | Palmtree.Core.Framework/ByteDataExtensions.cs:370-371 | masks to 24 bits: the bytes written are congruent to the value modulo 2^24 and are its two's-complement image when it is in [−2^23, 2^23) |
| `ByteDataExtensions.StoreInt24Be` | Palmtree.Core.Framework/ByteDataExtensions.cs:373-374 | the big-endian counterpart of the masked 24-bit store |
| `ByteDataExtensions.StoreUint32Le` | Palmtree.Core.Framework/ByteDataExtensions.cs:412-426 | succeeds exactly on a 4-byte window; it holds the value little-endian and nothing else changes |
| `ByteDataExtensions.StoreUint32Be` | Palmtree.Core.Framework/ByteDataExtensions.cs:428-442 | succeeds exactly on a 4-byte window; it holds the value big-endian and nothing else changes |
| `ByteDataExtensions.StoreInt32Le` | Palmtree.Core.Framework/ByteDataExtensions.cs:406-407 | the window holds the two's-complement image of the value, little-endian, and nothing else changes |
| `ByteDataExtensions.StoreInt32Be` | Palmtree.Core.Framework/ByteDataExtensions.cs:409-410 | the window holds the two's-complement image of the value, big-endian, and nothing else changes |
| `ByteDataExtensions.StoreUint64Le` | Palmtree.Core.Framework/ByteDataExtensions.cs:450-468 | succeeds exactly on an 8-byte window; it holds the value little-endian and nothing else changes |
| `ByteDataExtensions.StoreUint64Be` | Palmtree.Core.Framework/ByteDataExtensions.cs:470-488 | succeeds exactly on an 8-byte window; it holds the value big-endian and nothing else changes |
| `ByteDataExtensions.StoreInt64Le` | Palmtree.Core.Framework/ByteDataExtensions.cs:444-445 | the window holds the two's-complement image of the value, little-endian, and nothing else changes |
| `ByteDataExtensions.StoreInt64Be` | Palmtree.Core.Framework/ByteDataExtensions.cs:447-448 | the window holds the two's-complement image of the value, big-endian, and nothing else changes |
| `ByteDataExtensions.StoreGuid` | Palmtree.Core.Framework/ByteDataExtensions.cs:542-548 | succeeds exactly on a 16-byte window, otherwise ArgumentError; nothing outside it changes and `AsGuid` reads the stored GUID back |
| `ByteDataExtensions.GuidFieldsRoundTrip` | Palmtree.Core.Framework/ByteDataExtensions.cs:307-330 | decoding a GUID's wire bytes gives the GUID back |
| `ByteDataExtensions.RoundTrip16` | Palmtree.Core.Framework/ByteDataExtensions.cs:336-368 | each 16-bit store read back by the matching decoder returns the value stored, signed and unsigned, both byte orders |
| `ByteDataExtensions.RoundTrip24` | Palmtree.Core.Framework/ByteDataExtensions.cs:370-404 | each 24-bit store read back by the matching decoder returns any value of the 24-bit range stored |
| `ByteDataExtensions.RoundTripInt24Le` | Palmtree.Core.Framework/ByteDataExtensions.cs:370-371 | `AsInt24Le` after `StoreInt24Le` returns every v in [−2^23, 2^23) |
| `ByteDataExtensions.RoundTripInt24Be` | Palmtree.Core.Framework/ByteDataExtensions.cs:373-374 | `AsInt24Be` after `StoreInt24Be` returns every v in [−2^23, 2^23) |
| `ByteDataExtensions.RoundTrip32` | Palmtree.Core.Framework/ByteDataExtensions.cs:406-442 | each 32-bit store read back by the matching decoder returns the value stored |
| `ByteDataExtensions.RoundTrip64` | Palmtree.Core.Framework/ByteDataExtensions.cs:444-488 | each 64-bit store read back by the matching decoder returns the value stored |
| `ByteDataExtensions.ReadThenStore32` | Palmtree.Core.Framework/ByteDataExtensions.cs:412-442 | storing the value just read from a 4-byte window leaves its bytes as they were |
| `ChunkFraming.ReadChunkId` | Palmtree.Media/Wave/WaveDataChunk.cs:70 | the chunk id is the LE u32 of the first 4 bytes; fewer than 4 bytes is ArgumentOutOfRange |
| `ChunkFraming.ReadChunkPayload` | Palmtree.Media/Wave/WaveDataChunk.cs:73-76 | succeeds exactly when there are 8 header bytes and 8 + the declared size fits the buffer, giving exactly the declared payload bytes; a short header is ArgumentOutOfRange, an oversized chunk BadMediaFormat, or Overflow past INT32_MAX |
| `ChunkFraming.PaddedTotalBytes` | Palmtree.Media/Wave/WaveDataChunk.cs:80 | a chunk occupies 8 + size bytes plus one for an odd size: always even and at least 8; Overflow past INT32_MAX |
| `ChunkFraming.StrayHeader` | Palmtree.Media/Wave/WaveDataChunk.cs:94-98 | the header segment is 12 bytes: the id, the payload length, and four zero bytes |
| `ChunkFraming.DeserializeRaw` | Palmtree.Media/Wave/WaveUnknownChunk.cs:20-33 | succeeds exactly when the id is acceptable and the declared payload fits; keeps the id, an owned copy of exactly the payload, and the padded total size; a wrong id is ArgumentError, an accepted id with 4 to 7 bytes ArgumentOutOfRange, an oversized payload BadMediaFormat (Overflow when 8 + size passes INT32_MAX), and a padded total past INT32_MAX Overflow |
| `ChunkFraming.SerializeRaw` | Palmtree.Media/Wave/WaveUnknownChunk.cs:35-45 | emits the 12-byte header, the payload, and a zero pad byte exactly when the payload length is odd |
| `ChunkFraming.RawReparse` | Palmtree.Media/Wave/WaveUnknownChunk.cs:20-45 | parsing the serialised raw chunk keeps its id, length and total size but reads back four zero bytes followed by all but the last four payload bytes |
| `ChunkFraming.StrayHeaderShiftsPayload` | Palmtree.Media/Wave/WaveUnknownChunk.cs:37-42 | the payload read back equals the payload written exactly when every payload byte is zero |
| `WaveFormatExtensible.SubtypesDifferInFirstField` | Palmtree.Media/Wave/WaveFormatExtensible.cs:9-10 | the PCM and IEEE-float sub-format GUIDs differ, and only in their first field |
| `WaveFormatExtensible.Deserialize` | Palmtree.Media/Wave/WaveFormatExtensible.cs:74-80 | succeeds exactly on at least 22 bytes (otherwise ArgumentOutOfRange from a slice), reading Samples at 0, the channel mask at 2 and the GUID from bytes 6-21, ignoring the rest |
| `WaveFormatExtensible.Serialize` | Palmtree.Media/Wave/WaveFormatExtensible.cs:82-90 | succeeds exactly when the channel mask fits 16 bits (the checked ushort cast), otherwise Overflow; emits one segment of 22 bytes |
| `WaveFormatExtensible.RoundTrip` | Palmtree.Media/Wave/WaveFormatExtensible.cs:74-90 | for a mask ≤ 0xFFFF, parsing the serialised block gives back Samples, the mask and the sub-format |
| `WaveFormatExtendedInfo.Deserialize` | Palmtree.Media/Wave/WaveFormatExtendedInfo.cs:7-16 | the EXTENSIBLE tag dispatches to the extensible parser; any other tag is BadMediaFormat |
| `WaveFormatExtendedInfo.Serialize` | Palmtree.Media/Wave/WaveFormatExtendedInfo.cs:18-20 | the only variant serialises exactly when its mask fits 16 bits, to as many bytes as its `TotalBytes` says |
| `WaveFormatChunk.PcmHeader` | Palmtree.Media/Wave/WaveFormatChunk.cs:216-230 | the PCM segment is 24 bytes: the "fmt " id, size 16, and the six basic fields |
| `WaveFormatChunk.ExtensibleHeader` | Palmtree.Media/Wave/WaveFormatChunk.cs:232-238 | the extensible segment is 26 bytes: the id, size 18 + n, the basic fields and cbSize n |
| `WaveFormatChunk.DeserializePayload` | Palmtree.Media/Wave/WaveFormatChunk.cs:167-211 | fewer than 16 bytes is BadImageFormat; a tag other than PCM or EXTENSIBLE is BadMediaFormat, so is PCM with more than 16 bytes, and so is EXTENSIBLE with a 1-byte tail or a cbSize that does not account for every remaining byte; 16 bytes with either tag parse; EXTENSIBLE with a matching cbSize parses exactly when there are at least 40 bytes, else ArgumentOutOfRange; a parsed chunk has the fields of the first 16 bytes, no extension exactly when there are 16 bytes, and otherwise the extensible block parsed from the bytes after cbSize |
| `WaveFormatChunk.Deserialize` | Palmtree.Media/Wave/WaveFormatChunk.cs:157-212 | a wrong id is ArgumentError, the right id with 4 to 7 bytes ArgumentOutOfRange, an oversized payload BadMediaFormat (Overflow when 8 + size passes INT32_MAX); a framed chunk is exactly its payload parsed as above, and its total size is 8 + size with no pad byte |
| `WaveFormatChunk.Serialize` | Palmtree.Media/Wave/WaveFormatChunk.cs:214-246 | PCM emits one 24-byte segment; EXTENSIBLE a 26-byte header (size 18 + n, cbSize n) then the extension's bytes, 26 bytes in all without an extension and 48 with one, failing with Overflow exactly when its mask does not fit 16 bits; any other tag is BadMediaFormat |
| `WaveFormatChunk.ValidBitsPerSample` | Palmtree.Media/Wave/WaveFormatChunk.cs:44-68 | with an extension, its Samples field; without, the bit depth when it is 8 or 16, and BadMediaFormat otherwise |
| `WaveFormatChunk.SampleDataType` | Palmtree.Media/Wave/WaveFormatChunk.cs:70-128 | succeeds exactly for 8/16 bits without an extension, 8/16/24/32/64 with the PCM GUID and 32/64 with the float GUID; the type has that bit width and is a float type exactly for the float GUID; an unknown GUID is NotSupported, a bad bit depth BadMediaFormat |
| `WaveFormatChunk.ChannelLayout` | Palmtree.Media/Wave/WaveFormatChunk.cs:130-155 | with an extension, its channel mask; without, mono for one channel and stereo for two, and BadMediaFormat otherwise |
| `WaveFormatChunk.ValidBitsAgreeWithSampleType` | Palmtree.Media/Wave/WaveFormatChunk.cs:44-128 | without an extension the valid bit depth and the sample type succeed together and the valid bits are the type's width |
| `WaveFormatChunk.FieldBytesRoundTrip` | Palmtree.Media/Wave/WaveFormatChunk.cs:169-174 | the six fields read from the 16 bytes the serialiser writes are the fields written |
| `WaveFormatChunk.RoundTripPcm` | Palmtree.Media/Wave/WaveFormatChunk.cs:157-246 | a PCM chunk parses back from its serialised bytes with every field, no extension and total size 24 |
| `WaveFormatChunk.PcmPrefix` | Palmtree.Media/Wave/WaveFormatChunk.cs:157-192 | a buffer that starts with a PCM chunk parses to that chunk whatever bytes follow it |
| `WaveFormatChunk.PcmPayload` | Palmtree.Media/Wave/WaveFormatChunk.cs:167-192 | the 16 field bytes of a PCM chunk parse as a payload to the same fields with total size 24 |
| `WaveFormatChunk.DeserializeFramed` | Palmtree.Media/Wave/WaveFormatChunk.cs:157-165 | a chunk image whose declared size is exactly the rest of it parses as its payload does |
| `WaveFormatChunk.PayloadWithExtension` | Palmtree.Media/Wave/WaveFormatChunk.cs:193-211 | a 40-byte payload with cbSize 22 parses to the basic fields plus the extension parsed from its last 22 bytes, total size 48 |
| `WaveFormatChunk.RoundTripExtensible` | Palmtree.Media/Wave/WaveFormatChunk.cs:157-246 | an extensible chunk whose mask fits 16 bits parses back from its serialised bytes with every field and the same extension, total size 48 |
| `WaveFormatChunk.ExtensiblePayloadParses` | Palmtree.Media/Wave/WaveFormatChunk.cs:193-211 | the serialised extensible chunk is 48 bytes and its payload parses back to the chunk |
| `WaveFormatChunk.ExtensibleBytes` | Palmtree.Media/Wave/WaveFormatChunk.cs:232-241 | the serialised extensible chunk is its 26-byte header followed by the 22 bytes of the extension |
| `WaveFormatChunk.PayloadWithEmptyExtension` | Palmtree.Media/Wave/WaveFormatChunk.cs:195-200 | an 18-byte extensible payload with cbSize 0 passes the length checks and then fails in the extension parser with ArgumentOutOfRange |
| `WaveFormatChunk.ExtensibleWithoutExtensionIsRejected` | Palmtree.Media/Wave/WaveFormatChunk.cs:232-241 | an extensible chunk without an extension is written with cbSize 0, and parsing that output fails with ArgumentOutOfRange |
| `WaveFormatChunk.EmptyExtensionHeaderRejected` | Palmtree.Media/Wave/WaveFormatChunk.cs:195-200 | a 26-byte extensible header declaring cbSize 0 is rejected with ArgumentOutOfRange |
| `WaveFormatChunk.ExtensionOnlyForExtensible` | Palmtree.Media/Wave/WaveFormatChunk.cs:176-200 | every parsed chunk that carries an extension has the EXTENSIBLE tag, and a framed PCM chunk declaring more than 16 payload bytes is rejected with BadMediaFormat before the extension dispatch, so the dispatcher's format-error branch is unreachable from here |
| `WaveDataChunk.Deserialize` | Palmtree.Media/Wave/WaveDataChunk.cs:68-82 | a wrong id is ArgumentError, the right id with 4 to 7 bytes ArgumentOutOfRange, an oversized payload BadMediaFormat (Overflow when 8 + size passes INT32_MAX), a padded total past INT32_MAX Overflow; otherwise an owned copy of exactly buffer[8..8+size) and the total 8 + size, plus 1 for an odd size |
| `WaveDataChunk.GetSampleLength` | Palmtree.Media/Wave/WaveDataChunk.cs:28-34 | succeeds exactly when the block size divides the data length, returning q with q·blockSize = length; block size 0 is DivideByZero, a remainder BadImageFormat |
| `WaveDataChunk.GetSampleDataRegion` | Palmtree.Media/Wave/WaveDataChunk.cs:36-38 | the bytes [blockSize·frame, blockSize·frame + blockSize·frameLength) with 32-bit products, when they lie inside the data; otherwise Overflow when the region starts inside the data and its end passes INT32_MAX, ArgumentOutOfRange for every other failure |
| `WaveDataChunk.RegionIsFrames` | Palmtree.Media/Wave/WaveDataChunk.cs:36-38 | without wrap-around the region is frames [frame, frame + frameLength): it exists exactly when they end inside the data and holds exactly their bytes |
| `WaveDataChunk.GetSampleDataAsU8` | Palmtree.Media/Wave/WaveDataChunk.cs:40-42 | the byte at frame·blockSize + channel when that index is inside the data; otherwise IndexOutOfRange |
| `WaveDataChunk.SampleWindow` | Palmtree.Media/Wave/WaveDataChunk.cs:44-58 | the `width` bytes at frame·blockSize + channel·width when they lie inside the data; otherwise ArgumentOutOfRange |
| `WaveDataChunk.GetSampleDataAsS16LE` | Palmtree.Media/Wave/WaveDataChunk.cs:44-46 | the signed LE 16-bit value at frame·blockSize + 2·channel, when inside the data; otherwise ArgumentOutOfRange |
| `WaveDataChunk.GetSampleDataAsS24LE` | Palmtree.Media/Wave/WaveDataChunk.cs:48-50 | the sign-extended LE 24-bit value at frame·blockSize + 3·channel, when inside the data |
| `WaveDataChunk.GetSampleDataAsS32LE` | Palmtree.Media/Wave/WaveDataChunk.cs:52-54 | the signed LE 32-bit value at frame·blockSize + 4·channel, when inside the data |
| `WaveDataChunk.GetSampleDataAsS64LE` | Palmtree.Media/Wave/WaveDataChunk.cs:56-58 | the signed LE 64-bit value at frame·blockSize + 8·channel, when inside the data |
| `WaveDataChunk.ChannelNotChecked` | Palmtree.Media/Wave/WaveDataChunk.cs:44-46 | the channel is not checked: channel `channels + c` of one frame is channel c of the next |
| `WaveDataChunk.Serialize` | Palmtree.Media/Wave/WaveDataChunk.cs:92-102 | the bytes written are the 12-byte header (id, length, four zeros), the samples, and a zero pad byte for an odd length |
| `WaveDataChunk.SerializeRange` | Palmtree.Media/Wave/WaveDataChunk.cs:87-88 | succeeds exactly when the frame region exists, and then serialises the same chunk around only that region; on failure it raises the region's error |
| `WaveDataChunk.SerializeAllFrames` | Palmtree.Media/Wave/WaveDataChunk.cs:84-88 | selecting all frames serialises the same bytes as the whole chunk |
| `WaveFactChunk.Deserialize` | Palmtree.Media/Wave/WaveFactChunk.cs:18-33 | a wrong id is ArgumentError, the right id with 4 to 7 bytes ArgumentOutOfRange, an oversized payload BadMediaFormat (Overflow when 8 + size passes INT32_MAX); succeeds exactly when the declared size is 4 and fits, any other fitting size is BadMediaFormat; the count is the LE u32 of the payload and the total is 12 |
| `WaveFactChunk.Serialize` | Palmtree.Media/Wave/WaveFactChunk.cs:35-43 | one 12-byte segment: the "fact" id, the size 4, the sample count |
| `WaveFactChunk.RoundTrip` | Palmtree.Media/Wave/WaveFactChunk.cs:18-43 | parsing the serialised chunk gives back the sample count with total size 12 |
| `WaveFactChunk.ReserializeIdentity` | Palmtree.Media/Wave/WaveFactChunk.cs:18-43 | re-serialising a parsed chunk reproduces the 12 bytes it was parsed from |
| `WaveId3TagChunk.Deserialize` | Palmtree.Media/Wave/WaveId3TagChunk.cs:20-34 | a wrong id is ArgumentError, the right id with 4 to 7 bytes ArgumentOutOfRange, an oversized payload BadMediaFormat (Overflow when 8 + size passes INT32_MAX), a padded total past INT32_MAX Overflow; otherwise an owned copy of exactly the payload and the padded total size |
| `WaveId3TagChunk.Serialize` | Palmtree.Media/Wave/WaveId3TagChunk.cs:36-46 | the bytes written are the id, the payload length, four zero bytes, the payload, and a zero pad byte for an odd length |
| `WaveId3TagChunk.Reparse` | Palmtree.Media/Wave/WaveId3TagChunk.cs:20-46 | re-parsing keeps the id and length but reads the payload four bytes early; it comes back intact exactly when it is all zeros |
| `WaveListChunk.Deserialize` | Palmtree.Media/Wave/WaveListChunk.cs:20-34 | a wrong id is ArgumentError, the right id with 4 to 7 bytes ArgumentOutOfRange, an oversized payload BadMediaFormat (Overflow when 8 + size passes INT32_MAX), a padded total past INT32_MAX Overflow; otherwise an owned copy of exactly the payload and the padded total size |
| `WaveListChunk.Serialize` | Palmtree.Media/Wave/WaveListChunk.cs:36-46 | the bytes written are the id, the payload length, four zero bytes, the payload, and a zero pad byte for an odd length |
| `WaveListChunk.Reparse` | Palmtree.Media/Wave/WaveListChunk.cs:20-46 | re-parsing keeps the id and length but reads the payload four bytes early; it comes back intact exactly when it is all zeros |
| `WaveUnknownChunk.Deserialize` | Palmtree.Media/Wave/WaveUnknownChunk.cs:20-33 | any id is accepted and kept; fewer than 8 bytes is ArgumentOutOfRange, an oversized payload BadMediaFormat (Overflow when 8 + size passes INT32_MAX), a padded total past INT32_MAX Overflow; otherwise an owned copy of exactly the payload and the padded total size |
| `WaveUnknownChunk.Serialize` | Palmtree.Media/Wave/WaveUnknownChunk.cs:35-45 | re-emits the original id and the payload length, four zero bytes, the payload and a pad byte for an odd length |
| `WaveUnknownChunk.Reparse` | Palmtree.Media/Wave/WaveUnknownChunk.cs:20-45 | re-parsing keeps the id and length but the payload comes back intact exactly when it is all zeros |
| `WaveFileContainer.DeserializeChunk` | Palmtree.Media/Wave/WaveFileContainer.cs:134-164 | dispatches on the id: the result is exactly the matching kind's parser result wrapped in that kind, and the parser's error is passed on unchanged; a parsed chunk occupies at least 8 bytes and at most one byte past the buffer, the extra byte only for an odd-sized raw chunk |
| `WaveFileContainer.ScanChunks` | Palmtree.Media/Wave/WaveFileContainer.cs:129-165 | an empty area scans to no chunks, 1 to 7 leftover bytes are BadMediaFormat, and the chunks found cover the area exactly |
| `WaveFileContainer.LastWins` | Palmtree.Media/Wave/WaveFileContainer.cs:137-156 | a known kind's slot is filled exactly when a chunk of that kind occurs, and then holds the last one |
| `WaveFileContainer.RecordSlot` | Palmtree.Media/Wave/WaveFileContainer.cs:135-164 | one loop iteration fills its own kind's slot and leaves the other slots alone |
| `WaveFileContainer.OthersInOrder` | Palmtree.Media/Wave/WaveFileContainer.cs:157-163 | the unknown chunks are kept in the order met, and only they are |
| `WaveFileContainer.Body` | Palmtree.Media/Wave/WaveFileContainer.cs:117-121 | the chunk area is the buffer after its 12 header bytes |
| `WaveFileContainer.ReadHeader` | Palmtree.Media/Wave/WaveFileContainer.cs:110-121 | accepts exactly "RIFF", an outer size equal to the buffer length − 8 and "WAVE"; a wrong magic or size is BadMediaFormat (Overflow past INT32_MAX), a short buffer ArgumentOutOfRange, a wrong form id BadImageFormat |
| `WaveFileContainer.DeserializeChunks` | Palmtree.Media/Wave/WaveFileContainer.cs:123-172 | a scan error is passed on; otherwise succeeds exactly when fmt and data were found (else BadMediaFormat) and holds the last of each known kind and the unknown chunks in order |
| `WaveFileContainer.Deserialize` | Palmtree.Media/Wave/WaveFileContainer.cs:106-178 | a bad outer header fails with the header's error; otherwise the result of scanning the chunk area |
| `WaveFileContainer.SamplesPerSeconds` | Palmtree.Media/Wave/WaveFileContainer.cs:24-28 | the rate as an `int` through a checked cast: succeeds exactly when the stored rate is at most INT32_MAX, keeping it, and otherwise raises Overflow |
| `WaveFileContainer.RateConvertsExactlyWhenHighBitClear` | Palmtree.Media/Wave/WaveFileContainer.cs:24-28 | for a format read from a `fmt ` payload, the rate converts exactly when the top bit of payload byte 7 is clear |
| `WaveFileContainer.TotalFrames` | Palmtree.Media/Wave/WaveFileContainer.cs:60-64 | with a fact chunk, its count as an unchecked `int`; without, q with q·blockSize equal to the data length, DivideByZero for block size 0 and BadImageFormat for a remainder |
| `WaveFileContainer.TotalFramesCoverData` | Palmtree.Media/Wave/WaveFileContainer.cs:60-76 | without a fact chunk, the region of all counted frames is exactly the sample data |
| `WaveFileContainer.GetSampleDataRegion` | Palmtree.Media/Wave/WaveFileContainer.cs:74-76 | the data chunk's bytes [start, start + count), where start = blockSize·frame and count = blockSize·frameLength are 32-bit products with the format's block size, when they lie inside the data; otherwise Overflow when the end passes INT32_MAX from a start inside the data, ArgumentOutOfRange for every other failure |
| `WaveFileContainer.GetSampleDataAsU8` | Palmtree.Media/Wave/WaveFileContainer.cs:78-80 | the byte at frame·blockSize + channel of the data, or IndexOutOfRange |
| `WaveFileContainer.GetSampleDataAsS16LE` | Palmtree.Media/Wave/WaveFileContainer.cs:82-84 | the signed 16-bit sample at frame·blockSize + 2·channel, or ArgumentOutOfRange |
| `WaveFileContainer.GetSampleDataAsS24LE` | Palmtree.Media/Wave/WaveFileContainer.cs:86-88 | the signed 24-bit sample at frame·blockSize + 3·channel, or ArgumentOutOfRange |
| `WaveFileContainer.GetSampleDataAsS32LE` | Palmtree.Media/Wave/WaveFileContainer.cs:90-92 | the signed 32-bit sample at frame·blockSize + 4·channel, or ArgumentOutOfRange |
| `WaveFileContainer.GetSampleDataAsS64LE` | Palmtree.Media/Wave/WaveFileContainer.cs:94-96 | the signed 64-bit sample at frame·blockSize + 8·channel, or ArgumentOutOfRange |
| `WaveFileContainer.Segments` | Palmtree.Media/Wave/WaveFileContainer.cs:195-205 | the segments are fmt, fact, id3, LIST, the unknown chunks in read order, then the data; only the fmt serialisation can fail |
| `WaveFileContainer.WriteContainer` | Palmtree.Media/Wave/WaveFileContainer.cs:206-219 | the output is 12 + Σ segment bytes long: "RIFF", a size equal to the output length + 4, "WAVE", then the segments; Overflow past INT32_MAX |
| `WaveFileContainer.SerializeWithData` | Palmtree.Media/Wave/WaveFileContainer.cs:193-220 | the file written is "RIFF", a size field 4 more than the output length, "WAVE", then exactly the bytes of the segments; Overflow when the total passes INT32_MAX |
| `WaveFileContainer.Serialize` | Palmtree.Media/Wave/WaveFileContainer.cs:180-181 | the whole file: "RIFF", the size field, "WAVE", then the segments with the data chunk's own segments last |
| `WaveFileContainer.SerializeRange` | Palmtree.Media/Wave/WaveFileContainer.cs:190-191 | a frame range outside the data fails before anything else is written, with the region's error (ArgumentOutOfRange, or Overflow when start + count passes INT32_MAX); otherwise the output starts with "RIFF", the size field and "WAVE" |
| `WaveFileContainer.WrappingRangeOverflows` | Palmtree.Media/Wave/WaveFileContainer.cs:190-191 | with single-byte frames and at least one data byte, `Serialize(1, INT32_MAX)` fails with Overflow, not ArgumentOutOfRange |
| `WaveFileContainer.LongRangeOverflows` | Palmtree.Media/Wave/WaveFileContainer.cs:190-191 | with single-byte frames, every range that starts inside the data and ends past INT32_MAX fails with Overflow |
| `WaveFileContainer.OwnOutputRejected` | Palmtree.Media/Wave/WaveFileContainer.cs:207-210 | the parser rejects everything the serialiser writes: the size field claims 12 bytes more than follow it (BadMediaFormat, or Overflow near INT32_MAX) |
| `WaveFileContainer.RangeReplacesOnlyData` | Palmtree.Media/Wave/WaveFileContainer.cs:190-205 | the ranged output equals the full output of the same file with only the data replaced by the selected frames; the fact chunk and every other chunk are unchanged |
| `WaveFileContainer.OddFinalChunkWithoutPad` | Palmtree.Media/Wave/WaveFileContainer.cs:141-164 | scanning a chunk area whose last chunk is a raw chunk of odd size without its pad byte fails with ArgumentOutOfRange (Overflow when the area is INT32_MAX bytes long), not with a format error |
| `WaveFileContainer.CopyAndAdvance` | Palmtree.Media/Wave/WaveFileContainer.cs:213-217 | one copy-loop step writes the segment at the window's start, moves the window past it and changes nothing else |
| `WaveFileContainer.CopySegments` | Palmtree.Media/Wave/WaveFileContainer.cs:212-217 | the copy loop leaves the segments side by side from the window's start and changes nothing else in the array; in a 12 + Σ-byte array holding the outer header, with the window at offset 12, the result is exactly the file `WriteContainer` describes |
| `WaveFileContainer.RiffFileParses` | Palmtree.Media/Wave/WaveFileContainer.cs:106-178 | a file laid out as the RIFF definition wants (outer size = length − 8, a PCM fmt chunk, a padded data chunk) is accepted with both chunks intact |

## Left out

- Floating-point paths: `As{Single,Double}{Le,Be}`, `Store{Single,Double}*`, the host-endianness copy helpers and the `F32`/`F64` sample accessors, because they depend on IEEE-754 and the host byte order.
- Time conversions: `GetFrameNumberFromTime`, `GetTimeFromFrameNumber` and `Serialize(TimeSpan, TimeSpan)`, because they use `double` arithmetic.
- The `Span<byte>` decoder overloads (ByteDataExtensions.cs lines 11-91): each converts the span to a read-only span and calls the modelled decoder.
- `System.Guid` internals: a GUID is its four fields, and `ToByteArray` / `new Guid(byte[])` are the explicit byte layout `GuidToByteArray` / `GuidFromByteArray`.
- `ArgumentNullException`: arrays are values and cannot be null.
- Aliasing in `CopyTo` between overlapping source and destination: sequences are values, so a copy reads the source as it was.
- `OutOfMemoryException` from `new byte[]`, and the lazy evaluation of the serialisers' iterators (an error surfaces when the container serialises, which is where the model reports it).
- The `UnexpectedEndOfFileException` handler of the container parser (lines 174-177): nothing in the modelled code throws it.
- `NotSupportedMediaException`: no modelled path throws it.
- The numeric values of `ChannelLayout.AUDIO_SPEAKER_MONO` and `AUDIO_SPEAKER_STEREO`: the enum is defined outside the codec, so they are uninterpreted constants.
- The non-extensible branches of `ValidBitsPerSample`, `SampleDataType` and `ChannelLayout` (WaveFormatChunk.cs lines 65, 125, 152): the only extension kind is WAVE_FORMAT_EXTENSIBLE, so these branches cannot be reached and have no counterpart.
- Pass-through properties (`Channels`, `RawData`, `RawSampleData`, `SampleData` and the like): they return a datatype field unchanged. `SamplesPerSeconds` is not one of them: its checked cast is modelled as `WaveFileContainer.SamplesPerSeconds`.
- The GUI, the older `Wave.bak` reader, `StreamExtensions`, the waveform analysis and the demo programs: they are I/O, UI or floating-point code outside the codec.
- SpanExtensions.AsSpanFrom: the constructor's `offset + count > array.Length` is unchecked 32-bit arithmetic; for a positive offset with offset + length > INT32_MAX the sum wraps negative and the source builds a window past the array end, which the model reports as IndexOutOfRange because a span here is always inside its array.
- SpanExtensions.AsSpan: its own check and the constructor's add offset and count unchecked; a count that makes the sum wrap past INT32_MAX lets the source build a window past the array end, where the model reports ArgumentOutOfRange.
- Spans.Span.SliceN: the same unchecked `offset + count` as `AsSpan`, with the same difference for counts near INT32_MAX.
- Spans.Span.Create: bounds are compared in exact arithmetic, so the wrap-around described for `AsSpan` is not modelled here either.
- Spans.ReadOnlySpan.SliceN: `offset + count > Length` is unchecked; when the sum wraps past INT32_MAX the check passes and the constructor's checked addition raises Overflow, where the model reports ArgumentOutOfRange.
- WaveDataChunk.SampleWindow: a sample offset within `width` bytes of INT32_MAX makes the unchecked `offset + width` of `AsSpan` wrap; the decoder's conversion to a read-only span (Span.cs:96-97) then runs the checked end sum of ReadOnlySpan.cs:20 and raises Overflow in the source, where the model reports ArgumentOutOfRange. No array a .NET runtime can allocate is long enough for this to happen.
- WaveFileContainer.SerializeRange: its contract gives the error case and the header; the bytes are stated through `RangeReplacesOnlyData`.

=== FILE: byte_data.dfy ===
/** Exact-width integer and GUID decoding from, and encoding into, byte spans. A window of the wrong
    length is an argument error (the source's `GetInvalidBufferSizeException`); nothing is truncated.
    The `Span<byte>` overloads of the decoders convert to a read-only span first, so only the
    read-only ones are modelled. */
module ByteDataExtensions {
  import opened Errors
  import opened Ints
  import opened Spans
  import opened SpanExtensions
  import opened ByteOrder

  // ---------------------------------------------------------------- decoding

  function AsUint16Le(buffer: ReadOnlySpan<byte>): (r: Result<uint16>)
    requires buffer.Valid()
    ensures r.Ok? <==> buffer.length == 2
    ensures r.Err? ==> r.error == ArgumentError
    ensures r.Ok? ==> r.value == LeValue(buffer.Contents())
  {
    if buffer.length != 2 then Err(ArgumentError)
    else
      var p, o := buffer.source, buffer.offset;
      LeValue2(buffer.Contents());
      Ok(p[o] as int + p[o + 1] as int * 0x100)
  }

  function AsUint16Be(buffer: ReadOnlySpan<byte>): (r: Result<uint16>)
    requires buffer.Valid()
    ensures r.Ok? <==> buffer.length == 2
    ensures r.Err? ==> r.error == ArgumentError
    ensures r.Ok? ==> r.value == BeValue(buffer.Contents())
  {
    if buffer.length != 2 then Err(ArgumentError)
    else
      var p, o := buffer.source, buffer.offset;
      BeValue2(buffer.Contents());
      Ok(p[o + 1] as int + p[o] as int * 0x100)
  }

  /** `unchecked((short)AsUint16Le())`: the two's complement reading, negative exactly when the
      high (last) byte has its top bit set. */
  function AsInt16Le(buffer: ReadOnlySpan<byte>): (r: Result<int16>)
    requires buffer.Valid()
    ensures r.Ok? <==> buffer.length == 2
    ensures r.Err? ==> r.error == ArgumentError
    ensures r.Ok? ==> (r.value - LeValue(buffer.Contents())) % 0x1_0000 == 0
    ensures r.Ok? ==> r.value == LeValue(buffer.Contents()) || r.value == LeValue(buffer.Contents()) - 0x1_0000
    ensures r.Ok? ==> (r.value < 0 <==> buffer.Contents()[1] >= 0x80)
  {
    var u :- AsUint16Le(buffer);
    LeValue2(buffer.Contents());
    Ok(Reinterpret(u, 0x1_0000))
  }

  function AsInt16Be(buffer: ReadOnlySpan<byte>): (r: Result<int16>)
    requires buffer.Valid()
    ensures r.Ok? <==> buffer.length == 2
    ensures r.Err? ==> r.error == ArgumentError
    ensures r.Ok? ==> (r.value - BeValue(buffer.Contents())) % 0x1_0000 == 0
    ensures r.Ok? ==> r.value == BeValue(buffer.Contents()) || r.value == BeValue(buffer.Contents()) - 0x1_0000
    ensures r.Ok? ==> (r.value < 0 <==> buffer.Contents()[0] >= 0x80)
  {
    var u :- AsUint16Be(buffer);
    BeValue2(buffer.Contents());
    Ok(Reinterpret(u, 0x1_0000))
  }

  function AsUint24Le(buffer: ReadOnlySpan<byte>): (r: Result<uint32>)
    requires buffer.Valid()
    ensures r.Ok? <==> buffer.length == 3
    ensures r.Err? ==> r.error == ArgumentError
    ensures r.Ok? ==> r.value == LeValue(buffer.Contents()) < 0x100_0000
  {
    if buffer.length != 3 then Err(ArgumentError)
    else
      var p, o := buffer.source, buffer.offset;
      LeValue3(buffer.Contents());
      Ok(p[o] as int + p[o + 1] as int * 0x100 + p[o + 2] as int * 0x1_0000)
  }

  function AsUint24Be(buffer: ReadOnlySpan<byte>): (r: Result<uint32>)
    requires buffer.Valid()
    ensures r.Ok? <==> buffer.length == 3
    ensures r.Err? ==> r.error == ArgumentError
    ensures r.Ok? ==> r.value == BeValue(buffer.Contents()) < 0x100_0000
  {
    if buffer.length != 3 then Err(ArgumentError)
    else
      var p, o := buffer.source, buffer.offset;
      BeValue3(buffer.Contents());
      Ok(p[o + 2] as int + p[o + 1] as int * 0x100 + p[o] as int * 0x1_0000)
  }

  /** Sign-extends bit 23: with bit 23 set the top byte is filled with ones (`value | 0xff000000`),
      otherwise it is cleared (`value & 0x00ffffff`); either word is then cast unchecked to `int`.
      Whatever the top byte held, the result is the 24-bit two's complement reading of the low
      24 bits. */
  function FromUint24ToInt24(value: uint32): (r: int32)
    ensures -0x80_0000 <= r < 0x80_0000
    ensures (r - value) % 0x100_0000 == 0
    ensures value < 0x100_0000 ==> r == (if value >= 0x80_0000 then value - 0x100_0000 else value)
  {
    var low := value % 0x100_0000;
    if (value / 0x80_0000) % 2 != 0 then Reinterpret(0xFF00_0000 + low, 0x1_0000_0000)
    else Reinterpret(low, 0x1_0000_0000)
  }

  function AsInt24Le(buffer: ReadOnlySpan<byte>): (r: Result<int32>)
    requires buffer.Valid()
    ensures r.Ok? <==> buffer.length == 3
    ensures r.Err? ==> r.error == ArgumentError
    ensures r.Ok? ==> -0x80_0000 <= r.value < 0x80_0000
    ensures r.Ok? ==> (r.value - LeValue(buffer.Contents())) % 0x100_0000 == 0
    ensures r.Ok? ==> r.value == LeValue(buffer.Contents()) || r.value == LeValue(buffer.Contents()) - 0x100_0000
    ensures r.Ok? ==> (r.value < 0 <==> buffer.Contents()[2] >= 0x80)
  {
    var u :- AsUint24Le(buffer);
    LeValue3(buffer.Contents());
    Ok(FromUint24ToInt24(u))
  }

  function AsInt24Be(buffer: ReadOnlySpan<byte>): (r: Result<int32>)
    requires buffer.Valid()
    ensures r.Ok? <==> buffer.length == 3
    ensures r.Err? ==> r.error == ArgumentError
    ensures r.Ok? ==> -0x80_0000 <= r.value < 0x80_0000
    ensures r.Ok? ==> (r.value - BeValue(buffer.Contents())) % 0x100_0000 == 0
    ensures r.Ok? ==> r.value == BeValue(buffer.Contents()) || r.value == BeValue(buffer.Contents()) - 0x100_0000
    ensures r.Ok? ==> (r.value < 0 <==> buffer.Contents()[0] >= 0x80)
  {
    var u :- AsUint24Be(buffer);
    BeValue3(buffer.Contents());
    Ok(FromUint24ToInt24(u))
  }

  function AsUint32Le(buffer: ReadOnlySpan<byte>): (r: Result<uint32>)
    requires buffer.Valid()
    ensures r.Ok? <==> buffer.length == 4
    ensures r.Err? ==> r.error == ArgumentError
    ensures r.Ok? ==> r.value == LeValue(buffer.Contents())
  {
    if buffer.length != 4 then Err(ArgumentError)
    else
      var p, o := buffer.source, buffer.offset;
      LeValue4(buffer.Contents());
      Ok(p[o] as int + p[o + 1] as int * 0x100 + p[o + 2] as int * 0x1_0000 + p[o + 3] as int * 0x100_0000)
  }

  function AsUint32Be(buffer: ReadOnlySpan<byte>): (r: Result<uint32>)
    requires buffer.Valid()
    ensures r.Ok? <==> buffer.length == 4
    ensures r.Err? ==> r.error == ArgumentError
    ensures r.Ok? ==> r.value == BeValue(buffer.Contents())
  {
    if buffer.length != 4 then Err(ArgumentError)
    else
      var p, o := buffer.source, buffer.offset;
      BeValue4(buffer.Contents());
      Ok(p[o + 3] as int + p[o + 2] as int * 0x100 + p[o + 1] as int * 0x1_0000 + p[o] as int * 0x100_0000)
  }

  function AsInt32Le(buffer: ReadOnlySpan<byte>): (r: Result<int32>)
    requires buffer.Valid()
    ensures r.Ok? <==> buffer.length == 4
    ensures r.Err? ==> r.error == ArgumentError
    ensures r.Ok? ==> (r.value - LeValue(buffer.Contents())) % 0x1_0000_0000 == 0
    ensures r.Ok? ==> r.value == LeValue(buffer.Contents()) || r.value == LeValue(buffer.Contents()) - 0x1_0000_0000
    ensures r.Ok? ==> (r.value < 0 <==> buffer.Contents()[3] >= 0x80)
  {
    var u :- AsUint32Le(buffer);
    LeValue4(buffer.Contents());
    Ok(Reinterpret(u, 0x1_0000_0000))
  }

  function AsInt32Be(buffer: ReadOnlySpan<byte>): (r: Result<int32>)
    requires buffer.Valid()
    ensures r.Ok? <==> buffer.length == 4
    ensures r.Err? ==> r.error == ArgumentError
    ensures r.Ok? ==> (r.value - BeValue(buffer.Contents())) % 0x1_0000_0000 == 0
    ensures r.Ok? ==> r.value == BeValue(buffer.Contents()) || r.value == BeValue(buffer.Contents()) - 0x1_0000_0000
    ensures r.Ok? ==> (r.value < 0 <==> buffer.Contents()[0] >= 0x80)
  {
    var u :- AsUint32Be(buffer);
    BeValue4(buffer.Contents());
    Ok(Reinterpret(u, 0x1_0000_0000))
  }

  function AsUint64Le(buffer: ReadOnlySpan<byte>): (r: Result<uint64>)
    requires buffer.Valid()
    ensures r.Ok? <==> buffer.length == 8
    ensures r.Err? ==> r.error == ArgumentError
    ensures r.Ok? ==> r.value == LeValue(buffer.Contents())
  {
    if buffer.length != 8 then Err(ArgumentError)
    else
      var p, o := buffer.source, buffer.offset;
      LeValue8(buffer.Contents());
      Ok(p[o] as int + p[o + 1] as int * 0x100 + p[o + 2] as int * 0x1_0000 + p[o + 3] as int * 0x100_0000
         + p[o + 4] as int * 0x1_0000_0000 + p[o + 5] as int * 0x100_0000_0000
         + p[o + 6] as int * 0x1_0000_0000_0000 + p[o + 7] as int * 0x100_0000_0000_0000)
  }

  function AsUint64Be(buffer: ReadOnlySpan<byte>): (r: Result<uint64>)
    requires buffer.Valid()
    ensures r.Ok? <==> buffer.length == 8
    ensures r.Err? ==> r.error == ArgumentError
    ensures r.Ok? ==> r.value == BeValue(buffer.Contents())
  {
    if buffer.length != 8 then Err(ArgumentError)
    else
      var p, o := buffer.source, buffer.offset;
      BeValue8(buffer.Contents());
      Ok(p[o + 7] as int + p[o + 6] as int * 0x100 + p[o + 5] as int * 0x1_0000 + p[o + 4] as int * 0x100_0000
         + p[o + 3] as int * 0x1_0000_0000 + p[o + 2] as int * 0x100_0000_0000
         + p[o + 1] as int * 0x1_0000_0000_0000 + p[o] as int * 0x100_0000_0000_0000)
  }

  function AsInt64Le(buffer: ReadOnlySpan<byte>): (r: Result<int64>)
    requires buffer.Valid()
    ensures r.Ok? <==> buffer.length == 8
    ensures r.Err? ==> r.error == ArgumentError
    ensures r.Ok? ==> (r.value - LeValue(buffer.Contents())) % 0x1_0000_0000_0000_0000 == 0
    ensures r.Ok? ==> r.value == LeValue(buffer.Contents()) || r.value == LeValue(buffer.Contents()) - 0x1_0000_0000_0000_0000
    ensures r.Ok? ==> (r.value < 0 <==> buffer.Contents()[7] >= 0x80)
  {
    var u :- AsUint64Le(buffer);
    LeValue8(buffer.Contents());
    Ok(Reinterpret(u, 0x1_0000_0000_0000_0000))
  }

  function AsInt64Be(buffer: ReadOnlySpan<byte>): (r: Result<int64>)
    requires buffer.Valid()
    ensures r.Ok? <==> buffer.length == 8
    ensures r.Err? ==> r.error == ArgumentError
    ensures r.Ok? ==> (r.value - BeValue(buffer.Contents())) % 0x1_0000_0000_0000_0000 == 0
    ensures r.Ok? ==> r.value == BeValue(buffer.Contents()) || r.value == BeValue(buffer.Contents()) - 0x1_0000_0000_0000_0000
    ensures r.Ok? ==> (r.value < 0 <==> buffer.Contents()[0] >= 0x80)
  {
    var u :- AsUint64Be(buffer);
    BeValue8(buffer.Contents());
    Ok(Reinterpret(u, 0x1_0000_0000_0000_0000))
  }

  // ---------------------------------------------------------------- GUIDs

  type Bytes8 = s: seq<byte> | |s| == 8 witness [0, 0, 0, 0, 0, 0, 0, 0]

  /** A `System.Guid` by the fields of its `(uint, ushort, ushort, byte x 8)` constructor. */
  datatype Guid = Guid(data1: uint32, data2: uint16, data3: uint16, data4: Bytes8)

  /** `Guid.ToByteArray`: the first three fields little-endian, then the eight bytes as they are. */
  function GuidToByteArray(g: Guid): (s: seq<byte>)
    ensures |s| == 16
    ensures LeValue(s[..4]) == g.data1 && LeValue(s[4..6]) == g.data2 && LeValue(s[6..8]) == g.data3
    ensures s[8..] == g.data4
  {
    var s := LeBytes(g.data1, 4) + LeBytes(g.data2, 2) + LeBytes(g.data3, 2) + g.data4;
    assert s[..4] == LeBytes(g.data1, 4) && s[4..6] == LeBytes(g.data2, 2) && s[6..8] == LeBytes(g.data3, 2);
    LeValueOfLeBytes(g.data1, 4);
    LeValueOfLeBytes(g.data2, 2);
    LeValueOfLeBytes(g.data3, 2);
    s
  }

  /** `new Guid(byte[16])`: the inverse of `GuidToByteArray`. */
  function GuidFromByteArray(b: seq<byte>): (g: Guid)
    requires |b| == 16
    ensures GuidToByteArray(g) == b
  {
    LeValueBound(b[..4]);
    LeValueBound(b[4..6]);
    LeValueBound(b[6..8]);
    LeBytesOfLeValue(b[..4]);
    LeBytesOfLeValue(b[4..6]);
    LeBytesOfLeValue(b[6..8]);
    assert b == b[..4] + b[4..6] + b[6..8] + b[8..];
    Guid(LeValue(b[..4]), LeValue(b[4..6]), LeValue(b[6..8]), b[8..])
  }

  /** Decoding is injective on GUIDs: a GUID is determined by its byte array. */
  lemma GuidFromToByteArray(g: Guid)
    ensures GuidFromByteArray(GuidToByteArray(g)) == g
  {
    var c := GuidToByteArray(g);
    assert c[..4] == LeBytes(g.data1, 4);
    assert c[4..6] == LeBytes(g.data2, 2);
    assert c[6..8] == LeBytes(g.data3, 2);
    LeValueOfLeBytes(g.data1, 4);
    LeValueOfLeBytes(g.data2, 2);
    LeValueOfLeBytes(g.data3, 2);
  }

  /** Reads bytes 0-3 as a little-endian u32, 4-5 and 6-7 as little-endian u16s, and 8-15 as they are;
      re-encoding the result gives the same 16 bytes. */
  function AsGuid(buffer: ReadOnlySpan<byte>): (r: Result<Guid>)
    requires buffer.Valid()
    ensures r.Ok? <==> buffer.length == 16
    ensures r.Err? ==> r.error == ArgumentError
    ensures r.Ok? ==> GuidToByteArray(r.value) == buffer.Contents()
  {
    if buffer.length != 16 then Err(ArgumentError)
    else
      var p, o := buffer.source, buffer.offset;
      var c := buffer.Contents();
      var g := Guid(p[o] as int + p[o + 1] as int * 0x100 + p[o + 2] as int * 0x1_0000 + p[o + 3] as int * 0x100_0000,
                    p[o + 4] as int + p[o + 5] as int * 0x100,
                    p[o + 6] as int + p[o + 7] as int * 0x100,
                    c[8..]);
      GuidLayout(c, g);
      Ok(g)
  }

  lemma GuidLayout(c: seq<byte>, g: Guid)
    requires |c| == 16
    requires g.data1 == c[0] as int + c[1] as int * 0x100 + c[2] as int * 0x1_0000 + c[3] as int * 0x100_0000
    requires g.data2 == c[4] as int + c[5] as int * 0x100
    requires g.data3 == c[6] as int + c[7] as int * 0x100
    requires g.data4 == c[8..]
    ensures GuidToByteArray(g) == c
  {
    LeValue4(c[..4]);
    LeValue2(c[4..6]);
    LeValue2(c[6..8]);
    LeBytesOfLeValue(c[..4]);
    LeBytesOfLeValue(c[4..6]);
    LeBytesOfLeValue(c[6..8]);
    assert c == c[..4] + c[4..6] + c[6..8] + c[8..];
  }

  // ---------------------------------------------------------------- encoding

  /** Writes `bytes` over the whole window of `buffer`, which must have exactly their length. */
  function WriteWindow(buffer: Span<byte>, bytes: seq<byte>): (r: Result<Span<byte>>)
    requires buffer.Valid()
    ensures r.Ok? <==> buffer.length == |bytes|
    ensures r.Err? ==> r.error == ArgumentError
    ensures r.Ok? ==> r.value.Valid() && r.value.offset == buffer.offset && r.value.length == buffer.length
    ensures r.Ok? ==> r.value.Contents() == bytes
    ensures r.Ok? ==> SameOutside(buffer.source, r.value.source, buffer.offset, buffer.offset + buffer.length)
  {
    if buffer.length != |bytes| then Err(ArgumentError)
    else Ok(buffer.(source := Overwrite(buffer.source, buffer.offset, bytes)))
  }

  function StoreUint16Le(buffer: Span<byte>, value: uint16): (r: Result<Span<byte>>)
    requires buffer.Valid()
    ensures r.Ok? <==> buffer.length == 2
    ensures r.Err? ==> r.error == ArgumentError
    ensures r.Ok? ==> r.value.Valid() && r.value.offset == buffer.offset && r.value.length == 2
    ensures r.Ok? ==> SameOutside(buffer.source, r.value.source, buffer.offset, buffer.offset + 2)
    ensures r.Ok? ==> LeValue(r.value.Contents()) == value
  {
    LeValueOfLeBytes(value, 2);
    WriteWindow(buffer, LeBytes(value, 2))
  }

  function StoreUint16Be(buffer: Span<byte>, value: uint16): (r: Result<Span<byte>>)
    requires buffer.Valid()
    ensures r.Ok? <==> buffer.length == 2
    ensures r.Err? ==> r.error == ArgumentError
    ensures r.Ok? ==> r.value.Valid() && r.value.offset == buffer.offset && r.value.length == 2
    ensures r.Ok? ==> SameOutside(buffer.source, r.value.source, buffer.offset, buffer.offset + 2)
    ensures r.Ok? ==> BeValue(r.value.Contents()) == value
  {
    BeValueOfBeBytes(value, 2);
    WriteWindow(buffer, BeBytes(value, 2))
  }

  /** `StoreUint16Le(unchecked((ushort)value))`: the two's complement bytes of `value`. */
  function StoreInt16Le(buffer: Span<byte>, value: int16): (r: Result<Span<byte>>)
    requires buffer.Valid()
    ensures r.Ok? <==> buffer.length == 2
    ensures r.Err? ==> r.error == ArgumentError
    ensures r.Ok? ==> r.value.Valid() && r.value.offset == buffer.offset && r.value.length == 2
    ensures r.Ok? ==> SameOutside(buffer.source, r.value.source, buffer.offset, buffer.offset + 2)
    ensures r.Ok? ==> (LeValue(r.value.Contents()) - value) % 0x1_0000 == 0
    ensures r.Ok? ==> LeValue(r.value.Contents()) == (if value < 0 then value + 0x1_0000 else value)
  {
    StoreUint16Le(buffer, Truncate(value, 0x1_0000))
  }

  function StoreInt16Be(buffer: Span<byte>, value: int16): (r: Result<Span<byte>>)
    requires buffer.Valid()
    ensures r.Ok? <==> buffer.length == 2
    ensures r.Err? ==> r.error == ArgumentError
    ensures r.Ok? ==> r.value.Valid() && r.value.offset == buffer.offset && r.value.length == 2
    ensures r.Ok? ==> SameOutside(buffer.source, r.value.source, buffer.offset, buffer.offset + 2)
    ensures r.Ok? ==> (BeValue(r.value.Contents()) - value) % 0x1_0000 == 0
    ensures r.Ok? ==> BeValue(r.value.Contents()) == (if value < 0 then value + 0x1_0000 else value)
  {
    StoreUint16Be(buffer, Truncate(value, 0x1_0000))
  }

  /** Writes the low three bytes of `value`; a `uint` argument above 24 bits loses its top byte. */
  function StoreUint24Le(buffer: Span<byte>, value: uint32): (r: Result<Span<byte>>)
    requires buffer.Valid()
    ensures r.Ok? <==> buffer.length == 3
    ensures r.Err? ==> r.error == ArgumentError
    ensures r.Ok? ==> r.value.Valid() && r.value.offset == buffer.offset && r.value.length == 3
    ensures r.Ok? ==> SameOutside(buffer.source, r.value.source, buffer.offset, buffer.offset + 3)
    ensures r.Ok? ==> LeValue(r.value.Contents()) == value % 0x100_0000
  {
    LeValueOfLeBytes(value % 0x100_0000, 3);
    WriteWindow(buffer, LeBytes(value % 0x100_0000, 3))
  }

  function StoreUint24Be(buffer: Span<byte>, value: uint32): (r: Result<Span<byte>>)
    requires buffer.Valid()
    ensures r.Ok? <==> buffer.length == 3
    ensures r.Err? ==> r.error == ArgumentError
    ensures r.Ok? ==> r.value.Valid() && r.value.offset == buffer.offset && r.value.length == 3
    ensures r.Ok? ==> SameOutside(buffer.source, r.value.source, buffer.offset, buffer.offset + 3)
    ensures r.Ok? ==> BeValue(r.value.Contents()) == value % 0x100_0000
  {
    BeValueOfBeBytes(value % 0x100_0000, 3);
    WriteWindow(buffer, BeBytes(value % 0x100_0000, 3))
  }

  /** `unchecked((uint)value & 0x00ffffff)`: the low 24 bits of the two's complement word. */
  function Low24(value: int32): (t: uint32)
    ensures t < 0x100_0000 && t % 0x100_0000 == t
    ensures (t - value) % 0x100_0000 == 0
    ensures -0x80_0000 <= value < 0x80_0000 ==> t == (if value < 0 then value + 0x100_0000 else value)
  {
    var word := Truncate(value, 0x1_0000_0000);
    var t := word % 0x100_0000;
    assert word == value || word == value + 0x1_0000_0000;
    assert word == 0x100_0000 * (word / 0x100_0000) + t;
    t
  }

  /** `StoreUint24Le(unchecked((uint)value & 0x00ffffff))`: the low 24 bits of the two's complement word. */
  function StoreInt24Le(buffer: Span<byte>, value: int32): (r: Result<Span<byte>>)
    requires buffer.Valid()
    ensures r.Ok? <==> buffer.length == 3
    ensures r.Err? ==> r.error == ArgumentError
    ensures r.Ok? ==> r.value.Valid() && r.value.offset == buffer.offset && r.value.length == 3
    ensures r.Ok? ==> SameOutside(buffer.source, r.value.source, buffer.offset, buffer.offset + 3)
    ensures r.Ok? ==> (LeValue(r.value.Contents()) - value) % 0x100_0000 == 0
    ensures r.Ok? && -0x80_0000 <= value < 0x80_0000 ==>
      LeValue(r.value.Contents()) == (if value < 0 then value + 0x100_0000 else value)
  {
    StoreUint24Le(buffer, Low24(value))
  }

  function StoreInt24Be(buffer: Span<byte>, value: int32): (r: Result<Span<byte>>)
    requires buffer.Valid()
    ensures r.Ok? <==> buffer.length == 3
    ensures r.Err? ==> r.error == ArgumentError
    ensures r.Ok? ==> r.value.Valid() && r.value.offset == buffer.offset && r.value.length == 3
    ensures r.Ok? ==> SameOutside(buffer.source, r.value.source, buffer.offset, buffer.offset + 3)
    ensures r.Ok? ==> (BeValue(r.value.Contents()) - value) % 0x100_0000 == 0
    ensures r.Ok? && -0x80_0000 <= value < 0x80_0000 ==>
      BeValue(r.value.Contents()) == (if value < 0 then value + 0x100_0000 else value)
  {
    StoreUint24Be(buffer, Low24(value))
  }

  function StoreUint32Le(buffer: Span<byte>, value: uint32): (r: Result<Span<byte>>)
    requires buffer.Valid()
    ensures r.Ok? <==> buffer.length == 4
    ensures r.Err? ==> r.error == ArgumentError
    ensures r.Ok? ==> r.value.Valid() && r.value.offset == buffer.offset && r.value.length == 4
    ensures r.Ok? ==> SameOutside(buffer.source, r.value.source, buffer.offset, buffer.offset + 4)
    ensures r.Ok? ==> LeValue(r.value.Contents()) == value
  {
    LeValueOfLeBytes(value, 4);
    WriteWindow(buffer, LeBytes(value, 4))
  }

  function StoreUint32Be(buffer: Span<byte>, value: uint32): (r: Result<Span<byte>>)
    requires buffer.Valid()
    ensures r.Ok? <==> buffer.length == 4
    ensures r.Err? ==> r.error == ArgumentError
    ensures r.Ok? ==> r.value.Valid() && r.value.offset == buffer.offset && r.value.length == 4
    ensures r.Ok? ==> SameOutside(buffer.source, r.value.source, buffer.offset, buffer.offset + 4)
    ensures r.Ok? ==> BeValue(r.value.Contents()) == value
  {
    BeValueOfBeBytes(value, 4);
    WriteWindow(buffer, BeBytes(value, 4))
  }

  function StoreInt32Le(buffer: Span<byte>, value: int32): (r: Result<Span<byte>>)
    requires buffer.Valid()
    ensures r.Ok? <==> buffer.length == 4
    ensures r.Err? ==> r.error == ArgumentError
    ensures r.Ok? ==> r.value.Valid() && r.value.offset == buffer.offset && r.value.length == 4
    ensures r.Ok? ==> SameOutside(buffer.source, r.value.source, buffer.offset, buffer.offset + 4)
    ensures r.Ok? ==> (LeValue(r.value.Contents()) - value) % 0x1_0000_0000 == 0
    ensures r.Ok? ==> LeValue(r.value.Contents()) == (if value < 0 then value + 0x1_0000_0000 else value)
  {
    StoreUint32Le(buffer, Truncate(value, 0x1_0000_0000))
  }

  function StoreInt32Be(buffer: Span<byte>, value: int32): (r: Result<Span<byte>>)
    requires buffer.Valid()
    ensures r.Ok? <==> buffer.length == 4
    ensures r.Err? ==> r.error == ArgumentError
    ensures r.Ok? ==> r.value.Valid() && r.value.offset == buffer.offset && r.value.length == 4
    ensures r.Ok? ==> SameOutside(buffer.source, r.value.source, buffer.offset, buffer.offset + 4)
    ensures r.Ok? ==> (BeValue(r.value.Contents()) - value) % 0x1_0000_0000 == 0
    ensures r.Ok? ==> BeValue(r.value.Contents()) == (if value < 0 then value + 0x1_0000_0000 else value)
  {
    StoreUint32Be(buffer, Truncate(value, 0x1_0000_0000))
  }

  function StoreUint64Le(buffer: Span<byte>, value: uint64): (r: Result<Span<byte>>)
    requires buffer.Valid()
    ensures r.Ok? <==> buffer.length == 8
    ensures r.Err? ==> r.error == ArgumentError
    ensures r.Ok? ==> r.value.Valid() && r.value.offset == buffer.offset && r.value.length == 8
    ensures r.Ok? ==> SameOutside(buffer.source, r.value.source, buffer.offset, buffer.offset + 8)
    ensures r.Ok? ==> LeValue(r.value.Contents()) == value
  {
    LeValueOfLeBytes(value, 8);
    WriteWindow(buffer, LeBytes(value, 8))
  }

  function StoreUint64Be(buffer: Span<byte>, value: uint64): (r: Result<Span<byte>>)
    requires buffer.Valid()
    ensures r.Ok? <==> buffer.length == 8
    ensures r.Err? ==> r.error == ArgumentError
    ensures r.Ok? ==> r.value.Valid() && r.value.offset == buffer.offset && r.value.length == 8
    ensures r.Ok? ==> SameOutside(buffer.source, r.value.source, buffer.offset, buffer.offset + 8)
    ensures r.Ok? ==> BeValue(r.value.Contents()) == value
  {
    BeValueOfBeBytes(value, 8);
    WriteWindow(buffer, BeBytes(value, 8))
  }

  function StoreInt64Le(buffer: Span<byte>, value: int64): (r: Result<Span<byte>>)
    requires buffer.Valid()
    ensures r.Ok? <==> buffer.length == 8
    ensures r.Err? ==> r.error == ArgumentError
    ensures r.Ok? ==> r.value.Valid() && r.value.offset == buffer.offset && r.value.length == 8
    ensures r.Ok? ==> SameOutside(buffer.source, r.value.source, buffer.offset, buffer.offset + 8)
    ensures r.Ok? ==> (LeValue(r.value.Contents()) - value) % 0x1_0000_0000_0000_0000 == 0
    ensures r.Ok? ==> LeValue(r.value.Contents()) == (if value < 0 then value + 0x1_0000_0000_0000_0000 else value)
  {
    StoreUint64Le(buffer, Truncate(value, 0x1_0000_0000_0000_0000))
  }

  function StoreInt64Be(buffer: Span<byte>, value: int64): (r: Result<Span<byte>>)
    requires buffer.Valid()
    ensures r.Ok? <==> buffer.length == 8
    ensures r.Err? ==> r.error == ArgumentError
    ensures r.Ok? ==> r.value.Valid() && r.value.offset == buffer.offset && r.value.length == 8
    ensures r.Ok? ==> SameOutside(buffer.source, r.value.source, buffer.offset, buffer.offset + 8)
    ensures r.Ok? ==> (BeValue(r.value.Contents()) - value) % 0x1_0000_0000_0000_0000 == 0
    ensures r.Ok? ==> BeValue(r.value.Contents()) == (if value < 0 then value + 0x1_0000_0000_0000_0000 else value)
  {
    StoreUint64Be(buffer, Truncate(value, 0x1_0000_0000_0000_0000))
  }

  /** Copies `Guid.ToByteArray()` into the span, which must be 16 bytes long. */
  function StoreGuid(buffer: Span<byte>, value: Guid): (r: Result<Span<byte>>)
    requires buffer.Valid()
    ensures r.Ok? <==> buffer.length == 16
    ensures r.Err? ==> r.error == ArgumentError
    ensures r.Ok? ==> r.value.Valid() && r.value.offset == buffer.offset && r.value.length == 16
    ensures r.Ok? ==> SameOutside(buffer.source, r.value.source, buffer.offset, buffer.offset + 16)
    ensures r.Ok? ==> AsGuid(r.value.AsReadOnly()) == Ok(value)
  {
    var bytes := GuidToByteArray(value);
    if buffer.length != |bytes| then Err(ArgumentError)
    else
      var r := CopyArrayTo(bytes, buffer);
      assert r.Ok? && r.value.Contents() == bytes;
      GuidFieldsRoundTrip(value);
      r
  }

  /** Decoding a GUID's byte array gives the GUID back. */
  lemma GuidFieldsRoundTrip(g: Guid)
    ensures AsGuid(ReadOnlySpan.FromArray(GuidToByteArray(g))) == Ok(g)
  {
    var c := GuidToByteArray(g);
    assert c[..4] == LeBytes(g.data1, 4);
    assert c[4..6] == LeBytes(g.data2, 2);
    assert c[6..8] == LeBytes(g.data3, 2);
    LeValueOfLeBytes(g.data1, 4);
    LeValueOfLeBytes(g.data2, 2);
    LeValueOfLeBytes(g.data3, 2);
    LeValue4(c[..4]);
    LeValue2(c[4..6]);
    LeValue2(c[6..8]);
  }

  // ---------------------------------------------------------------- round trips

  /** Reading back what a 16-bit store wrote gives the stored value, in either byte order. */
  lemma RoundTrip16(buffer: Span<byte>, u: uint16, v: int16)
    requires buffer.Valid() && buffer.length == 2
    ensures AsUint16Le(StoreUint16Le(buffer, u).value.AsReadOnly()) == Ok(u)
    ensures AsUint16Be(StoreUint16Be(buffer, u).value.AsReadOnly()) == Ok(u)
    ensures AsInt16Le(StoreInt16Le(buffer, v).value.AsReadOnly()) == Ok(v)
    ensures AsInt16Be(StoreInt16Be(buffer, v).value.AsReadOnly()) == Ok(v)
  {
  }

  /** Reading back what a 24-bit store wrote gives the stored value when it fits in 24 bits. */
  lemma RoundTrip24(buffer: Span<byte>, u: uint32, v: int32)
    requires buffer.Valid() && buffer.length == 3
    requires u < 0x100_0000 && -0x80_0000 <= v < 0x80_0000
    ensures AsUint24Le(StoreUint24Le(buffer, u).value.AsReadOnly()) == Ok(u)
    ensures AsUint24Be(StoreUint24Be(buffer, u).value.AsReadOnly()) == Ok(u)
    ensures AsInt24Le(StoreInt24Le(buffer, v).value.AsReadOnly()) == Ok(v)
    ensures AsInt24Be(StoreInt24Be(buffer, v).value.AsReadOnly()) == Ok(v)
  {
    assert u % 0x100_0000 == u;
    RoundTripInt24Le(buffer, v);
    RoundTripInt24Be(buffer, v);
  }

  lemma RoundTripInt24Le(buffer: Span<byte>, v: int32)
    requires buffer.Valid() && buffer.length == 3 && -0x80_0000 <= v < 0x80_0000
    ensures AsInt24Le(StoreInt24Le(buffer, v).value.AsReadOnly()) == Ok(v)
  {
    var le := StoreInt24Le(buffer, v).value.AsReadOnly();
    assert LeValue(le.Contents()) == (if v < 0 then v + 0x100_0000 else v);
  }

  lemma RoundTripInt24Be(buffer: Span<byte>, v: int32)
    requires buffer.Valid() && buffer.length == 3 && -0x80_0000 <= v < 0x80_0000
    ensures AsInt24Be(StoreInt24Be(buffer, v).value.AsReadOnly()) == Ok(v)
  {
    var be := StoreInt24Be(buffer, v).value.AsReadOnly();
    assert BeValue(be.Contents()) == (if v < 0 then v + 0x100_0000 else v);
  }

  /** Reading back what a 32-bit store wrote gives the stored value, in either byte order. */
  lemma RoundTrip32(buffer: Span<byte>, u: uint32, v: int32)
    requires buffer.Valid() && buffer.length == 4
    ensures AsUint32Le(StoreUint32Le(buffer, u).value.AsReadOnly()) == Ok(u)
    ensures AsUint32Be(StoreUint32Be(buffer, u).value.AsReadOnly()) == Ok(u)
    ensures AsInt32Le(StoreInt32Le(buffer, v).value.AsReadOnly()) == Ok(v)
    ensures AsInt32Be(StoreInt32Be(buffer, v).value.AsReadOnly()) == Ok(v)
  {
  }

  /** Reading back what a 64-bit store wrote gives the stored value, in either byte order. */
  lemma RoundTrip64(buffer: Span<byte>, u: uint64, v: int64)
    requires buffer.Valid() && buffer.length == 8
    ensures AsUint64Le(StoreUint64Le(buffer, u).value.AsReadOnly()) == Ok(u)
    ensures AsUint64Be(StoreUint64Be(buffer, u).value.AsReadOnly()) == Ok(u)
    ensures AsInt64Le(StoreInt64Le(buffer, v).value.AsReadOnly()) == Ok(v)
    ensures AsInt64Be(StoreInt64Be(buffer, v).value.AsReadOnly()) == Ok(v)
  {
  }

  /** Storing the 32-bit value just read leaves the window as it was: in both byte orders the
      32-bit store is a left inverse of the 32-bit decoder. */
  lemma ReadThenStore32(buffer: Span<byte>)
    requires buffer.Valid() && buffer.length == 4
    ensures StoreUint32Le(buffer, AsUint32Le(buffer.AsReadOnly()).value).value.Contents() == buffer.Contents()
    ensures StoreUint32Be(buffer, AsUint32Be(buffer.AsReadOnly()).value).value.Contents() == buffer.Contents()
  {
    LeBytesOfLeValue(buffer.Contents());
    BeBytesOfBeValue(buffer.Contents());
  }
}

=== FILE: byte_order.dfy ===
/** Reference definitions of little- and big-endian byte order: the value a byte sequence denotes and the
    bytes that denote a value. The codec's explicit per-width formulas are proved against these. */
module ByteOrder {
  import opened Ints

  /** 256 to the power n. An arithmetic helper: its contract only carries the positivity the
      proofs below divide by; the codec's properties are `LeValueOfLeBytes` and `LeBytesOfLeValue`. */
  function Pow256(n: nat): (p: nat)
    ensures p > 0
  {
    if n == 0 then 1 else 0x100 * Pow256(n - 1)
  }

  /** The little-endian value of `s`: byte i weighs 256^i. */
  function LeValue(s: seq<byte>): nat {
    if s == [] then 0 else s[0] + 0x100 * LeValue(s[1..])
  }

  /** The big-endian value of `s`: the last byte weighs 1, each earlier byte 256 times more. */
  function BeValue(s: seq<byte>): nat {
    if s == [] then 0 else BeValue(s[..|s| - 1]) * 0x100 + s[|s| - 1]
  }

  function Reverse<T>(s: seq<T>): (r: seq<T>)
    ensures |r| == |s|
    ensures forall i :: 0 <= i < |s| ==> r[i] == s[|s| - 1 - i]
  {
    if s == [] then [] else Reverse(s[1..]) + [s[0]]
  }

  /** The `n` little-endian bytes of `v`: byte k is `(byte)(v >> 8k)`. Its contract gives only the
      length; what the bytes mean is `LeValueOfLeBytes` and `LeBytesOfLeValue`. */
  function LeBytes(v: nat, n: nat): (s: seq<byte>)
    ensures |s| == n
  {
    if n == 0 then [] else [v % 0x100] + LeBytes(v / 0x100, n - 1)
  }

  /** The `n` big-endian bytes of `v`. */
  function BeBytes(v: nat, n: nat): (s: seq<byte>)
    ensures |s| == n
  {
    Reverse(LeBytes(v, n))
  }

  lemma {:induction false} LeValueBound(s: seq<byte>)
    ensures LeValue(s) < Pow256(|s|)
  {
    if s != [] {
      LeValueBound(s[1..]);
    }
  }

  /** Decoding the encoding of a value that fits gives the value back. */
  lemma {:induction false} LeValueOfLeBytes(v: nat, n: nat)
    requires v < Pow256(n)
    ensures LeValue(LeBytes(v, n)) == v
  {
    if n > 0 {
      LeValueOfLeBytes(v / 0x100, n - 1);
      var s := LeBytes(v, n);
      assert s[1..] == LeBytes(v / 0x100, n - 1);
    }
  }

  /** Encoding the value of a byte sequence gives the sequence back. */
  lemma {:induction false} LeBytesOfLeValue(s: seq<byte>)
    ensures LeBytes(LeValue(s), |s|) == s
  {
    if s != [] {
      LeBytesOfLeValue(s[1..]);
      var v := LeValue(s);
      assert v % 0x100 == s[0];
      assert v / 0x100 == LeValue(s[1..]);
    }
  }

  /** The big-endian reading is the little-endian reading of the reversed bytes. */
  lemma {:induction false} BeValueIsReversedLe(s: seq<byte>)
    ensures BeValue(s) == LeValue(Reverse(s))
  {
    if s != [] {
      var init := s[..|s| - 1];
      BeValueIsReversedLe(init);
      var r := Reverse(s);
      assert r[0] == s[|s| - 1];
      assert r[1..] == Reverse(init);
    }
  }

  lemma ReverseReverse<T>(s: seq<T>)
    ensures Reverse(Reverse(s)) == s
  {
  }

  /** Big-endian decoding of the big-endian encoding of a value that fits gives the value back. */
  lemma BeValueOfBeBytes(v: nat, n: nat)
    requires v < Pow256(n)
    ensures BeValue(BeBytes(v, n)) == v
  {
    BeValueIsReversedLe(BeBytes(v, n));
    ReverseReverse(LeBytes(v, n));
    LeValueOfLeBytes(v, n);
  }

  lemma BeBytesOfBeValue(s: seq<byte>)
    ensures BeBytes(BeValue(s), |s|) == s
  {
    BeValueIsReversedLe(s);
    LeBytesOfLeValue(Reverse(s));
    ReverseReverse(s);
  }

  /** The explicit little-endian formulas for the widths the codec uses. */
  lemma LeValue1(s: seq<byte>)
    requires |s| == 1
    ensures LeValue(s) == s[0]
  {
    assert s[1..] == [];
  }

  lemma LeValue2(s: seq<byte>)
    requires |s| == 2
    ensures LeValue(s) == s[0] as int + s[1] as int * 0x100
  {
    LeValue1(s[1..]);
  }

  lemma LeValue3(s: seq<byte>)
    requires |s| == 3
    ensures LeValue(s) == s[0] as int + s[1] as int * 0x100 + s[2] as int * 0x1_0000
  {
    LeValue2(s[1..]);
  }

  lemma LeValue4(s: seq<byte>)
    requires |s| == 4
    ensures LeValue(s) == s[0] as int + s[1] as int * 0x100 + s[2] as int * 0x1_0000 + s[3] as int * 0x100_0000
  {
    LeValue3(s[1..]);
  }

  lemma LeValue8(s: seq<byte>)
    requires |s| == 8
    ensures LeValue(s) == s[0] as int + s[1] as int * 0x100 + s[2] as int * 0x1_0000 + s[3] as int * 0x100_0000
                          + s[4] as int * 0x1_0000_0000 + s[5] as int * 0x100_0000_0000
                          + s[6] as int * 0x1_0000_0000_0000 + s[7] as int * 0x100_0000_0000_0000
  {
    LeValueSplit(s, 4);
    LeValue4(s[..4]);
    LeValue4(s[4..]);
    assert Pow256(4) == 0x1_0000_0000;
  }

  /** Splitting a little-endian sequence: the high part weighs 256^k. */
  lemma {:induction false} LeValueSplit(s: seq<byte>, k: nat)
    requires k <= |s|
    ensures LeValue(s) == LeValue(s[..k]) + Pow256(k) * LeValue(s[k..])
  {
    if k == 0 {
      assert s[..0] == [];
      assert s[0..] == s;
    } else {
      var t := s[1..];
      LeValueSplit(t, k - 1);
      assert t[..k - 1] == s[..k][1..];
      assert t[k - 1..] == s[k..];
      var low := LeValue(s[..k][1..]);
      var high := LeValue(s[k..]);
      var p := Pow256(k - 1);
      assert LeValue(t) == low + p * high;
      assert LeValue(s[..k]) == s[0] + 0x100 * low;
      assert LeValue(s) == s[0] + 0x100 * LeValue(t);
      assert Pow256(k) == 0x100 * p;
      Regroup(s[0], low, p, high);
    }
  }

  lemma Regroup(b: int, low: int, p: int, high: int)
    ensures b + 0x100 * (low + p * high) == (b + 0x100 * low) + (0x100 * p) * high
  {
  }

  lemma BeValue1(s: seq<byte>)
    requires |s| == 1
    ensures BeValue(s) == s[0]
  {
    assert s[..0] == [];
  }

  lemma BeValue2(s: seq<byte>)
    requires |s| == 2
    ensures BeValue(s) == s[1] as int + s[0] as int * 0x100
  {
    BeValue1(s[..1]);
  }

  lemma BeValue3(s: seq<byte>)
    requires |s| == 3
    ensures BeValue(s) == s[2] as int + s[1] as int * 0x100 + s[0] as int * 0x1_0000
  {
    BeValue2(s[..2]);
  }

  lemma BeValue4(s: seq<byte>)
    requires |s| == 4
    ensures BeValue(s) == s[3] as int + s[2] as int * 0x100 + s[1] as int * 0x1_0000 + s[0] as int * 0x100_0000
  {
    BeValue3(s[..3]);
  }

  lemma BeValue8(s: seq<byte>)
    requires |s| == 8
    ensures BeValue(s) == s[7] as int + s[6] as int * 0x100 + s[5] as int * 0x1_0000 + s[4] as int * 0x100_0000
                          + s[3] as int * 0x1_0000_0000 + s[2] as int * 0x100_0000_0000
                          + s[1] as int * 0x1_0000_0000_0000 + s[0] as int * 0x100_0000_0000_0000
  {
    BeValueIsReversedLe(s);
    LeValue8(Reverse(s));
  }
}

=== FILE: chunk_framing.dfy ===
/** The RIFF chunk framing every chunk parser and serialiser of the codec repeats: a four-byte id,
    a little-endian 32-bit payload size, the payload, and a zero pad byte after an odd-sized payload.
    Serialised output is a sequence of segments (the source's `IEnumerable<ReadOnlySpan<byte>>`). */
module ChunkFraming {
  import opened Errors
  import opened Ints
  import opened Spans
  import opened ByteOrder
  import opened ByteDataExtensions

  const FMT_CHUNK_ID: uint32 := 0x20746d66   // "fmt "
  const DATA_CHUNK_ID: uint32 := 0x61746164  // "data"
  const FACT_CHUNK_ID: uint32 := 0x74636166  // "fact"
  const ID3_CHUNK_ID: uint32 := 0x20336469   // "id3 "
  const LIST_CHUNK_ID: uint32 := 0x5453494c  // "LIST"
  const RIFF_CHUNK_ID: uint32 := 0x46464952  // "RIFF"
  const WAVE_FORM_ID: uint32 := 0x45564157   // "WAVE"

  /** The bytes a sequence of segments stands for, in order. */
  function Concat(segments: seq<seq<byte>>): seq<byte> {
    if segments == [] then [] else segments[0] + Concat(segments[1..])
  }

  lemma {:induction false} ConcatAppend(a: seq<seq<byte>>, b: seq<seq<byte>>)
    ensures Concat(a + b) == Concat(a) + Concat(b)
  {
    if a == [] {
      assert a + b == b;
    } else {
      assert (a + b)[1..] == a[1..] + b;
      ConcatAppend(a[1..], b);
    }
  }

  /** The little-endian u16 at byte `i`. */
  function U16At(c: seq<byte>, i: nat): (v: uint16)
    requires i + 2 <= |c|
    ensures v == LeValue(c[i..i + 2])
  {
    LeValueBound(c[i..i + 2]);
    LeValue(c[i..i + 2])
  }

  /** The little-endian u32 at byte `i`. */
  function U32At(c: seq<byte>, i: nat): (v: uint32)
    requires i + 4 <= |c|
    ensures v == LeValue(c[i..i + 4])
  {
    LeValueBound(c[i..i + 4]);
    assert Pow256(4) == 0x1_0000_0000;
    LeValue(c[i..i + 4])
  }

  /** The payload size a chunk header declares. */
  function DeclaredSize(c: seq<byte>): uint32
    requires |c| >= 8
  {
    U32At(c, 4)
  }

  /** The error a chunk parser raises when the declared payload does not fit the buffer: the
      `checked(8 + chunkSize)` overflows past INT32_MAX, otherwise the size is a format error. */
  function OversizeError(c: seq<byte>): Error
    requires |c| >= 8
  {
    if 8 + DeclaredSize(c) > INT32_MAX then Overflow else BadMediaFormat
  }

  /** `buffer.Slice(0, 4).AsUint32Le()`: the chunk id, or an argument error for fewer than 4 bytes. */
  function ReadChunkId(buffer: ReadOnlySpan<byte>): (r: Result<uint32>)
    requires buffer.Valid()
    ensures r.Ok? <==> buffer.length >= 4
    ensures r.Err? ==> r.error == ArgumentOutOfRange
    ensures r.Ok? ==> r.value == LeValue(buffer.Contents()[..4])
  {
    var idField :- buffer.SliceN(0, 4);
    AsUint32Le(idField)
  }

  /** The size check and payload slice shared by every chunk's `Deserialize`:
      `checked((int)size)`, `checked(8 + size) > buffer.Length`, then `buffer.Slice(8, size)`. */
  function ReadChunkPayload(buffer: ReadOnlySpan<byte>): (r: Result<ReadOnlySpan<byte>>)
    requires buffer.Valid()
    ensures r.Ok? <==> buffer.length >= 8 && 8 + DeclaredSize(buffer.Contents()) <= buffer.length
    ensures r.Ok? ==> r.value.Valid() && r.value.length == DeclaredSize(buffer.Contents())
    ensures r.Ok? ==> r.value.Contents() == buffer.Contents()[8..8 + r.value.length]
    ensures r.Err? && buffer.length < 8 ==> r.error == ArgumentOutOfRange
    ensures r.Err? && buffer.length >= 8 ==> r.error == OversizeError(buffer.Contents())
  {
    var sizeField :- buffer.SliceN(4, 4);
    var rawSize := AsUint32Le(sizeField).value;
    var size :- CheckedInt32(rawSize);
    var end :- CheckedInt32(8 + size);
    if end > buffer.length then Err(BadMediaFormat)
    else buffer.SliceN(8, size)
  }

  /** `(size & 1) != 0 ? checked(size + 1 + 8) : checked(size + 8)`: the bytes a chunk occupies,
      always even. */
  function PaddedTotalBytes(size: int32): (r: Result<int32>)
    requires size >= 0
    ensures r.Ok? <==> 8 + size + size % 2 <= INT32_MAX
    ensures r.Ok? ==> r.value == 8 + size + size % 2 && r.value % 2 == 0 && r.value >= 8
    ensures r.Err? ==> r.error == Overflow
  {
    if size % 2 != 0 then CheckedInt32(size + 1 + 8) else CheckedInt32(size + 8)
  }

  /** The header segment the opaque chunks write: a 12-byte array of which only the first 8 bytes
      are filled in, so four zero bytes follow the size field. */
  function StrayHeader(chunkId: uint32, size: nat): (h: seq<byte>)
    requires size <= INT32_MAX
    ensures |h| == 12
    ensures LeValue(h[..4]) == chunkId && LeValue(h[4..8]) == size
    ensures h[8..] == [0, 0, 0, 0]
  {
    LeValueOfLeBytes(chunkId, 4);
    LeValueOfLeBytes(size, 4);
    var h := LeBytes(chunkId, 4) + LeBytes(size, 4) + [0, 0, 0, 0];
    assert h[..4] == LeBytes(chunkId, 4) && h[4..8] == LeBytes(size, 4);
    h
  }

  /** A chunk kept as raw payload bytes: `data`, `id3 `, `LIST` and every unrecognised id. The
      payload is an owned copy, so it no longer depends on the input buffer. */
  datatype RawChunk = RawChunk(chunkId: uint32, totalBytes: int32, rawData: seq<byte>)

  /** The `Deserialize` shared by the raw chunks. `expected` is the id the kind requires
      (a mismatch is an argument error); the unknown kind passes `None` and keeps whatever id it finds. */
  function DeserializeRaw(expected: Option<uint32>, buffer: ReadOnlySpan<byte>): (r: Result<RawChunk>)
    requires buffer.Valid()
    ensures buffer.length < 4 ==> r == Err(ArgumentOutOfRange)
    ensures buffer.length >= 4 && expected.Some? && LeValue(buffer.Contents()[..4]) != expected.value ==>
      r == Err(ArgumentError)
    ensures 4 <= buffer.length < 8 && (expected.None? || LeValue(buffer.Contents()[..4]) == expected.value) ==>
      r == Err(ArgumentOutOfRange)
    ensures buffer.length >= 8 && (expected.None? || LeValue(buffer.Contents()[..4]) == expected.value) ==>
      var n := DeclaredSize(buffer.Contents());
      (8 + n > buffer.length ==> r == Err(OversizeError(buffer.Contents()))) &&
      (8 + n <= buffer.length && 8 + n + n % 2 > INT32_MAX ==> r == Err(Overflow))
    ensures r.Ok? <==>
      buffer.length >= 8 && (expected.None? || LeValue(buffer.Contents()[..4]) == expected.value) &&
      var n := DeclaredSize(buffer.Contents()); 8 + n <= buffer.length && 8 + n + n % 2 <= INT32_MAX
    ensures r.Ok? ==> r.value.chunkId == LeValue(buffer.Contents()[..4])
    ensures r.Ok? ==> r.value.rawData == buffer.Contents()[8..8 + DeclaredSize(buffer.Contents())]
    ensures r.Ok? ==> r.value.totalBytes == 8 + |r.value.rawData| + |r.value.rawData| % 2
  {
    var chunkId :- ReadChunkId(buffer);
    if expected.Some? && chunkId != expected.value then Err(ArgumentError)
    else
      var payload :- ReadChunkPayload(buffer);
      var total :- PaddedTotalBytes(payload.length);
      Ok(RawChunk(chunkId, total, payload.ToArray()))
  }

  /** The `Serialize` shared by the raw chunks: the 12-byte header, the payload, and a zero byte
      after an odd-sized payload. */
  function SerializeRaw(chunkId: uint32, rawData: seq<byte>): (segments: seq<seq<byte>>)
    requires |rawData| <= INT32_MAX
    ensures |segments| == 2 + |rawData| % 2
    ensures segments[0] == StrayHeader(chunkId, |rawData|) && segments[1] == rawData
    ensures |rawData| % 2 == 1 ==> segments[2] == [0]
    ensures Concat(segments) == StrayHeader(chunkId, |rawData|) + rawData + (if |rawData| % 2 == 1 then [0] else [])
  {
    var segments := [StrayHeader(chunkId, |rawData|), rawData] + (if |rawData| % 2 == 1 then [[0]] else []);
    assert segments[2..] == (if |rawData| % 2 == 1 then [[0]] else []);
    assert Concat(segments[2..]) == (if |rawData| % 2 == 1 then [0] else []);
    segments
  }

  /** Parsing what `SerializeRaw` wrote keeps the id and the length, but the payload read back is the
      four stray zero bytes followed by all but the last four payload bytes. */
  lemma RawReparse(expected: Option<uint32>, chunkId: uint32, rawData: seq<byte>)
    requires |rawData| + 13 <= INT32_MAX
    requires expected.None? || expected.value == chunkId
    ensures var n := |rawData|;
      DeserializeRaw(expected, ReadOnlySpan.FromArray(Concat(SerializeRaw(chunkId, rawData))))
        == Ok(RawChunk(chunkId, 8 + n + n % 2, ([0, 0, 0, 0] + rawData)[..n]))
  {
    var n := |rawData|;
    var bytes := Concat(SerializeRaw(chunkId, rawData));
    var h := StrayHeader(chunkId, n);
    assert bytes[..4] == h[..4];
    assert bytes[4..8] == h[4..8];
    assert bytes[8..8 + n] == ([0, 0, 0, 0] + rawData)[..n];
  }

  /** The payload read back equals the one written exactly when every payload byte is zero. */
  lemma StrayHeaderShiftsPayload(rawData: seq<byte>)
    ensures ([0, 0, 0, 0] + rawData)[..|rawData|] == rawData <==> forall i :: 0 <= i < |rawData| ==> rawData[i] == 0
  {
    var shifted := ([0, 0, 0, 0] + rawData)[..|rawData|];
    if shifted == rawData {
      forall i | 0 <= i < |rawData| ensures rawData[i] == 0 {
        ShiftedZero(rawData, i);
      }
    }
  }

  lemma {:induction false} ShiftedZero(rawData: seq<byte>, i: nat)
    requires i < |rawData| && ([0, 0, 0, 0] + rawData)[..|rawData|] == rawData
    ensures rawData[i] == 0
    decreases i
  {
    var shifted := ([0, 0, 0, 0] + rawData)[..|rawData|];
    assert rawData[i] == shifted[i];
    if i >= 4 {
      ShiftedZero(rawData, i - 4);
    }
  }
}

=== FILE: errors.dfy ===
/** Error kinds raised by the codec, and the failure-compatible result type that carries them. */
module Errors {

  /** One variant per exception type that a modelled path can throw. */
  datatype Error =
    | ArgumentError        // System.ArgumentException: wrong buffer width, wrong chunk id, short copy target
    | ArgumentOutOfRange   // System.ArgumentOutOfRangeException: a span or slice outside its array
    | IndexOutOfRange      // System.IndexOutOfRangeException: span or array indexing, Span construction
    | BadMediaFormat       // Palmtree.Media.BadMediaFormatException: structural RIFF/WAVE violation
    | BadImageFormat       // System.BadImageFormatException: short "fmt", missing "WAVE", ragged data
    | NotSupported         // System.NotSupportedException: unknown extensible sub-format
    | Overflow             // System.OverflowException: a `checked` conversion or addition
    | DivideByZero         // System.DivideByZeroException: frame count with block size 0

  /** Either a value or the error that aborted the computation; usable with `:-`. */
  datatype Result<+T> = Ok(value: T) | Err(error: Error) {

    predicate IsFailure() {
      Err?
    }

    function PropagateFailure<U>(): Result<U>
      requires Err?
    {
      Err(error)
    }

    function Extract(): T
      requires Ok?
    {
      value
    }
  }

  /** A reference that may be null in the source. */
  datatype Option<+T> = None | Some(value: T)
}

=== FILE: ints.dfy ===
/** The fixed-width integer types of the source as subsets of `int`, and the casts between them. */
module Ints {
  import opened Errors

  type byte = x: int | 0 <= x < 0x100
  type uint16 = x: int | 0 <= x < 0x1_0000
  type uint32 = x: int | 0 <= x < 0x1_0000_0000
  type uint64 = x: int | 0 <= x < 0x1_0000_0000_0000_0000
  type int16 = x: int | -0x8000 <= x < 0x8000
  type int32 = x: int | -0x8000_0000 <= x < 0x8000_0000
  type int64 = x: int | -0x8000_0000_0000_0000 <= x < 0x8000_0000_0000_0000

  const INT32_MAX: int := 0x7FFF_FFFF

  /** An `unchecked` cast of an unsigned value `u < m` to the signed type of the same width:
      the value itself below m/2, and u - m (two's complement) from m/2 on. */
  function Reinterpret(u: int, m: int): (r: int)
    requires m > 0 && m % 2 == 0 && 0 <= u < m
    ensures -(m / 2) <= r < m / 2
    ensures r == u || r == u - m
  {
    if u >= m / 2 then u - m else u
  }

  /** An `unchecked` cast of a signed value in [-m/2, m/2) to the unsigned type of width m. */
  function Truncate(v: int, m: int): (r: int)
    requires m > 0 && m % 2 == 0 && -(m / 2) <= v < m / 2
    ensures 0 <= r < m
    ensures r == v || r == v + m
  {
    if v < 0 then v + m else v
  }

  /** A `checked((int)x)` conversion, or a `checked` addition whose exact value is `x`. */
  function CheckedInt32(x: int): (r: Result<int32>)
    ensures r.Ok? <==> -0x8000_0000 <= x <= INT32_MAX
    ensures r.Ok? ==> r.value == x
    ensures r.Err? ==> r.error == Overflow
  {
    if -0x8000_0000 <= x <= INT32_MAX then Ok(x) else Err(Overflow)
  }

  /** The value an `unchecked` 32-bit `int` operation with exact result `x` produces: `x` wrapped
      into [-2^31, 2^31). */
  function WrapInt32(x: int): (r: int32)
    ensures (r - x) % 0x1_0000_0000 == 0
    ensures -0x8000_0000 <= x <= INT32_MAX ==> r == x
  {
    Reinterpret(x % 0x1_0000_0000, 0x1_0000_0000)
  }

  /** The unchecked sum of two non-negative `int`s: exact when it fits, otherwise 2^32 below the exact
      sum, so negative. */
  lemma WrapNonNegativeSum(a: int, b: int)
    requires 0 <= a <= INT32_MAX && 0 <= b <= INT32_MAX
    ensures WrapInt32(a + b) == if a + b <= INT32_MAX then a + b else a + b - 0x1_0000_0000
  {
  }

  /** Truncating a reinterpreted value gives the unsigned value back, and conversely. */
  lemma ReinterpretTruncate(u: int, v: int, m: int)
    requires m > 0 && m % 2 == 0 && 0 <= u < m && -(m / 2) <= v < m / 2
    ensures Truncate(Reinterpret(u, m), m) == u
    ensures Reinterpret(Truncate(v, m), m) == v
  {
  }
}

=== FILE: span_extensions.dfy ===
/** Extension methods that make spans over arrays and copy arrays into spans. */
module SpanExtensions {
  import opened Errors
  import opened Ints
  import opened Spans

  /** `AsSpan(array, offset)`: checks the offset, then asks for a window of the whole array's length
      starting at `offset`, which only fits when `offset` is 0. */
  function AsSpanFrom<T>(source: seq<T>, offset: int): (r: Result<Span<T>>)
    requires |source| <= INT32_MAX
    ensures r.Ok? <==> offset == 0
    ensures r.Ok? ==> r.value.Valid() && r.value.offset == 0 && r.value.Contents() == source
    ensures r.Err? ==> r.error == (if 0 < offset <= |source| then IndexOutOfRange else ArgumentOutOfRange)
  {
    if offset >= 0 && offset <= |source| then Span.Create(source, offset, |source|)
    else Err(ArgumentOutOfRange)
  }

  /** `AsSpan(array, offset, count)`. */
  function AsSpan<T>(source: seq<T>, offset: int, count: int): (r: Result<Span<T>>)
    requires |source| <= INT32_MAX
    ensures r.Ok? <==> 0 <= offset <= |source| && 0 <= count && offset + count <= |source|
    ensures r.Ok? ==> r.value.Valid() && r.value.source == source && r.value.offset == offset
    ensures r.Ok? ==> r.value.Contents() == source[offset..offset + count]
    ensures r.Err? ==> r.error == ArgumentOutOfRange
  {
    if offset < 0 || offset > |source| then Err(ArgumentOutOfRange)
    else if count < 0 || offset + count > |source| then Err(ArgumentOutOfRange)
    else Span.Create(source, offset, count)
  }

  /** `AsReadOnlySpan(span)`: the same array, offset and length. */
  function SpanAsReadOnlySpan<T>(span: Span<T>): (r: ReadOnlySpan<T>)
    requires span.Valid()
    ensures r.Valid() && r.source == span.source && r.offset == span.offset && r.length == span.length
    ensures r.Contents() == span.Contents()
  {
    ReadOnlySpan(span.source, span.offset, span.length)
  }

  /** `AsReadOnlySpan(array, offset)`: like `AsSpanFrom`, only `offset` 0 gives a span; the read-only
      constructor's `checked` end computation can overflow first when the array is large. */
  function AsReadOnlySpanFrom<T>(source: seq<T>, offset: int): (r: Result<ReadOnlySpan<T>>)
    requires |source| <= INT32_MAX
    ensures r.Ok? <==> offset == 0
    ensures r.Ok? ==> r.value.Valid() && r.value.Contents() == source
    ensures r.Err? ==> r.error == (if 0 < offset <= |source| && offset + |source| > INT32_MAX
                                   then Overflow else ArgumentOutOfRange)
  {
    if offset < 0 || offset > |source| then Err(ArgumentOutOfRange)
    else ReadOnlySpan.Create(source, offset, |source|)
  }

  /** The error `AsReadOnlySpan(array, offset, count)` raises for a window it rejects: the bound check
      adds offset and count unchecked, so an end past INT32_MAX wraps negative, passes that check, and
      overflows in the constructor's `checked` addition instead. */
  function RangeError(n: int, offset: int, count: int): Error {
    if 0 <= offset <= n && 0 <= count && offset + count > INT32_MAX then Overflow else ArgumentOutOfRange
  }

  /** `AsReadOnlySpan(array, offset, count)`. */
  function AsReadOnlySpan<T>(source: seq<T>, offset: int32, count: int32): (r: Result<ReadOnlySpan<T>>)
    requires |source| <= INT32_MAX
    ensures r.Ok? <==> 0 <= offset <= |source| && 0 <= count && offset + count <= |source|
    ensures r.Ok? ==> r.value.Valid() && r.value.source == source && r.value.offset == offset
    ensures r.Ok? ==> r.value.Contents() == source[offset..offset + count]
    ensures r.Err? ==> r.error == RangeError(|source|, offset, count)
  {
    if offset < 0 || offset > |source| then Err(ArgumentOutOfRange)
    else if count < 0 then Err(ArgumentOutOfRange)
    else
      WrapNonNegativeSum(offset, count);
      if WrapInt32(offset + count) > |source| then Err(ArgumentOutOfRange)
      else ReadOnlySpan.Create(source, offset, count)
  }

  /** `array.CopyTo(span)`: the whole array goes to the front of the span. */
  function CopyArrayTo<T>(source: seq<T>, destination: Span<T>): (r: Result<Span<T>>)
    requires destination.Valid()
    ensures r.Ok? <==> destination.length >= |source|
    ensures r.Err? ==> r.error == ArgumentError
    ensures r.Ok? ==> r.value.Valid() && r.value.offset == destination.offset && r.value.length == destination.length
    ensures r.Ok? ==> r.value.Contents()[..|source|] == source
    ensures r.Ok? ==> r.value.Contents()[|source|..] == destination.Contents()[|source|..]
    ensures r.Ok? ==> SameOutside(destination.source, r.value.source, destination.offset, destination.offset + |source|)
  {
    if destination.length < |source| then Err(ArgumentError)
    else Ok(destination.(source := Overwrite(destination.source, destination.offset, source)))
  }

  /** The one-argument overloads fail for every positive offset that the two-argument check accepts. */
  lemma OneArgumentOverloadsRejectPositiveOffsets<T>(source: seq<T>, offset: int)
    requires |source| <= INT32_MAX && 0 < offset <= |source|
    ensures AsSpanFrom(source, offset).Err? && AsReadOnlySpanFrom(source, offset).Err?
    ensures AsSpan(source, offset, |source| - offset).Ok?
    ensures AsReadOnlySpan(source, offset, |source| - offset).Ok?
  {
  }
}

=== FILE: spans.dfy ===
/** Bounds-checked windows `(source, offset, length)` over an array, read-only and writable.
    Arrays are immutable values here: a write returns the span with its updated array. */
module Spans {
  import opened Errors
  import opened Ints

  /** The window [offset, offset + length) lies inside an array; .NET arrays hold at most INT32_MAX elements. */
  ghost predicate InBounds(arrayLength: int, offset: int, length: int) {
    0 <= offset && 0 <= length && offset + length <= arrayLength <= INT32_MAX
  }

  /** `after` differs from `before` at most inside the index range [lo, hi). */
  ghost predicate SameOutside<T>(before: seq<T>, after: seq<T>, lo: int, hi: int) {
    && |after| == |before|
    && forall j :: 0 <= j < |before| && !(lo <= j < hi) ==> after[j] == before[j]
  }

  /** `a` with the elements from index `at` on replaced by `s` (what `Array.Copy` does to its target). */
  function Overwrite<T>(a: seq<T>, at: int, s: seq<T>): (r: seq<T>)
    requires 0 <= at && at + |s| <= |a|
    ensures SameOutside(a, r, at, at + |s|)
    ensures r[at..at + |s|] == s
  {
    a[..at] + s + a[at + |s|..]
  }

  datatype ReadOnlySpan<T> = ReadOnlySpan(source: seq<T>, offset: int, length: int) {

    ghost predicate Valid() {
      InBounds(|source|, offset, length)
    }

    /** The elements the span views. */
    function Contents(): (s: seq<T>)
      requires Valid()
      ensures |s| == length
    {
      source[offset..offset + length]
    }

    /** The internal constructor: the offset must lie in the array and the window must end inside it;
        the end is computed with a `checked` addition. */
    static function Create(source: seq<T>, start: int, count: int): (r: Result<ReadOnlySpan<T>>)
      requires |source| <= INT32_MAX
      ensures r.Ok? <==> 0 <= start <= |source| && 0 <= count && start + count <= |source|
      ensures r.Ok? ==> r.value.Valid() && r.value.source == source && r.value.offset == start
      ensures r.Ok? ==> r.value.Contents() == source[start..start + count]
      ensures r.Err? ==> r.error == (if 0 <= start <= |source| && 0 <= count && start + count > INT32_MAX
                                     then Overflow else ArgumentOutOfRange)
    {
      if start < 0 || start > |source| then Err(ArgumentOutOfRange)
      else if count < 0 then Err(ArgumentOutOfRange)
      else if start + count > INT32_MAX then Err(Overflow)
      else if start + count > |source| then Err(ArgumentOutOfRange)
      else Ok(ReadOnlySpan(source, start, count))
    }

    /** The implicit conversion from an array: a view of all of it. */
    static function FromArray(source: seq<T>): (r: ReadOnlySpan<T>)
      requires |source| <= INT32_MAX
      ensures r.Valid() && r.Contents() == source
      ensures r.IsEmpty() <==> |source| == 0
    {
      ReadOnlySpan(source, 0, |source|)
    }

    /** The indexer. */
    function Get(index: int): (r: Result<T>)
      requires Valid()
      ensures r.Ok? <==> 0 <= index < length
      ensures r.Ok? ==> r.value == Contents()[index]
      ensures r.Err? ==> r.error == IndexOutOfRange
    {
      if index >= 0 && index < length then Ok(source[offset + index]) else Err(IndexOutOfRange)
    }

    function IsEmpty(): (b: bool)
      requires Valid()
      ensures b <==> Contents() == []
    {
      length == 0
    }

    /** The suffix from `start`. */
    function Slice(start: int): (r: Result<ReadOnlySpan<T>>)
      requires Valid()
      ensures r.Ok? <==> 0 <= start <= length
      ensures r.Ok? ==> r.value.Valid() && r.value.source == source && r.value.length == length - start
      ensures r.Ok? ==> r.value.Contents() == Contents()[start..]
      ensures r.Err? ==> r.error == ArgumentOutOfRange
    {
      if start < 0 || start > length then Err(ArgumentOutOfRange)
      else Create(source, offset + start, length - start)
    }

    /** The `count` elements from `start`. */
    function SliceN(start: int, count: int): (r: Result<ReadOnlySpan<T>>)
      requires Valid()
      ensures r.Ok? <==> 0 <= start <= length && 0 <= count && start + count <= length
      ensures r.Ok? ==> r.value.Valid() && r.value.source == source && r.value.length == count
      ensures r.Ok? ==> r.value.Contents() == Contents()[start..start + count]
      ensures r.Err? ==> r.error == ArgumentOutOfRange
    {
      if start < 0 || start > length then Err(ArgumentOutOfRange)
      else if count < 0 || start + count > length then Err(ArgumentOutOfRange)
      else Create(source, offset + start, count)
    }

    /** Copies the viewed elements to the front of `destination`; returns `destination` over its updated array. */
    function CopyTo(destination: Span<T>): (r: Result<Span<T>>)
      requires Valid() && destination.Valid()
      ensures r.Ok? <==> destination.length >= length
      ensures r.Err? ==> r.error == ArgumentError
      ensures r.Ok? ==> r.value.Valid() && r.value.offset == destination.offset && r.value.length == destination.length
      ensures r.Ok? ==> r.value.Contents()[..length] == Contents()
      ensures r.Ok? ==> r.value.Contents()[length..] == destination.Contents()[length..]
      ensures r.Ok? ==> SameOutside(destination.source, r.value.source, destination.offset, destination.offset + length)
    {
      if destination.length < length then Err(ArgumentError)
      else Ok(destination.(source := Overwrite(destination.source, destination.offset, Contents())))
    }

    /** A fresh array holding the viewed elements. */
    function ToArray(): (a: seq<T>)
      requires Valid()
      ensures |a| == length
      ensures forall i :: 0 <= i < length ==> Get(i) == Ok(a[i])
    {
      source[offset..offset + length]
    }
  }

  datatype Span<T> = Span(source: seq<T>, offset: int, length: int) {

    ghost predicate Valid() {
      InBounds(|source|, offset, length)
    }

    /** The elements of the window, as the read-only view over it sees them. */
    function Contents(): (s: seq<T>)
      requires Valid()
      ensures |s| == length
    {
      ReadOnlySpan(source, offset, length).Contents()
    }

    /** The internal constructor: negative arguments are out of range, a window past the end of the
        array is an index error. */
    static function Create(source: seq<T>, start: int, count: int): (r: Result<Span<T>>)
      requires |source| <= INT32_MAX
      ensures r.Ok? <==> 0 <= start && 0 <= count && start + count <= |source|
      ensures r.Ok? ==> r.value.Valid() && r.value.source == source && r.value.offset == start
      ensures r.Ok? ==> r.value.Contents() == source[start..start + count]
      ensures r.Err? ==> r.error == (if start < 0 || count < 0 then ArgumentOutOfRange else IndexOutOfRange)
    {
      if start < 0 then Err(ArgumentOutOfRange)
      else if count < 0 then Err(ArgumentOutOfRange)
      else if start + count > |source| then Err(IndexOutOfRange)
      else Ok(Span(source, start, count))
    }

    /** The implicit conversion from an array. */
    static function FromArray(source: seq<T>): (r: Span<T>)
      requires |source| <= INT32_MAX
      ensures r.Valid() && r.offset == 0 && r.Contents() == source
    {
      Span(source, 0, |source|)
    }

    /** The implicit conversion to a read-only span over the same window. */
    function AsReadOnly(): (r: ReadOnlySpan<T>)
      requires Valid()
      ensures r.Valid() && r.source == source && r.offset == offset && r.Contents() == Contents()
    {
      ReadOnlySpan(source, offset, length)
    }

    /** The indexer's getter. */
    function Get(index: int): (r: Result<T>)
      requires Valid()
      ensures r.Ok? <==> 0 <= index < length
      ensures r.Ok? ==> r.value == Contents()[index]
      ensures r.Err? ==> r.error == IndexOutOfRange
    {
      if index < 0 || index >= length then Err(IndexOutOfRange) else Ok(source[offset + index])
    }

    /** The indexer's setter: writes `source[offset + index]` and nothing else. */
    function Set(index: int, value: T): (r: Result<Span<T>>)
      requires Valid()
      ensures r.Ok? <==> 0 <= index < length
      ensures r.Err? ==> r.error == IndexOutOfRange
      ensures r.Ok? ==> r.value.Valid() && r.value.offset == offset && r.value.length == length
      ensures r.Ok? ==> r.value.Contents()[index] == value
      ensures r.Ok? ==> SameOutside(source, r.value.source, offset + index, offset + index + 1)
    {
      if index < 0 || index >= length then Err(IndexOutOfRange)
      else Ok(this.(source := source[offset + index := value]))
    }

    function IsEmpty(): (b: bool)
      requires Valid()
      ensures b <==> Contents() == []
    {
      AsReadOnly().IsEmpty()
    }

    function Slice(start: int): (r: Result<Span<T>>)
      requires Valid()
      ensures r.Ok? <==> 0 <= start <= length
      ensures r.Ok? ==> r.value.Valid() && r.value.source == source && r.value.offset == offset + start
      ensures r.Ok? ==> r.value.Contents() == Contents()[start..]
      ensures r.Err? ==> r.error == ArgumentOutOfRange
    {
      if start < 0 || start > length then Err(ArgumentOutOfRange)
      else Create(source, offset + start, length - start)
    }

    function SliceN(start: int, count: int): (r: Result<Span<T>>)
      requires Valid()
      ensures r.Ok? <==> 0 <= start <= length && 0 <= count && start + count <= length
      ensures r.Ok? ==> r.value.Valid() && r.value.source == source && r.value.offset == offset + start
      ensures r.Ok? ==> r.value.Contents() == Contents()[start..start + count]
      ensures r.Err? ==> r.error == ArgumentOutOfRange
    {
      if start < 0 || start > length then Err(ArgumentOutOfRange)
      else if count < 0 || start + count > length then Err(ArgumentOutOfRange)
      else Create(source, offset + start, count)
    }

    function CopyTo(destination: Span<T>): (r: Result<Span<T>>)
      requires Valid() && destination.Valid()
      ensures r.Ok? <==> destination.length >= length
      ensures r.Err? ==> r.error == ArgumentError
      ensures r.Ok? ==> r.value.Valid() && r.value.offset == destination.offset && r.value.length == destination.length
      ensures r.Ok? ==> r.value.Contents()[..length] == Contents()
      ensures r.Ok? ==> r.value.Contents()[length..] == destination.Contents()[length..]
      ensures r.Ok? ==> SameOutside(destination.source, r.value.source, destination.offset, destination.offset + length)
    {
      AsReadOnly().CopyTo(destination)
    }

    function ToArray(): (a: seq<T>)
      requires Valid()
      ensures |a| == length
      ensures forall i :: 0 <= i < length ==> Get(i) == Ok(a[i])
    {
      AsReadOnly().ToArray()
    }
  }
}

=== FILE: wave_data_chunk.dfy ===
/** The "data" chunk: the raw sample bytes, their division into frames of `blockSize` bytes, and the
    integer sample accessors. The chunk itself is a `RawChunk` with the "data" id. */
module WaveDataChunk {
  import opened Errors
  import opened Ints
  import opened Spans
  import opened SpanExtensions
  import opened ByteOrder
  import opened ByteDataExtensions
  import opened ChunkFraming

  /** A chunk as `Deserialize` builds it: the "data" id and an array-sized payload. */
  predicate Valid(chunk: RawChunk) {
    chunk.chunkId == DATA_CHUNK_ID && |chunk.rawData| <= INT32_MAX
  }

  function Deserialize(buffer: ReadOnlySpan<byte>): (r: Result<RawChunk>)
    requires buffer.Valid()
    ensures buffer.length < 4 ==> r == Err(ArgumentOutOfRange)
    ensures buffer.length >= 4 && LeValue(buffer.Contents()[..4]) != DATA_CHUNK_ID ==> r == Err(ArgumentError)
    ensures 4 <= buffer.length < 8 && LeValue(buffer.Contents()[..4]) == DATA_CHUNK_ID ==> r == Err(ArgumentOutOfRange)
    ensures buffer.length >= 8 && LeValue(buffer.Contents()[..4]) == DATA_CHUNK_ID ==>
      var n := DeclaredSize(buffer.Contents());
      (8 + n > buffer.length ==> r == Err(OversizeError(buffer.Contents()))) &&
      (8 + n <= buffer.length && 8 + n + n % 2 > INT32_MAX ==> r == Err(Overflow))
    ensures r.Ok? <==>
      buffer.length >= 8 && LeValue(buffer.Contents()[..4]) == DATA_CHUNK_ID &&
      var n := DeclaredSize(buffer.Contents()); 8 + n <= buffer.length && 8 + n + n % 2 <= INT32_MAX
    ensures r.Ok? ==> Valid(r.value)
    ensures r.Ok? ==> r.value.rawData == buffer.Contents()[8..8 + DeclaredSize(buffer.Contents())]
    ensures r.Ok? ==> r.value.totalBytes == 8 + |r.value.rawData| + |r.value.rawData| % 2
  {
    DeserializeRaw(Some(DATA_CHUNK_ID), buffer)
  }

  /** `Math.DivRem(length, blockSize)`: C# division truncates toward zero, and the remainder of a
      non-negative length is non-negative. A nonzero remainder means the data is not a whole number
      of frames. */
  function GetSampleLength(chunk: RawChunk, blockSize: int32): (r: Result<int32>)
    requires Valid(chunk)
    ensures r.Ok? <==> blockSize != 0 && |chunk.rawData| % Abs(blockSize) == 0
    ensures r.Ok? ==> r.value * blockSize == |chunk.rawData|
    ensures blockSize == 0 ==> r == Err(DivideByZero)
    ensures r.Err? && blockSize != 0 ==> r.error == BadImageFormat
  {
    var n := |chunk.rawData|;
    if blockSize == 0 then Err(DivideByZero)
    else
      var q := n / Abs(blockSize);
      DivBound(n, Abs(blockSize));
      if n % Abs(blockSize) != 0 then Err(BadImageFormat)
      else if blockSize > 0 then Ok(q)
      else Ok(-q)
  }

  function Abs(x: int): nat {
    if x < 0 then -x else x
  }

  lemma DivBound(a: nat, b: nat)
    requires b >= 1
    ensures 0 <= a / b <= a
    ensures a % b == 0 ==> (a / b) * b == a
  {
  }

  /** `_sampleData.AsReadOnlySpan(blockSize * frame, blockSize * frameLength)`, both products
      computed in unchecked 32-bit arithmetic. */
  function GetSampleDataRegion(chunk: RawChunk, blockSize: int32, frame: int32, frameLength: int32)
    : (r: Result<ReadOnlySpan<byte>>)
    requires Valid(chunk)
    ensures var start := WrapInt32(blockSize * frame); var count := WrapInt32(blockSize * frameLength);
      (r.Ok? <==> 0 <= start && 0 <= count && start + count <= |chunk.rawData|) &&
      (r.Ok? ==> r.value.Valid() && r.value.Contents() == chunk.rawData[start..start + count]) &&
      (r.Err? ==> r.error == (if 0 <= start <= |chunk.rawData| && 0 <= count && start + count > INT32_MAX
                              then Overflow else ArgumentOutOfRange))
  {
    AsReadOnlySpan(chunk.rawData, WrapInt32(blockSize * frame), WrapInt32(blockSize * frameLength))
  }

  /** When neither product wraps, the region is frames [frame, frame + frameLength). */
  lemma RegionIsFrames(chunk: RawChunk, blockSize: int32, frame: int32, frameLength: int32)
    requires Valid(chunk) && blockSize >= 0 && frame >= 0 && frameLength >= 0
    requires blockSize * (frame + frameLength) <= INT32_MAX
    ensures var r := GetSampleDataRegion(chunk, blockSize, frame, frameLength);
      var lo, hi := blockSize * frame, blockSize * (frame + frameLength);
      0 <= lo <= hi &&
      (r.Ok? <==> hi <= |chunk.rawData|) &&
      (r.Ok? ==> r.value.Contents() == chunk.rawData[lo..hi])
  {
    Distribute(blockSize, frame, frameLength);
    var start, count := blockSize * frame, blockSize * frameLength;
    assert WrapInt32(start) == start && WrapInt32(count) == count;
  }

  lemma Commute(a: int, b: int)
    ensures a * b == b * a && b * 0 == 0
  {
  }

  lemma Distribute(a: nat, b: nat, c: nat)
    ensures a * (b + c) == a * b + a * c && 0 <= a * b && 0 <= a * c
  {
  }

  /** The byte offset of a sample: `frame * blockSize + channel * width`, in unchecked 32-bit
      arithmetic (wrapping each product and the sum, as the source does, lands on the same value). */
  function SampleOffset(blockSize: int32, channel: int32, frame: int32, width: nat): int32 {
    WrapInt32(frame * blockSize + channel * width)
  }

  /** `_sampleData[frame * blockSize + channel]`: only the array bounds are checked. */
  function GetSampleDataAsU8(chunk: RawChunk, blockSize: int32, channel: int32, frame: int32): (r: Result<byte>)
    requires Valid(chunk)
    ensures var i := SampleOffset(blockSize, channel, frame, 1);
      (r.Ok? <==> 0 <= i < |chunk.rawData|) && (r.Ok? ==> r.value == chunk.rawData[i])
    ensures r.Err? ==> r.error == IndexOutOfRange
  {
    var i := SampleOffset(blockSize, channel, frame, 1);
    if 0 <= i < |chunk.rawData| then Ok(chunk.rawData[i]) else Err(IndexOutOfRange)
  }

  /** The `width` bytes of a sample as a span, or an argument error when they leave the array. */
  function SampleWindow(chunk: RawChunk, blockSize: int32, channel: int32, frame: int32, width: nat)
    : (r: Result<ReadOnlySpan<byte>>)
    requires Valid(chunk) && width <= 8
    ensures var o := SampleOffset(blockSize, channel, frame, width);
      (r.Ok? <==> 0 <= o && o + width <= |chunk.rawData|) &&
      (r.Ok? ==> r.value.Valid() && r.value.Contents() == chunk.rawData[o..o + width])
    ensures r.Err? ==> r.error == ArgumentOutOfRange
  {
    var span :- AsSpan(chunk.rawData, SampleOffset(blockSize, channel, frame, width), width);
    Ok(SpanAsReadOnlySpan(span))
  }

  function GetSampleDataAsS16LE(chunk: RawChunk, blockSize: int32, channel: int32, frame: int32): (r: Result<int16>)
    requires Valid(chunk)
    ensures var o := SampleOffset(blockSize, channel, frame, 2);
      (r.Ok? <==> 0 <= o && o + 2 <= |chunk.rawData|) &&
      (r.Ok? ==> r == AsInt16Le(ReadOnlySpan.FromArray(chunk.rawData[o..o + 2])))
    ensures r.Err? ==> r.error == ArgumentOutOfRange
  {
    var w :- SampleWindow(chunk, blockSize, channel, frame, 2);
    Ok(AsInt16Le(w).value)
  }

  function GetSampleDataAsS24LE(chunk: RawChunk, blockSize: int32, channel: int32, frame: int32): (r: Result<int32>)
    requires Valid(chunk)
    ensures var o := SampleOffset(blockSize, channel, frame, 3);
      (r.Ok? <==> 0 <= o && o + 3 <= |chunk.rawData|) &&
      (r.Ok? ==> r == AsInt24Le(ReadOnlySpan.FromArray(chunk.rawData[o..o + 3])))
    ensures r.Err? ==> r.error == ArgumentOutOfRange
  {
    var w :- SampleWindow(chunk, blockSize, channel, frame, 3);
    Ok(AsInt24Le(w).value)
  }

  function GetSampleDataAsS32LE(chunk: RawChunk, blockSize: int32, channel: int32, frame: int32): (r: Result<int32>)
    requires Valid(chunk)
    ensures var o := SampleOffset(blockSize, channel, frame, 4);
      (r.Ok? <==> 0 <= o && o + 4 <= |chunk.rawData|) &&
      (r.Ok? ==> r == AsInt32Le(ReadOnlySpan.FromArray(chunk.rawData[o..o + 4])))
    ensures r.Err? ==> r.error == ArgumentOutOfRange
  {
    var w :- SampleWindow(chunk, blockSize, channel, frame, 4);
    Ok(AsInt32Le(w).value)
  }

  function GetSampleDataAsS64LE(chunk: RawChunk, blockSize: int32, channel: int32, frame: int32): (r: Result<int64>)
    requires Valid(chunk)
    ensures var o := SampleOffset(blockSize, channel, frame, 8);
      (r.Ok? <==> 0 <= o && o + 8 <= |chunk.rawData|) &&
      (r.Ok? ==> r == AsInt64Le(ReadOnlySpan.FromArray(chunk.rawData[o..o + 8])))
    ensures r.Err? ==> r.error == ArgumentOutOfRange
  {
    var w :- SampleWindow(chunk, blockSize, channel, frame, 8);
    Ok(AsInt64Le(w).value)
  }

  /** The channel is never checked against the channel count: in a frame of `channels` 16-bit
      samples, channel `channels + c` of one frame is channel `c` of the next. */
  lemma ChannelNotChecked(chunk: RawChunk, channels: int32, c: int32, frame: int32)
    requires Valid(chunk) && 0 <= 2 * channels <= INT32_MAX
    requires -0x8000_0000 <= channels + c <= INT32_MAX && frame < INT32_MAX
    ensures GetSampleDataAsS16LE(chunk, 2 * channels, channels + c, frame)
         == GetSampleDataAsS16LE(chunk, 2 * channels, c, frame + 1)
  {
    assert frame * (2 * channels) + (channels + c) * 2 == (frame + 1) * (2 * channels) + c * 2;
  }

  /** The segments of the chunk: the 12-byte header, the samples, and a pad byte if their count is odd. */
  function Serialize(chunk: RawChunk): (segments: seq<seq<byte>>)
    requires Valid(chunk)
    ensures Concat(segments) == StrayHeader(DATA_CHUNK_ID, |chunk.rawData|) + chunk.rawData
      + (if |chunk.rawData| % 2 == 1 then [0] else [])
  {
    SerializeRaw(DATA_CHUNK_ID, chunk.rawData)
  }

  /** `Serialize(blockSize, from, count)`: the same chunk layout around only the selected frames. */
  function SerializeRange(chunk: RawChunk, blockSize: int32, from: int32, count: int32)
    : (r: Result<seq<seq<byte>>>)
    requires Valid(chunk)
    ensures r.Ok? <==> GetSampleDataRegion(chunk, blockSize, from, count).Ok?
    ensures r.Err? ==> r.error == GetSampleDataRegion(chunk, blockSize, from, count).error
    ensures r.Ok? ==>
      r.value == Serialize(chunk.(rawData := GetSampleDataRegion(chunk, blockSize, from, count).value.Contents()))
  {
    var region :- GetSampleDataRegion(chunk, blockSize, from, count);
    Ok(SerializeRaw(DATA_CHUNK_ID, region.Contents()))
  }

  /** Selecting every frame serialises the whole chunk. */
  lemma SerializeAllFrames(chunk: RawChunk, blockSize: int32)
    requires Valid(chunk) && blockSize > 0 && GetSampleLength(chunk, blockSize).Ok?
    ensures SerializeRange(chunk, blockSize, 0, GetSampleLength(chunk, blockSize).value) == Ok(Serialize(chunk))
  {
    var n := GetSampleLength(chunk, blockSize).value;
    Commute(n, blockSize);
    var start, count := blockSize * 0, blockSize * n;
    assert start == 0 && count == |chunk.rawData|;
    assert WrapInt32(start) == 0 && WrapInt32(count) == count;
    assert chunk.rawData[0..count] == chunk.rawData;
  }
}

=== FILE: wave_fact_chunk.dfy ===
/** The "fact" chunk: a single 32-bit sample count. */
module WaveFactChunk {
  import opened Errors
  import opened Ints
  import opened Spans
  import opened ByteOrder
  import opened ByteDataExtensions
  import opened ChunkFraming

  datatype WaveFactChunk = WaveFactChunk(totalBytes: int32, sampleLength: uint32)

  /** The 12 bytes of a fact chunk: id, the payload size 4, and the sample count. */
  function FactBytes(sampleLength: uint32): (b: seq<byte>)
    ensures |b| == 12
  {
    LeBytes(FACT_CHUNK_ID, 4) + LeBytes(4, 4) + LeBytes(sampleLength, 4)
  }

  function Deserialize(buffer: ReadOnlySpan<byte>): (r: Result<WaveFactChunk>)
    requires buffer.Valid()
    ensures buffer.length < 4 ==> r == Err(ArgumentOutOfRange)
    ensures buffer.length >= 4 && LeValue(buffer.Contents()[..4]) != FACT_CHUNK_ID ==> r == Err(ArgumentError)
    ensures 4 <= buffer.length < 8 && LeValue(buffer.Contents()[..4]) == FACT_CHUNK_ID ==> r == Err(ArgumentOutOfRange)
    ensures buffer.length >= 8 && LeValue(buffer.Contents()[..4]) == FACT_CHUNK_ID && 8 + DeclaredSize(buffer.Contents()) > buffer.length ==>
      r == Err(OversizeError(buffer.Contents()))
    ensures r.Ok? <==>
      buffer.length >= 12 && LeValue(buffer.Contents()[..4]) == FACT_CHUNK_ID && DeclaredSize(buffer.Contents()) == 4
    ensures (buffer.length >= 8 && LeValue(buffer.Contents()[..4]) == FACT_CHUNK_ID &&
             8 + DeclaredSize(buffer.Contents()) <= buffer.length && DeclaredSize(buffer.Contents()) != 4) ==>
      r == Err(BadMediaFormat)
    ensures r.Ok? ==> r.value == WaveFactChunk(12, U32At(buffer.Contents(), 8))
  {
    var chunkId :- ReadChunkId(buffer);
    if chunkId != FACT_CHUNK_ID then Err(ArgumentError)
    else
      var payload :- ReadChunkPayload(buffer);
      if payload.length != 4 then Err(BadMediaFormat)
      else
        Ok(WaveFactChunk(payload.length + 8, AsUint32Le(payload).value))
  }

  function Serialize(chunk: WaveFactChunk): (segments: seq<seq<byte>>)
    ensures |segments| == 1 && |Concat(segments)| == 12
    ensures LeValue(Concat(segments)[..4]) == FACT_CHUNK_ID
    ensures LeValue(Concat(segments)[4..8]) == 4
    ensures LeValue(Concat(segments)[8..12]) == chunk.sampleLength
  {
    var b := FactBytes(chunk.sampleLength);
    assert Concat([b]) == b;
    assert b[..4] == LeBytes(FACT_CHUNK_ID, 4) && b[4..8] == LeBytes(4, 4) && b[8..12] == LeBytes(chunk.sampleLength, 4);
    LeValueOfLeBytes(FACT_CHUNK_ID, 4);
    LeValueOfLeBytes(4, 4);
    LeValueOfLeBytes(chunk.sampleLength, 4);
    [b]
  }

  /** Parsing the serialised chunk gives back the sample count, with a total of 12 bytes. */
  lemma RoundTrip(chunk: WaveFactChunk)
    ensures Deserialize(ReadOnlySpan.FromArray(Concat(Serialize(chunk)))) == Ok(chunk.(totalBytes := 12))
  {
    var c := Concat(Serialize(chunk));
    assert c[..8][4..8] == c[4..8];
  }

  /** Re-serialising a parsed chunk reproduces the 12 bytes it was parsed from. */
  lemma ReserializeIdentity(buffer: ReadOnlySpan<byte>)
    requires buffer.Valid() && Deserialize(buffer).Ok?
    ensures Concat(Serialize(Deserialize(buffer).value)) == buffer.Contents()[..12]
  {
    var c := buffer.Contents();
    var chunk := Deserialize(buffer).value;
    assert Concat(Serialize(chunk)) == FactBytes(chunk.sampleLength);
    LeBytesOfLeValue(c[..4]);
    LeBytesOfLeValue(c[4..8]);
    LeBytesOfLeValue(c[8..12]);
    assert c[..12] == c[..4] + c[4..8] + c[8..12];
  }
}

=== FILE: wave_file_container.dfy ===
/** The RIFF/WAVE container: the outer "RIFF" header and "WAVE" form id, the scan over the chunks
    that follow, frame counting and sample access, and serialisation of the whole file. */
module WaveFileContainer {
  import opened Errors
  import opened Ints
  import opened Spans
  import opened ByteOrder
  import opened ByteDataExtensions
  import opened ChunkFraming
  import WaveFormatChunk
  import WaveFormatExtendedInfo
  import WaveDataChunk
  import WaveFactChunk
  import WaveId3TagChunk
  import WaveListChunk
  import WaveUnknownChunk

  type FormatChunk = WaveFormatChunk.WaveFormatChunk
  type FactChunk = WaveFactChunk.WaveFactChunk

  /** One parsed chunk, tagged with the kind its id selected. */
  datatype Chunk =
    | Format(format: FormatChunk)
    | Data(data: RawChunk)
    | Fact(fact: FactChunk)
    | Id3(id3: RawChunk)
    | List(list: RawChunk)
    | Unknown(unknown: RawChunk)

  datatype ChunkKind = FormatKind | DataKind | FactKind | Id3Kind | ListKind | UnknownKind

  function Kind(c: Chunk): ChunkKind {
    match c
    case Format(_) => FormatKind
    case Data(_) => DataKind
    case Fact(_) => FactKind
    case Id3(_) => Id3Kind
    case List(_) => ListKind
    case Unknown(_) => UnknownKind
  }

  /** The kind the scan dispatches an id to. */
  function KindOfId(id: uint32): ChunkKind {
    if id == FMT_CHUNK_ID then FormatKind
    else if id == DATA_CHUNK_ID then DataKind
    else if id == ID3_CHUNK_ID then Id3Kind
    else if id == FACT_CHUNK_ID then FactKind
    else if id == LIST_CHUNK_ID then ListKind
    else UnknownKind
  }

  /** How far the scan advances past a chunk. */
  function ChunkTotalBytes(c: Chunk): int32 {
    match c
    case Format(f) => f.totalBytes
    case Data(d) => d.totalBytes
    case Fact(f) => f.totalBytes
    case Id3(d) => d.totalBytes
    case List(d) => d.totalBytes
    case Unknown(d) => d.totalBytes
  }

  /** What parsing guarantees about a raw chunk: an array-sized payload, and the data chunk's id. */
  predicate ChunkValid(c: Chunk) {
    match c
    case Format(_) => true
    case Data(d) => WaveDataChunk.Valid(d)
    case Fact(_) => true
    case Id3(d) => |d.rawData| <= INT32_MAX
    case List(d) => |d.rawData| <= INT32_MAX
    case Unknown(d) => |d.rawData| <= INT32_MAX
  }

  /** The four chunk kinds that keep their payload as raw bytes, each handed to its own parser. */
  function DeserializeRawKind(kind: ChunkKind, buffer: ReadOnlySpan<byte>): (r: Result<Chunk>)
    requires buffer.Valid() && buffer.length >= 8
    requires kind == KindOfId(U32At(buffer.Contents(), 0)) && kind !in {FormatKind, FactKind}
    ensures r.Ok? ==> Kind(r.value) == kind && ChunkValid(r.value)
    ensures var n := DeclaredSize(buffer.Contents());
      (r.Ok? <==> 8 + n <= buffer.length && 8 + n + n % 2 <= INT32_MAX) &&
      (r.Ok? ==> ChunkTotalBytes(r.value) == 8 + n + n % 2)
    ensures kind == DataKind ==>
      var p := WaveDataChunk.Deserialize(buffer);
      (r.Ok? <==> p.Ok?) && (r.Ok? ==> r.value == Data(p.value)) && (r.Err? ==> r.error == p.error)
    ensures kind == Id3Kind ==>
      var p := WaveId3TagChunk.Deserialize(buffer);
      (r.Ok? <==> p.Ok?) && (r.Ok? ==> r.value == Id3(p.value)) && (r.Err? ==> r.error == p.error)
    ensures kind == ListKind ==>
      var p := WaveListChunk.Deserialize(buffer);
      (r.Ok? <==> p.Ok?) && (r.Ok? ==> r.value == List(p.value)) && (r.Err? ==> r.error == p.error)
    ensures kind == UnknownKind ==>
      var p := WaveUnknownChunk.Deserialize(buffer);
      (r.Ok? <==> p.Ok?) && (r.Ok? ==> r.value == Unknown(p.value)) && (r.Err? ==> r.error == p.error)
  {
    match kind
    case DataKind =>
      var d :- WaveDataChunk.Deserialize(buffer);
      Ok(Data(d))
    case Id3Kind =>
      var d :- WaveId3TagChunk.Deserialize(buffer);
      Ok(Id3(d))
    case ListKind =>
      var d :- WaveListChunk.Deserialize(buffer);
      Ok(List(d))
    case UnknownKind =>
      var d :- WaveUnknownChunk.Deserialize(buffer);
      Ok(Unknown(d))
  }

  /** One step of the scan loop: reads the id and hands the buffer to the matching chunk parser. */
  function DeserializeChunk(buffer: ReadOnlySpan<byte>): (r: Result<Chunk>)
    requires buffer.Valid() && buffer.length >= 8
    ensures r.Ok? ==> Kind(r.value) == KindOfId(U32At(buffer.Contents(), 0))
    ensures r.Ok? ==> ChunkValid(r.value)
    ensures r.Ok? ==> 8 <= ChunkTotalBytes(r.value) <= buffer.length + 1
    ensures r.Ok? && ChunkTotalBytes(r.value) == buffer.length + 1 ==>
      Kind(r.value) !in {FormatKind, FactKind} && DeclaredSize(buffer.Contents()) % 2 == 1
    ensures KindOfId(U32At(buffer.Contents(), 0)) !in {FormatKind, FactKind} ==>
      var n := DeclaredSize(buffer.Contents());
      (r.Ok? <==> 8 + n <= buffer.length && 8 + n + n % 2 <= INT32_MAX) &&
      (r.Ok? ==> ChunkTotalBytes(r.value) == 8 + n + n % 2)
    ensures KindOfId(U32At(buffer.Contents(), 0)) == FormatKind ==>
      var p := WaveFormatChunk.Deserialize(buffer);
      (r.Ok? <==> p.Ok?) && (r.Ok? ==> r.value == Format(p.value)) && (r.Err? ==> r.error == p.error)
    ensures KindOfId(U32At(buffer.Contents(), 0)) == DataKind ==>
      var p := WaveDataChunk.Deserialize(buffer);
      (r.Ok? <==> p.Ok?) && (r.Ok? ==> r.value == Data(p.value)) && (r.Err? ==> r.error == p.error)
    ensures KindOfId(U32At(buffer.Contents(), 0)) == Id3Kind ==>
      var p := WaveId3TagChunk.Deserialize(buffer);
      (r.Ok? <==> p.Ok?) && (r.Ok? ==> r.value == Id3(p.value)) && (r.Err? ==> r.error == p.error)
    ensures KindOfId(U32At(buffer.Contents(), 0)) == FactKind ==>
      var p := WaveFactChunk.Deserialize(buffer);
      (r.Ok? <==> p.Ok?) && (r.Ok? ==> r.value == Fact(p.value)) && (r.Err? ==> r.error == p.error)
    ensures KindOfId(U32At(buffer.Contents(), 0)) == ListKind ==>
      var p := WaveListChunk.Deserialize(buffer);
      (r.Ok? <==> p.Ok?) && (r.Ok? ==> r.value == List(p.value)) && (r.Err? ==> r.error == p.error)
    ensures KindOfId(U32At(buffer.Contents(), 0)) == UnknownKind ==>
      var p := WaveUnknownChunk.Deserialize(buffer);
      (r.Ok? <==> p.Ok?) && (r.Ok? ==> r.value == Unknown(p.value)) && (r.Err? ==> r.error == p.error)
  {
    var id := AsUint32Le(buffer.SliceN(0, 4).value).value;
    assert id == U32At(buffer.Contents(), 0);
    match KindOfId(id)
    case FormatKind =>
      var f :- WaveFormatChunk.Deserialize(buffer);
      Ok(Format(f))
    case FactKind =>
      var f :- WaveFactChunk.Deserialize(buffer);
      Ok(Fact(f))
    case _ =>
      DeserializeRawKind(KindOfId(id), buffer)
  }

  function SumTotalBytes(cs: seq<Chunk>): int {
    if cs == [] then 0 else ChunkTotalBytes(cs[0]) + SumTotalBytes(cs[1..])
  }

  /** The chunks of the scan loop in the order it meets them. The loop stops at the first error, so
      the sequence of chunks and the error are the same as the loop's. */
  function ScanChunks(buffer: ReadOnlySpan<byte>): (r: Result<seq<Chunk>>)
    requires buffer.Valid()
    ensures buffer.length == 0 ==> r == Ok([])
    ensures 0 < buffer.length < 8 ==> r == Err(BadMediaFormat)
    ensures r.Ok? ==> SumTotalBytes(r.value) == buffer.length
    ensures r.Ok? ==> forall i :: 0 <= i < |r.value| ==> ChunkValid(r.value[i]) && ChunkTotalBytes(r.value[i]) >= 8
    decreases buffer.length
  {
    if buffer.IsEmpty() then Ok([])
    else if buffer.length < 8 then Err(BadMediaFormat)
    else
      var chunk :- DeserializeChunk(buffer);
      var rest :- buffer.Slice(ChunkTotalBytes(chunk));
      var tail :- ScanChunks(rest);
      var cs := [chunk] + tail;
      assert cs[0] == chunk && cs[1..] == tail;
      assert forall i :: 1 <= i < |cs| ==> cs[i] == tail[i - 1];
      Ok(cs)
  }

  /** The local variables of the scan loop: one slot per known kind, and the unknown chunks so far. */
  datatype Slots = Slots(
    format: Option<FormatChunk>,
    data: Option<RawChunk>,
    fact: Option<FactChunk>,
    id3: Option<RawChunk>,
    list: Option<RawChunk>,
    others: seq<RawChunk>)

  const NoChunks := Slots(None, None, None, None, None, [])

  /** One loop iteration's assignment: a known chunk replaces its slot, an unknown one is appended. */
  function Record(s: Slots, c: Chunk): Slots {
    match c
    case Format(f) => s.(format := Some(f))
    case Data(d) => s.(data := Some(d))
    case Fact(f) => s.(fact := Some(f))
    case Id3(d) => s.(id3 := Some(d))
    case List(d) => s.(list := Some(d))
    case Unknown(d) => s.(others := s.others + [d])
  }

  /** The slots after the loop has processed `cs`. */
  function Collect(cs: seq<Chunk>): Slots
    decreases |cs|
  {
    if cs == [] then NoChunks else Record(Collect(cs[..|cs| - 1]), cs[|cs| - 1])
  }

  /** The chunk a known kind's slot holds, tagged again with its kind. */
  function Slot(s: Slots, k: ChunkKind): Option<Chunk> {
    match k
    case FormatKind => if s.format.Some? then Some(Format(s.format.value)) else None
    case DataKind => if s.data.Some? then Some(Data(s.data.value)) else None
    case FactKind => if s.fact.Some? then Some(Fact(s.fact.value)) else None
    case Id3Kind => if s.id3.Some? then Some(Id3(s.id3.value)) else None
    case ListKind => if s.list.Some? then Some(List(s.list.value)) else None
    case UnknownKind => None
  }

  /** A repeated known chunk overwrites the earlier one: a slot is filled exactly when a chunk of its
      kind occurs, and then holds the last such chunk. */
  lemma {:induction false} LastWins(cs: seq<Chunk>, k: ChunkKind)
    requires k != UnknownKind
    ensures Slot(Collect(cs), k).Some? <==> exists i :: 0 <= i < |cs| && Kind(cs[i]) == k
    ensures Slot(Collect(cs), k).Some? ==>
      exists i :: 0 <= i < |cs| && cs[i] == Slot(Collect(cs), k).value && Kind(cs[i]) == k &&
        forall j :: i < j < |cs| ==> Kind(cs[j]) != k
    decreases |cs|
  {
    if cs != [] {
      var n := |cs| - 1;
      var init := cs[..n];
      LastWins(init, k);
      RecordSlot(Collect(init), cs[n], k);
      if Kind(cs[n]) != k {
        if Slot(Collect(init), k).Some? {
          var i :| 0 <= i < n && init[i] == Slot(Collect(init), k).value && Kind(init[i]) == k &&
            forall j :: i < j < n ==> Kind(init[j]) != k;
          assert cs[i] == init[i];
          assert forall j :: i < j < |cs| ==> Kind(cs[j]) != k by {
            forall j | i < j < |cs| ensures Kind(cs[j]) != k {
              if j < n { assert cs[j] == init[j]; }
            }
          }
        } else {
          forall i | 0 <= i < |cs| ensures Kind(cs[i]) != k {
            if i < n { assert cs[i] == init[i]; }
          }
        }
      }
    }
  }

  /** Recording a chunk fills its own kind's slot with it and leaves every other slot alone. */
  lemma RecordSlot(s: Slots, c: Chunk, k: ChunkKind)
    requires k != UnknownKind
    ensures Slot(Record(s, c), k) == if Kind(c) == k then Some(c) else Slot(s, k)
  {
  }

  /** The unknown chunks of `cs`, in order. */
  function Unknowns(cs: seq<Chunk>): seq<RawChunk> {
    if cs == [] then [] else (if cs[0].Unknown? then [cs[0].unknown] else []) + Unknowns(cs[1..])
  }

  lemma {:induction false} UnknownsAppend(cs: seq<Chunk>, c: Chunk)
    ensures Unknowns(cs + [c]) == Unknowns(cs) + (if c.Unknown? then [c.unknown] else [])
    decreases |cs|
  {
    if cs == [] {
      assert cs + [c] == [c];
    } else {
      var d := cs + [c];
      assert d[0] == cs[0] && d[1..] == cs[1..] + [c];
      UnknownsAppend(cs[1..], c);
      assert Unknowns(d) == (if cs[0].Unknown? then [cs[0].unknown] else []) + Unknowns(d[1..]);
    }
  }

  /** Unknown chunks are appended in the order they are met, and no other chunk is kept among them. */
  lemma {:induction false} OthersInOrder(cs: seq<Chunk>)
    ensures Collect(cs).others == Unknowns(cs)
    decreases |cs|
  {
    if cs != [] {
      var n := |cs| - 1;
      OthersInOrder(cs[..n]);
      assert cs == cs[..n] + [cs[n]];
      UnknownsAppend(cs[..n], cs[n]);
    }
  }

  lemma {:induction false} CollectValid(cs: seq<Chunk>)
    requires forall i :: 0 <= i < |cs| ==> ChunkValid(cs[i])
    ensures SlotsValid(Collect(cs))
    decreases |cs|
  {
    if cs != [] {
      CollectValid(cs[..|cs| - 1]);
    }
  }

  predicate SlotsValid(s: Slots) {
    && (s.data.Some? ==> WaveDataChunk.Valid(s.data.value))
    && (s.id3.Some? ==> |s.id3.value.rawData| <= INT32_MAX)
    && (s.list.Some? ==> |s.list.value.rawData| <= INT32_MAX)
    && (forall i :: 0 <= i < |s.others| ==> |s.others[i].rawData| <= INT32_MAX)
  }

  /** A parsed file: the mandatory format and data chunks, the optional fact, id3 and LIST chunks, and
      the unknown chunks in file order. */
  datatype Container = Container(
    format: FormatChunk,
    data: RawChunk,
    fact: Option<FactChunk>,
    id3: Option<RawChunk>,
    list: Option<RawChunk>,
    others: seq<RawChunk>)

  predicate Valid(c: Container) {
    SlotsValid(Slots(Some(c.format), Some(c.data), c.fact, c.id3, c.list, c.others))
  }

  /** The outer header a file must have: "RIFF", a size that is exactly the rest of the buffer, and
      "WAVE". */
  predicate HeaderOk(c: seq<byte>) {
    |c| >= 12 && U32At(c, 0) == RIFF_CHUNK_ID && 8 + U32At(c, 4) == |c| && U32At(c, 8) == WAVE_FORM_ID
  }

  /** The chunk area after the 12-byte outer header, as the parser slices it. */
  function Body(buffer: ReadOnlySpan<byte>): (b: ReadOnlySpan<byte>)
    requires buffer.Valid() && buffer.length >= 12
    ensures b.Valid() && b.Contents() == buffer.Contents()[12..]
  {
    buffer.Slice(8).value.Slice(4).value
  }

  /** Checks the outer header and returns the chunk area after it. */
  function ReadHeader(buffer: ReadOnlySpan<byte>): (r: Result<ReadOnlySpan<byte>>)
    requires buffer.Valid()
    ensures buffer.length < 4 ==> r == Err(ArgumentOutOfRange)
    ensures buffer.length >= 4 && U32At(buffer.Contents(), 0) != RIFF_CHUNK_ID ==> r == Err(BadMediaFormat)
    ensures 4 <= buffer.length < 8 && U32At(buffer.Contents(), 0) == RIFF_CHUNK_ID ==> r == Err(ArgumentOutOfRange)
    ensures (buffer.length >= 8 && U32At(buffer.Contents(), 0) == RIFF_CHUNK_ID &&
             8 + DeclaredSize(buffer.Contents()) != buffer.length) ==>
      r == Err(if 8 + DeclaredSize(buffer.Contents()) > INT32_MAX then Overflow else BadMediaFormat)
    ensures (8 <= buffer.length < 12 && U32At(buffer.Contents(), 0) == RIFF_CHUNK_ID &&
             8 + DeclaredSize(buffer.Contents()) == buffer.length) ==> r == Err(BadMediaFormat)
    ensures (buffer.length >= 12 && U32At(buffer.Contents(), 0) == RIFF_CHUNK_ID &&
             8 + DeclaredSize(buffer.Contents()) == buffer.length && U32At(buffer.Contents(), 8) != WAVE_FORM_ID) ==>
      r == Err(BadImageFormat)
    ensures r.Ok? <==> HeaderOk(buffer.Contents())
    ensures r.Ok? ==> r.value == Body(buffer)
  {
    var idField :- buffer.SliceN(0, 4);
    if AsUint32Le(idField).value != RIFF_CHUNK_ID then Err(BadMediaFormat)
    else
      var sizeField :- buffer.SliceN(4, 4);
      var chunkSize :- CheckedInt32(AsUint32Le(sizeField).value);
      if chunkSize < 4 then Err(BadMediaFormat)
      else
        var end :- CheckedInt32(8 + chunkSize);
        if end != buffer.length then Err(BadMediaFormat)
        else
          var afterSize := buffer.Slice(8).value;
          var formField := afterSize.SliceN(0, 4).value;
          assert formField.Contents() == buffer.Contents()[8..12];
          if AsUint32Le(formField).value != WAVE_FORM_ID then Err(BadImageFormat)
          else Ok(afterSize.Slice(4).value)
  }

  /** The scan loop over the chunk area and the check that fmt and data were found (fmt first). */
  function DeserializeChunks(body: ReadOnlySpan<byte>): (r: Result<Container>)
    requires body.Valid()
    ensures ScanChunks(body).Err? ==> r == Err(ScanChunks(body).error)
    ensures r.Ok? <==>
      ScanChunks(body).Ok? && Collect(ScanChunks(body).value).format.Some? && Collect(ScanChunks(body).value).data.Some?
    ensures ScanChunks(body).Ok? && r.Err? ==> r.error == BadMediaFormat
    ensures r.Ok? ==> Valid(r.value)
    ensures r.Ok? ==>
      var s := Collect(ScanChunks(body).value);
      r.value == Container(s.format.value, s.data.value, s.fact, s.id3, s.list, s.others)
  {
    var chunks :- ScanChunks(body);
    var s := Collect(chunks);
    CollectValid(chunks);
    if s.format.None? then Err(BadMediaFormat)
    else if s.data.None? then Err(BadMediaFormat)
    else Ok(Container(s.format.value, s.data.value, s.fact, s.id3, s.list, s.others))
  }

  function Deserialize(buffer: ReadOnlySpan<byte>): (r: Result<Container>)
    requires buffer.Valid()
    ensures !HeaderOk(buffer.Contents()) ==> r == Err(ReadHeader(buffer).error)
    ensures HeaderOk(buffer.Contents()) ==> r == DeserializeChunks(Body(buffer))
  {
    var body :- ReadHeader(buffer);
    DeserializeChunks(body)
  }

  /** The `SamplesPerSeconds` property: the format's rate through a checked cast to `int`, so a rate
      above INT32_MAX is an overflow rather than a negative number. */
  function SamplesPerSeconds(c: Container): (r: Result<int32>)
    ensures r.Ok? <==> c.format.samplesPerSeconds <= INT32_MAX
    ensures r.Ok? ==> r.value == c.format.samplesPerSeconds
    ensures r.Err? ==> r.error == Overflow
  {
    CheckedInt32(c.format.samplesPerSeconds)
  }

  /** For a format read from the payload `p`, the rate converts exactly when the top bit of its
      last byte (payload byte 7) is clear. */
  lemma RateConvertsExactlyWhenHighBitClear(c: Container, p: seq<byte>)
    requires |p| >= 16 && WaveFormatChunk.HasFields(c.format, p)
    ensures SamplesPerSeconds(c).Ok? <==> p[7] < 0x80
  {
    LeValue4(p[4..8]);
    assert p[4..8][3] == p[7];
  }

  /** The frame count: the fact chunk's count reinterpreted as a signed 32-bit value when there is a
      fact chunk (it is not compared with the data), otherwise the data length over the block size. */
  function TotalFrames(c: Container): (r: Result<int32>)
    requires Valid(c)
    ensures c.fact.Some? ==> r.Ok? && (r.value - c.fact.value.sampleLength) % 0x1_0000_0000 == 0
    ensures c.fact.Some? && c.fact.value.sampleLength <= INT32_MAX ==> r == Ok(c.fact.value.sampleLength)
    ensures c.fact.None? ==>
      (r.Ok? <==> c.format.blockSize != 0 && |c.data.rawData| % c.format.blockSize == 0) &&
      (r.Ok? ==> r.value * c.format.blockSize == |c.data.rawData|)
    ensures c.fact.None? && c.format.blockSize == 0 ==> r == Err(DivideByZero)
    ensures c.fact.None? && c.format.blockSize != 0 && r.Err? ==> r.error == BadImageFormat
  {
    if c.fact.Some? then Ok(Reinterpret(c.fact.value.sampleLength, 0x1_0000_0000))
    else WaveDataChunk.GetSampleLength(c.data, c.format.blockSize)
  }

  /** Without a fact chunk, the frames `TotalFrames` counts cover the sample data exactly. */
  lemma TotalFramesCoverData(c: Container)
    requires Valid(c) && c.fact.None? && TotalFrames(c).Ok?
    ensures GetSampleDataRegion(c, 0, TotalFrames(c).value).Ok?
    ensures GetSampleDataRegion(c, 0, TotalFrames(c).value).value.Contents() == c.data.rawData
  {
    var n := TotalFrames(c).value;
    WaveDataChunk.Commute(n, c.format.blockSize);
    var start, count := c.format.blockSize * 0, c.format.blockSize * n;
    assert start == 0 && count == |c.data.rawData|;
    assert WrapInt32(start) == 0 && WrapInt32(count) == count;
    assert c.data.rawData[0..count] == c.data.rawData;
  }

  function GetSampleDataRegion(c: Container, frame: int32, frameLength: int32): (r: Result<ReadOnlySpan<byte>>)
    requires Valid(c)
    ensures var start := WrapInt32(c.format.blockSize * frame);
      var count := WrapInt32(c.format.blockSize * frameLength);
      (r.Ok? <==> 0 <= start && 0 <= count && start + count <= |c.data.rawData|) &&
      (r.Ok? ==> r.value.Valid() && r.value.Contents() == c.data.rawData[start..start + count]) &&
      (r.Err? ==> r.error == (if 0 <= start <= |c.data.rawData| && 0 <= count && start + count > INT32_MAX
                              then Overflow else ArgumentOutOfRange))
  {
    WaveDataChunk.GetSampleDataRegion(c.data, c.format.blockSize, frame, frameLength)
  }

  function GetSampleDataAsU8(c: Container, channel: int32, frame: int32): (r: Result<byte>)
    requires Valid(c)
    ensures var i := WrapInt32(frame * c.format.blockSize + channel);
      (r.Ok? <==> 0 <= i < |c.data.rawData|) && (r.Ok? ==> r.value == c.data.rawData[i])
    ensures r.Err? ==> r.error == IndexOutOfRange
  {
    WaveDataChunk.GetSampleDataAsU8(c.data, c.format.blockSize, channel, frame)
  }

  function GetSampleDataAsS16LE(c: Container, channel: int32, frame: int32): (r: Result<int16>)
    requires Valid(c)
    ensures var o := WrapInt32(frame * c.format.blockSize + channel * 2);
      (r.Ok? <==> 0 <= o && o + 2 <= |c.data.rawData|) &&
      (r.Ok? ==> r == AsInt16Le(ReadOnlySpan.FromArray(c.data.rawData[o..o + 2])))
    ensures r.Err? ==> r.error == ArgumentOutOfRange
  {
    WaveDataChunk.GetSampleDataAsS16LE(c.data, c.format.blockSize, channel, frame)
  }

  function GetSampleDataAsS24LE(c: Container, channel: int32, frame: int32): (r: Result<int32>)
    requires Valid(c)
    ensures var o := WrapInt32(frame * c.format.blockSize + channel * 3);
      (r.Ok? <==> 0 <= o && o + 3 <= |c.data.rawData|) &&
      (r.Ok? ==> r == AsInt24Le(ReadOnlySpan.FromArray(c.data.rawData[o..o + 3])))
    ensures r.Err? ==> r.error == ArgumentOutOfRange
  {
    WaveDataChunk.GetSampleDataAsS24LE(c.data, c.format.blockSize, channel, frame)
  }

  function GetSampleDataAsS32LE(c: Container, channel: int32, frame: int32): (r: Result<int32>)
    requires Valid(c)
    ensures var o := WrapInt32(frame * c.format.blockSize + channel * 4);
      (r.Ok? <==> 0 <= o && o + 4 <= |c.data.rawData|) &&
      (r.Ok? ==> r == AsInt32Le(ReadOnlySpan.FromArray(c.data.rawData[o..o + 4])))
    ensures r.Err? ==> r.error == ArgumentOutOfRange
  {
    WaveDataChunk.GetSampleDataAsS32LE(c.data, c.format.blockSize, channel, frame)
  }

  function GetSampleDataAsS64LE(c: Container, channel: int32, frame: int32): (r: Result<int64>)
    requires Valid(c)
    ensures var o := WrapInt32(frame * c.format.blockSize + channel * 8);
      (r.Ok? <==> 0 <= o && o + 8 <= |c.data.rawData|) &&
      (r.Ok? ==> r == AsInt64Le(ReadOnlySpan.FromArray(c.data.rawData[o..o + 8])))
    ensures r.Err? ==> r.error == ArgumentOutOfRange
  {
    WaveDataChunk.GetSampleDataAsS64LE(c.data, c.format.blockSize, channel, frame)
  }

  function FactSegments(fact: Option<FactChunk>): seq<seq<byte>> {
    if fact.Some? then WaveFactChunk.Serialize(fact.value) else []
  }

  function Id3Segments(id3: Option<RawChunk>): seq<seq<byte>>
    requires id3.Some? ==> |id3.value.rawData| <= INT32_MAX
  {
    if id3.Some? then WaveId3TagChunk.Serialize(id3.value.rawData) else []
  }

  function ListSegments(list: Option<RawChunk>): seq<seq<byte>>
    requires list.Some? ==> |list.value.rawData| <= INT32_MAX
  {
    if list.Some? then WaveListChunk.Serialize(list.value.rawData) else []
  }

  function OthersSegments(others: seq<RawChunk>): seq<seq<byte>>
    requires forall i :: 0 <= i < |others| ==> |others[i].rawData| <= INT32_MAX
  {
    if others == [] then [] else WaveUnknownChunk.Serialize(others[0]) + OthersSegments(others[1..])
  }

  /** The segments of the file after the outer header, in emission order: fmt, fact, id3, LIST, the
      unknown chunks in their read order, then the given data chunk segments. Serialising the format
      chunk is the only step that can fail. */
  function Segments(c: Container, dataSegments: seq<seq<byte>>): (r: Result<seq<seq<byte>>>)
    requires Valid(c)
    ensures r.Ok? <==> WaveFormatChunk.Serialize(c.format).Ok?
    ensures r.Err? ==> r.error == WaveFormatChunk.Serialize(c.format).error
    ensures r.Ok? ==> (Concat(r.value) ==
      Concat(WaveFormatChunk.Serialize(c.format).value) + Concat(FactSegments(c.fact)) + Concat(Id3Segments(c.id3))
      + Concat(ListSegments(c.list)) + Concat(OthersSegments(c.others)) + Concat(dataSegments))
  {
    var fmt :- WaveFormatChunk.Serialize(c.format);
    var a := fmt + FactSegments(c.fact);
    var b := a + Id3Segments(c.id3);
    var d := b + ListSegments(c.list);
    var e := d + OthersSegments(c.others);
    ConcatAppend(fmt, FactSegments(c.fact));
    ConcatAppend(a, Id3Segments(c.id3));
    ConcatAppend(b, ListSegments(c.list));
    ConcatAppend(d, OthersSegments(c.others));
    ConcatAppend(e, dataSegments);
    Ok(e + dataSegments)
  }

  /** The outer header and the segments. The size written is 4 + the whole output length, where the
      RIFF definition wants the output length - 8; its `checked` conversion overflows past INT32_MAX. */
  function WriteContainer(segments: seq<seq<byte>>): (r: Result<seq<byte>>)
    ensures r.Ok? <==> 16 + |Concat(segments)| <= INT32_MAX
    ensures r.Err? ==> r.error == Overflow
    ensures r.Ok? ==> |r.value| == 12 + |Concat(segments)|
    ensures r.Ok? ==> U32At(r.value, 0) == RIFF_CHUNK_ID && U32At(r.value, 8) == WAVE_FORM_ID
    ensures r.Ok? ==> U32At(r.value, 4) == |r.value| + 4
    ensures r.Ok? ==> r.value[12..] == Concat(segments)
  {
    var total := |Concat(segments)|;
    if 16 + total > INT32_MAX then Err(Overflow)
    else
      var bytes := LeBytes(RIFF_CHUNK_ID, 4) + LeBytes(16 + total, 4) + LeBytes(WAVE_FORM_ID, 4) + Concat(segments);
      assert bytes[0..4] == LeBytes(RIFF_CHUNK_ID, 4);
      assert bytes[4..8] == LeBytes(16 + total, 4);
      assert bytes[8..12] == LeBytes(WAVE_FORM_ID, 4);
      LeValueOfLeBytes(RIFF_CHUNK_ID, 4);
      LeValueOfLeBytes(16 + total, 4);
      LeValueOfLeBytes(WAVE_FORM_ID, 4);
      Ok(bytes)
  }

  /** The private `Serialize(segments)`. */
  function SerializeWithData(c: Container, dataSegments: seq<seq<byte>>): (r: Result<seq<byte>>)
    requires Valid(c)
    ensures r.Ok? <==> Segments(c, dataSegments).Ok? && 16 + |Concat(Segments(c, dataSegments).value)| <= INT32_MAX
    ensures r.Err? && Segments(c, dataSegments).Ok? ==> r.error == Overflow
    ensures r.Ok? ==> |r.value| == 12 + |Concat(Segments(c, dataSegments).value)|
    ensures r.Ok? ==> r.value[12..] == Concat(Segments(c, dataSegments).value)
    ensures r.Ok? ==> U32At(r.value, 4) == |r.value| + 4
    ensures r.Ok? ==> U32At(r.value, 0) == RIFF_CHUNK_ID && U32At(r.value, 8) == WAVE_FORM_ID
  {
    var segments :- Segments(c, dataSegments);
    WriteContainer(segments)
  }

  function Serialize(c: Container): (r: Result<seq<byte>>)
    requires Valid(c)
    ensures var segments := Segments(c, WaveDataChunk.Serialize(c.data));
      r.Ok? <==> segments.Ok? && 16 + |Concat(segments.value)| <= INT32_MAX
    ensures r.Ok? ==> |r.value| >= 12 && U32At(r.value, 4) == |r.value| + 4
    ensures r.Ok? ==> r.value[12..] == Concat(Segments(c, WaveDataChunk.Serialize(c.data)).value)
    ensures r.Ok? ==> U32At(r.value, 0) == RIFF_CHUNK_ID && U32At(r.value, 8) == WAVE_FORM_ID
  {
    SerializeWithData(c, WaveDataChunk.Serialize(c.data))
  }

  /** `Serialize(from, count)`: the frame range is resolved first, so a bad range is reported before
      anything else. */
  function SerializeRange(c: Container, from: int32, count: int32): (r: Result<seq<byte>>)
    requires Valid(c)
    ensures GetSampleDataRegion(c, from, count).Err? ==> r == Err(GetSampleDataRegion(c, from, count).error)
    ensures r.Ok? ==> |r.value| >= 12 && U32At(r.value, 4) == |r.value| + 4
    ensures r.Ok? ==> U32At(r.value, 0) == RIFF_CHUNK_ID && U32At(r.value, 8) == WAVE_FORM_ID
  {
    var dataSegments :- WaveDataChunk.SerializeRange(c.data, c.format.blockSize, from, count);
    SerializeWithData(c, dataSegments)
  }

  /** A range whose end passes INT32_MAX: one frame in, INT32_MAX frames long, over single-byte frames.
      The unchecked bound check sees a negative end and lets it through; the span constructor's checked
      sum then overflows, so the call fails with Overflow rather than ArgumentOutOfRange. */
  lemma WrappingRangeOverflows(c: Container)
    requires Valid(c) && c.format.blockSize == 1 && |c.data.rawData| >= 1
    ensures SerializeRange(c, 1, INT32_MAX) == Err(Overflow)
  {
    WrapNonNegativeSum(1, INT32_MAX);
  }

  /** Any range that starts inside the data and runs past INT32_MAX fails with Overflow, whatever the
      data length. */
  lemma LongRangeOverflows(c: Container, from: int32, count: int32)
    requires Valid(c) && c.format.blockSize == 1
    requires 0 <= from <= |c.data.rawData| && 0 <= count && from + count > INT32_MAX
    ensures SerializeRange(c, from, count) == Err(Overflow)
  {
    assert |c.data.rawData| <= INT32_MAX;
  }

  /** The parser rejects every file the serialiser writes: the size field claims 12 bytes more than
      follow it. */
  lemma OwnOutputRejected(c: Container, dataSegments: seq<seq<byte>>)
    requires Valid(c) && SerializeWithData(c, dataSegments).Ok?
    ensures var bytes := SerializeWithData(c, dataSegments).value;
      Deserialize(ReadOnlySpan.FromArray(bytes)) == Err(if |bytes| + 12 > INT32_MAX then Overflow else BadMediaFormat)
  {
    var bytes := SerializeWithData(c, dataSegments).value;
    assert U32At(bytes, 0) == RIFF_CHUNK_ID;
    assert DeclaredSize(bytes) == |bytes| + 4;
  }

  /** `Serialize(from, count)` writes what `Serialize()` writes for the same file with only the data
      payload replaced by the selected frames; every other chunk, the fact chunk included, is unchanged. */
  lemma RangeReplacesOnlyData(c: Container, from: int32, count: int32)
    requires Valid(c) && GetSampleDataRegion(c, from, count).Ok?
    ensures var region := GetSampleDataRegion(c, from, count).value.Contents();
      Valid(c.(data := c.data.(rawData := region))) &&
      SerializeRange(c, from, count) == Serialize(c.(data := c.data.(rawData := region)))
  {
    var region := GetSampleDataRegion(c, from, count).value.Contents();
    var c' := c.(data := c.data.(rawData := region));
    assert Segments(c', WaveDataChunk.Serialize(c'.data)) == Segments(c, WaveDataChunk.Serialize(c'.data));
  }

  /** A last chunk of odd size without its pad byte: the chunk parses, but advancing past its padded
      size leaves the buffer, so the scan fails with an argument error rather than a format error
      (or overflows computing the padded size when the buffer is as long as an array can be). */
  lemma OddFinalChunkWithoutPad(buffer: ReadOnlySpan<byte>)
    requires buffer.Valid() && buffer.length >= 8
    requires KindOfId(U32At(buffer.Contents(), 0)) !in {FormatKind, FactKind}
    requires 8 + DeclaredSize(buffer.Contents()) == buffer.length && DeclaredSize(buffer.Contents()) % 2 == 1
    ensures ScanChunks(buffer) == Err(if buffer.length == INT32_MAX then Overflow else ArgumentOutOfRange)
  {
    assert !buffer.IsEmpty();
    if buffer.length < INT32_MAX {
      var chunk := DeserializeChunk(buffer);
      assert chunk.Ok? && ChunkTotalBytes(chunk.value) == buffer.length + 1;
      assert buffer.Slice(ChunkTotalBytes(chunk.value)).Err?;
    }
  }

  /** The array after `segment` has been copied to the front of the window `buffer` and the window
      has moved past it. */
  function CopyAndAdvance(buffer: Span<byte>, segment: seq<byte>): (next: Span<byte>)
    requires buffer.Valid() && |segment| <= buffer.length
    ensures next.Valid() && |next.source| == |buffer.source|
    ensures next.offset == buffer.offset + |segment| && next.length == buffer.length - |segment|
    ensures next.source[buffer.offset..next.offset] == segment
    ensures SameOutside(buffer.source, next.source, buffer.offset, next.offset)
  {
    var copied := ReadOnlySpan.FromArray(segment).CopyTo(buffer).value;
    var next := copied.Slice(|segment|).value;
    assert next.source[buffer.offset..next.offset] == copied.Contents()[..|segment|];
    next
  }

  lemma PrefixGrows(before: seq<byte>, after: seq<byte>, base: int, mid: int, end: int, prefix: seq<byte>, segment: seq<byte>)
    requires 0 <= base <= mid <= end <= |before| && |after| == |before|
    requires before[base..mid] == prefix && after[mid..end] == segment
    requires SameOutside(before, after, mid, end)
    ensures after[base..end] == prefix + segment
  {
    assert after[base..mid] == before[base..mid];
    assert after[base..end] == after[base..mid] + after[mid..end];
  }

  lemma SameOutsideJoin(a: seq<byte>, b: seq<byte>, c: seq<byte>, lo: int, mid: int, hi: int)
    requires lo <= mid <= hi
    requires SameOutside(a, b, lo, mid) && SameOutside(b, c, mid, hi)
    ensures SameOutside(a, c, lo, hi)
  {
  }

  lemma ConcatStep(segments: seq<seq<byte>>, i: nat)
    requires i < |segments|
    ensures Concat(segments[..i + 1]) == Concat(segments[..i]) + segments[i]
    ensures Concat(segments[i..]) == segments[i] + Concat(segments[i + 1..])
  {
    ConcatAppend(segments[..i], [segments[i]]);
    assert segments[..i + 1] == segments[..i] + [segments[i]];
    assert Concat([segments[i]]) == segments[i];
    assert segments[i..][1..] == segments[i + 1..];
  }

  /** The copy loop of the private `Serialize`: each segment is copied into the remaining window,
      which then moves past it. The segments end up side by side from the window's start, and nothing
      else in the array changes. */
  method CopySegments(container: Span<byte>, segments: seq<seq<byte>>) returns (written: seq<byte>)
    requires container.Valid() && |Concat(segments)| <= container.length
    ensures |written| == |container.source|
    ensures written[container.offset..container.offset + |Concat(segments)|] == Concat(segments)
    ensures SameOutside(container.source, written, container.offset, container.offset + |Concat(segments)|)
    ensures (WriteContainer(segments).Ok? && container.offset == 12 && |container.source| == 12 + |Concat(segments)| &&
             container.source[..12] == WriteContainer(segments).value[..12]) ==>
      written == WriteContainer(segments).value
  {
    var buffer := container;
    var i := 0;
    while i < |segments|
      invariant 0 <= i <= |segments|
      invariant buffer.Valid() && |buffer.source| == |container.source|
      invariant buffer.offset == container.offset + |Concat(segments[..i])|
      invariant buffer.offset + buffer.length == container.offset + container.length
      invariant |Concat(segments[i..])| <= buffer.length
      invariant buffer.source[container.offset..buffer.offset] == Concat(segments[..i])
      invariant SameOutside(container.source, buffer.source, container.offset, buffer.offset)
    {
      ConcatStep(segments, i);
      var next := CopyAndAdvance(buffer, segments[i]);
      PrefixGrows(buffer.source, next.source, container.offset, buffer.offset, next.offset,
                  Concat(segments[..i]), segments[i]);
      SameOutsideJoin(container.source, buffer.source, next.source, container.offset, buffer.offset, next.offset);
      buffer := next;
      i := i + 1;
    }
    assert segments[..i] == segments;
    written := buffer.source;
    if WriteContainer(segments).Ok? && container.offset == 12 && |container.source| == 12 + |Concat(segments)| &&
       container.source[..12] == WriteContainer(segments).value[..12] {
      var file := WriteContainer(segments).value;
      assert written[..12] == file[..12];
      assert written[12..] == file[12..];
      assert written == written[..12] + written[12..];
      assert file == file[..12] + file[12..];
    }
  }

  /** A data chunk laid out as the RIFF definition wants it: id, size, samples, pad byte. */
  function RiffDataChunk(raw: seq<byte>): (b: seq<byte>)
    requires |raw| <= INT32_MAX
    ensures |b| == 8 + |raw| + |raw| % 2
    ensures U32At(b, 0) == DATA_CHUNK_ID && DeclaredSize(b) == |raw| && b[8..8 + |raw|] == raw
  {
    LeValueOfLeBytes(DATA_CHUNK_ID, 4);
    LeValueOfLeBytes(|raw|, 4);
    var b := LeBytes(DATA_CHUNK_ID, 4) + LeBytes(|raw|, 4) + raw + (if |raw| % 2 == 1 then [0] else []);
    assert b[0..4] == LeBytes(DATA_CHUNK_ID, 4) && b[4..8] == LeBytes(|raw|, 4);
    b
  }

  /** A minimal file with the outer size the RIFF definition asks for: a PCM format chunk and a data
      chunk. */
  function RiffFile(f: FormatChunk, raw: seq<byte>): (b: seq<byte>)
    requires |raw| + 64 <= INT32_MAX
    ensures |b| == 12 + 24 + 8 + |raw| + |raw| % 2
    ensures HeaderOk(b)
    ensures b[12..] == WaveFormatChunk.PcmHeader(f) + RiffDataChunk(raw)
  {
    var body := WaveFormatChunk.PcmHeader(f) + RiffDataChunk(raw);
    var h := RiffHeader(4 + |body|);
    U32AtPrefix(h, body, 0);
    U32AtPrefix(h, body, 4);
    U32AtPrefix(h, body, 8);
    assert (h + body)[12..] == body;
    h + body
  }

  /** The 12-byte outer header: "RIFF", `size`, "WAVE". */
  function RiffHeader(size: nat): (h: seq<byte>)
    requires size < 0x1_0000_0000
    ensures |h| == 12 && U32At(h, 0) == RIFF_CHUNK_ID && U32At(h, 4) == size && U32At(h, 8) == WAVE_FORM_ID
  {
    LeValueOfLeBytes(RIFF_CHUNK_ID, 4);
    LeValueOfLeBytes(size, 4);
    LeValueOfLeBytes(WAVE_FORM_ID, 4);
    var h := LeBytes(RIFF_CHUNK_ID, 4) + LeBytes(size, 4) + LeBytes(WAVE_FORM_ID, 4);
    assert h[0..4] == LeBytes(RIFF_CHUNK_ID, 4) && h[4..8] == LeBytes(size, 4);
    assert h[8..12] == LeBytes(WAVE_FORM_ID, 4);
    h
  }

  lemma U32AtPrefix(a: seq<byte>, b: seq<byte>, i: nat)
    requires i + 4 <= |a|
    ensures U32At(a + b, i) == U32At(a, i)
  {
    assert (a + b)[i..i + 4] == a[i..i + 4];
  }

  lemma ScanEmpty(buffer: ReadOnlySpan<byte>)
    requires buffer.Valid() && buffer.length == 0
    ensures ScanChunks(buffer) == Ok([])
  {
  }

  /** One iteration of the scan: a chunk that parses and fits is followed by the scan of the rest. */
  lemma ScanPrepend(buffer: ReadOnlySpan<byte>, chunk: Chunk, tail: seq<Chunk>)
    requires buffer.Valid() && buffer.length >= 8
    requires DeserializeChunk(buffer) == Ok(chunk) && ChunkTotalBytes(chunk) <= buffer.length
    requires ScanChunks(buffer.Slice(ChunkTotalBytes(chunk)).value) == Ok(tail)
    ensures ScanChunks(buffer) == Ok([chunk] + tail)
  {
    assert !buffer.IsEmpty();
  }

  lemma DataChunkParses(buffer: ReadOnlySpan<byte>, raw: seq<byte>)
    requires buffer.Valid() && |raw| + 64 <= INT32_MAX && buffer.Contents() == RiffDataChunk(raw)
    ensures DeserializeChunk(buffer) == Ok(Data(RawChunk(DATA_CHUNK_ID, 8 + |raw| + |raw| % 2, raw)))
  {
    var c := buffer.Contents();
    assert c[..4] == c[0..4];
    assert LeValue(buffer.SliceN(0, 4).value.Contents()) == DATA_CHUNK_ID;
    var d := WaveDataChunk.Deserialize(buffer);
    assert d.Ok? && d.value.rawData == raw;
  }

  /** The scan over a well-formed data chunk alone finds just that chunk. */
  lemma ScanDataChunk(buffer: ReadOnlySpan<byte>, raw: seq<byte>)
    requires buffer.Valid() && |raw| + 64 <= INT32_MAX && buffer.Contents() == RiffDataChunk(raw)
    ensures ScanChunks(buffer) == Ok([Data(RawChunk(DATA_CHUNK_ID, 8 + |raw| + |raw| % 2, raw))])
  {
    var chunk := Data(RawChunk(DATA_CHUNK_ID, 8 + |raw| + |raw| % 2, raw));
    DataChunkParses(buffer, raw);
    ScanEmpty(buffer.Slice(ChunkTotalBytes(chunk)).value);
    ScanPrepend(buffer, chunk, []);
    assert [chunk] + [] == [chunk];
  }

  /** The PCM format chunk is parsed by its 16 field bytes alone, whatever follows it. */
  lemma PcmChunkFirst(buffer: ReadOnlySpan<byte>, f: FormatChunk, tail: seq<byte>)
    requires f.formatType == WaveFormatExtendedInfo.WAVE_FORMAT_PCM
    requires buffer.Valid() && buffer.Contents() == WaveFormatChunk.PcmHeader(f) + tail
    ensures DeserializeChunk(buffer) == Ok(Format(f.(totalBytes := 24, extendedInfo := None)))
  {
    var h := WaveFormatChunk.PcmHeader(f);
    var c := buffer.Contents();
    assert c[0..4] == h[..4];
    assert LeValue(buffer.SliceN(0, 4).value.Contents()) == FMT_CHUNK_ID;
    WaveFormatChunk.PcmPrefix(buffer, f, tail);
  }

  lemma CollectFormatData(f: FormatChunk, d: RawChunk)
    ensures Collect([Format(f), Data(d)]) == Slots(Some(f), Some(d), None, None, None, [])
  {
    var cs := [Format(f), Data(d)];
    assert cs[..1] == [Format(f)];
    assert [Format(f)][..0] == [];
    assert Collect([Format(f)]) == NoChunks.(format := Some(f));
  }

  lemma ScanRiffBody(body: ReadOnlySpan<byte>, f: FormatChunk, raw: seq<byte>)
    requires f.formatType == WaveFormatExtendedInfo.WAVE_FORMAT_PCM && |raw| + 64 <= INT32_MAX
    requires body.Valid() && body.Contents() == WaveFormatChunk.PcmHeader(f) + RiffDataChunk(raw)
    ensures ScanChunks(body) == Ok([Format(f.(totalBytes := 24, extendedInfo := None)),
                                   Data(RawChunk(DATA_CHUNK_ID, 8 + |raw| + |raw| % 2, raw))])
  {
    var d := RawChunk(DATA_CHUNK_ID, 8 + |raw| + |raw| % 2, raw);
    var rest := body.Slice(24).value;
    assert rest.Contents() == RiffDataChunk(raw);
    ScanDataChunk(rest, raw);
    ScanAfterPcm(body, f, RiffDataChunk(raw), [Data(d)]);
    var f' := f.(totalBytes := 24, extendedInfo := None);
    assert [Format(f')] + [Data(d)] == [Format(f'), Data(d)];
  }

  /** A PCM format chunk at the front of the chunk area is the first chunk the scan finds. */
  lemma ScanAfterPcm(body: ReadOnlySpan<byte>, f: FormatChunk, tail: seq<byte>, chunks: seq<Chunk>)
    requires f.formatType == WaveFormatExtendedInfo.WAVE_FORMAT_PCM
    requires body.Valid() && body.Contents() == WaveFormatChunk.PcmHeader(f) + tail
    requires ScanChunks(body.Slice(24).value) == Ok(chunks)
    ensures ScanChunks(body) == Ok([Format(f.(totalBytes := 24, extendedInfo := None))] + chunks)
  {
    PcmChunkFirst(body, f, tail);
    ScanPrepend(body, Format(f.(totalBytes := 24, extendedInfo := None)), chunks);
  }

  /** A file laid out as the RIFF definition wants it is accepted, with both chunks intact: the parser
      and the definition agree; only the serialiser departs from it. */
  lemma RiffFileParses(f: FormatChunk, raw: seq<byte>)
    requires f.formatType == WaveFormatExtendedInfo.WAVE_FORMAT_PCM && |raw| + 64 <= INT32_MAX
    ensures Deserialize(ReadOnlySpan.FromArray(RiffFile(f, raw)))
      == Ok(Container(f.(totalBytes := 24, extendedInfo := None),
                      RawChunk(DATA_CHUNK_ID, 8 + |raw| + |raw| % 2, raw), None, None, None, []))
  {
    var buffer := ReadOnlySpan.FromArray(RiffFile(f, raw));
    var f' := f.(totalBytes := 24, extendedInfo := None);
    var d := RawChunk(DATA_CHUNK_ID, 8 + |raw| + |raw| % 2, raw);
    ScanRiffBody(Body(buffer), f, raw);
    CollectFormatData(f', d);
  }
}

=== FILE: wave_format_chunk.dfy ===
/** The "fmt " chunk: the stream's encoding parameters, with an optional WAVE_FORMAT_EXTENSIBLE
    extension, and the derived sample type, channel layout and valid bit depth. */
module WaveFormatChunk {
  import opened Errors
  import opened Ints
  import opened Spans
  import opened ByteOrder
  import opened ByteDataExtensions
  import opened ChunkFraming
  import opened WaveFormatExtendedInfo
  import WaveFormatExtensible

  /** `ChannelLayout.AUDIO_SPEAKER_MONO` and `AUDIO_SPEAKER_STEREO`; the enum's values are defined
      outside this model, so the constants are left abstract. */
  const AUDIO_SPEAKER_MONO: uint32
  const AUDIO_SPEAKER_STEREO: uint32

  /** `WaveSampleDataType`. */
  datatype WaveSampleDataType =
    | Unknown
    | Unsigned8bit
    | LittleEndianSigned16bit
    | LittleEndianSigned24bit
    | LittleEndianSigned32bit
    | LittleEndianSigned64bit
    | LittleEndian32bitFloat
    | LittleEndian64bitFloat

  /** The width in bits of one sample of a known type. */
  function SampleBits(t: WaveSampleDataType): nat {
    match t
    case Unknown => 0
    case Unsigned8bit => 8
    case LittleEndianSigned16bit => 16
    case LittleEndianSigned24bit => 24
    case LittleEndianSigned32bit => 32
    case LittleEndianSigned64bit => 64
    case LittleEndian32bitFloat => 32
    case LittleEndian64bitFloat => 64
  }

  predicate IsFloat(t: WaveSampleDataType) {
    t == LittleEndian32bitFloat || t == LittleEndian64bitFloat
  }

  datatype WaveFormatChunk = WaveFormatChunk(
    totalBytes: int32,
    formatType: uint16,
    channels: uint16,
    samplesPerSeconds: uint32,
    averageBytesPerSeconds: uint32,
    blockSize: uint16,
    bitsPerSample: uint16,
    extendedInfo: Option<ExtendedInfo>)

  /** The 16 bytes from wFormatTag to wBitsPerSample, as `Serialize` writes them. */
  function FieldBytes(f: WaveFormatChunk): (s: seq<byte>)
    ensures |s| == 16
  {
    LeBytes(f.formatType, 2) + LeBytes(f.channels, 2) + LeBytes(f.samplesPerSeconds, 4)
    + LeBytes(f.averageBytesPerSeconds, 4) + LeBytes(f.blockSize, 2) + LeBytes(f.bitsPerSample, 2)
  }

  /** The basic fields read from the first 16 payload bytes `p`. */
  predicate HasFields(f: WaveFormatChunk, p: seq<byte>)
    requires |p| >= 16
  {
    f.formatType == U16At(p, 0) && f.channels == U16At(p, 2) &&
    f.samplesPerSeconds == U32At(p, 4) && f.averageBytesPerSeconds == U32At(p, 8) &&
    f.blockSize == U16At(p, 12) && f.bitsPerSample == U16At(p, 14)
  }

  /** The header segment of a PCM chunk: id, size 16, the fields. */
  function PcmHeader(f: WaveFormatChunk): (h: seq<byte>)
    ensures |h| == 24 && LeValue(h[..4]) == FMT_CHUNK_ID && LeValue(h[4..8]) == 16
    ensures h[8..24] == FieldBytes(f)
  {
    LeValueOfLeBytes(FMT_CHUNK_ID, 4);
    LeValueOfLeBytes(16, 4);
    var h := LeBytes(FMT_CHUNK_ID, 4) + LeBytes(16, 4) + FieldBytes(f);
    assert h[..4] == LeBytes(FMT_CHUNK_ID, 4) && h[4..8] == LeBytes(16, 4);
    h
  }

  /** The header segment of an extensible chunk with `n` extension bytes: id, size 18 + n, the
      fields, cbSize n. */
  function ExtensibleHeader(f: WaveFormatChunk, n: nat): (h: seq<byte>)
    requires 18 + n <= 0xFFFF
    ensures |h| == 26 && LeValue(h[..4]) == FMT_CHUNK_ID && LeValue(h[4..8]) == 18 + n
    ensures h[8..24] == FieldBytes(f) && LeValue(h[24..26]) == n
  {
    LeValueOfLeBytes(FMT_CHUNK_ID, 4);
    LeValueOfLeBytes(18 + n, 4);
    LeValueOfLeBytes(n, 2);
    var h := LeBytes(FMT_CHUNK_ID, 4) + LeBytes(18 + n, 4) + FieldBytes(f) + LeBytes(n, 2);
    assert h[..4] == LeBytes(FMT_CHUNK_ID, 4) && h[4..8] == LeBytes(18 + n, 4);
    assert h[8..24] == FieldBytes(f) && h[24..26] == LeBytes(n, 2);
    h
  }

  /** A "fmt " chunk image whose declared size fits the buffer. */
  predicate Framed(c: seq<byte>) {
    |c| >= 8 && 8 + DeclaredSize(c) <= |c|
  }

  /** Parses the payload `p` of a "fmt " chunk whose framing has been checked: at least 16 bytes of
      basic fields, a PCM or EXTENSIBLE tag (PCM with exactly 16 bytes), and either nothing after
      them or a cbSize that accounts for every remaining byte. */
  function DeserializePayload(p: seq<byte>): (r: Result<WaveFormatChunk>)
    requires |p| + 8 <= INT32_MAX
    ensures |p| < 16 ==> r == Err(BadImageFormat)
    ensures |p| >= 16 && U16At(p, 0) != WAVE_FORMAT_PCM && U16At(p, 0) != WAVE_FORMAT_EXTENSIBLE ==>
      r == Err(BadMediaFormat)
    ensures |p| > 16 && U16At(p, 0) == WAVE_FORMAT_PCM ==> r == Err(BadMediaFormat)
    ensures |p| > 16 && U16At(p, 0) == WAVE_FORMAT_EXTENSIBLE && (|p| == 17 || 18 + U16At(p, 16) != |p|) ==>
      r == Err(BadMediaFormat)
    ensures |p| == 16 && (U16At(p, 0) == WAVE_FORMAT_PCM || U16At(p, 0) == WAVE_FORMAT_EXTENSIBLE) ==> r.Ok?
    ensures |p| >= 18 && U16At(p, 0) == WAVE_FORMAT_EXTENSIBLE && 18 + U16At(p, 16) == |p| ==>
      (r.Ok? <==> |p| >= 40) && (r.Err? ==> r.error == ArgumentOutOfRange)
    ensures r.Ok? ==> |p| >= 16 && r.value.totalBytes == 8 + |p| && HasFields(r.value, p)
    ensures r.Ok? ==> r.value.formatType == WAVE_FORMAT_PCM || r.value.formatType == WAVE_FORMAT_EXTENSIBLE
    ensures r.Ok? && r.value.formatType == WAVE_FORMAT_PCM ==> |p| == 16
    ensures r.Ok? ==> (r.value.extendedInfo.None? <==> |p| == 16)
    ensures r.Ok? && r.value.extendedInfo.Some? ==>
      |p| >= 40 && 18 + U16At(p, 16) == |p| &&
      Ok(r.value.extendedInfo.value.extensible) == WaveFormatExtensible.Deserialize(ReadOnlySpan.FromArray(p[18..]))
  {
    if |p| < 16 then Err(BadImageFormat)
    else
      var f := WaveFormatChunk(|p| + 8, U16At(p, 0), U16At(p, 2), U32At(p, 4), U32At(p, 8),
                               U16At(p, 12), U16At(p, 14), None);
      var rest := p[16..];
      if f.formatType != WAVE_FORMAT_PCM && f.formatType != WAVE_FORMAT_EXTENSIBLE then Err(BadMediaFormat)
      else if f.formatType == WAVE_FORMAT_PCM && |p| != 16 then Err(BadMediaFormat)
      else if |rest| == 0 then Ok(f)
      else if |rest| < 2 then Err(BadMediaFormat)
      else
        assert rest[0..2] == p[16..18] && rest[2..] == p[18..];
        if 2 + U16At(rest, 0) != |rest| then Err(BadMediaFormat)
        else
          var ext :- WaveFormatExtendedInfo.Deserialize(f.formatType, ReadOnlySpan.FromArray(rest[2..]));
          Ok(f.(extendedInfo := Some(ext)))
  }

  /** Parses a "fmt " chunk: the id must be "fmt " and the declared size must fit the buffer, then
      the payload is parsed. Unlike the other chunk kinds, the total size counts no pad byte after an
      odd-sized payload. */
  function Deserialize(buffer: ReadOnlySpan<byte>): (r: Result<WaveFormatChunk>)
    requires buffer.Valid()
    ensures buffer.length < 4 ==> r == Err(ArgumentOutOfRange)
    ensures buffer.length >= 4 && LeValue(buffer.Contents()[..4]) != FMT_CHUNK_ID ==> r == Err(ArgumentError)
    ensures 4 <= buffer.length < 8 && LeValue(buffer.Contents()[..4]) == FMT_CHUNK_ID ==> r == Err(ArgumentOutOfRange)
    ensures buffer.length >= 8 && LeValue(buffer.Contents()[..4]) == FMT_CHUNK_ID && 8 + DeclaredSize(buffer.Contents()) > buffer.length ==>
      r == Err(OversizeError(buffer.Contents()))
    ensures r.Ok? ==> Framed(buffer.Contents())
    ensures Framed(buffer.Contents()) && LeValue(buffer.Contents()[..4]) == FMT_CHUNK_ID ==>
      r == DeserializePayload(buffer.Contents()[8..8 + DeclaredSize(buffer.Contents())])
    ensures r.Ok? ==> r.value.totalBytes == 8 + DeclaredSize(buffer.Contents())
  {
    var chunkId :- ReadChunkId(buffer);
    if chunkId != FMT_CHUNK_ID then Err(ArgumentError)
    else
      var payload :- ReadChunkPayload(buffer);
      DeserializePayload(payload.Contents())
  }

  /** PCM: one 24-byte segment declaring 16 payload bytes. EXTENSIBLE: a 26-byte segment declaring
      18 + n payload bytes with cbSize n, followed by the n bytes of the extension (none if there is
      no extension). Any other tag is a format error. */
  function Serialize(f: WaveFormatChunk): (r: Result<seq<seq<byte>>>)
    ensures f.formatType != WAVE_FORMAT_PCM && f.formatType != WAVE_FORMAT_EXTENSIBLE ==> r == Err(BadMediaFormat)
    ensures f.formatType == WAVE_FORMAT_PCM ==> r == Ok([PcmHeader(f)])
    ensures f.formatType == WAVE_FORMAT_EXTENSIBLE ==>
      (r.Ok? <==> f.extendedInfo.None? || f.extendedInfo.value.extensible.channelMask <= 0xFFFF)
    ensures r.Err? && f.formatType == WAVE_FORMAT_EXTENSIBLE ==> r.error == Overflow
    ensures r.Ok? && f.formatType == WAVE_FORMAT_EXTENSIBLE && f.extendedInfo.None? ==>
      r.value == [ExtensibleHeader(f, 0)]
    ensures r.Ok? && f.formatType == WAVE_FORMAT_EXTENSIBLE && f.extendedInfo.Some? ==>
      r.value == [ExtensibleHeader(f, 22)] + WaveFormatExtendedInfo.Serialize(f.extendedInfo.value).value
    ensures r.Ok? ==>
      |Concat(r.value)| == (if f.formatType == WAVE_FORMAT_PCM then 24 else if f.extendedInfo.None? then 26 else 48)
  {
    if f.formatType == WAVE_FORMAT_PCM then
      assert Concat([PcmHeader(f)]) == PcmHeader(f);
      Ok([PcmHeader(f)])
    else if f.formatType == WAVE_FORMAT_EXTENSIBLE then
      var ext :- if f.extendedInfo.None? then Ok([]) else WaveFormatExtendedInfo.Serialize(f.extendedInfo.value);
      var extSize := |Concat(ext)|;
      if 18 + extSize > 0xFFFF then Err(Overflow)
      else
        ConcatAppend([ExtensibleHeader(f, extSize)], ext);
        assert Concat([ExtensibleHeader(f, extSize)]) == ExtensibleHeader(f, extSize);
        Ok([ExtensibleHeader(f, extSize)] + ext)
    else Err(BadMediaFormat)
  }

  /** `ValidBitsPerSample`: the extension's Samples field, or without an extension the bit depth
      itself when it is 8 or 16. */
  function ValidBitsPerSample(f: WaveFormatChunk): (r: Result<int32>)
    ensures f.extendedInfo.Some? ==> r == Ok(f.extendedInfo.value.extensible.samples)
    ensures f.extendedInfo.None? ==> (r.Ok? <==> f.bitsPerSample == 8 || f.bitsPerSample == 16)
    ensures f.extendedInfo.None? && r.Ok? ==> r.value == f.bitsPerSample
    ensures r.Err? ==> r.error == BadMediaFormat
  {
    match f.extendedInfo
    case None =>
      if f.bitsPerSample == 8 || f.bitsPerSample == 16 then Ok(f.bitsPerSample) else Err(BadMediaFormat)
    case Some(ExtensibleInfo(e)) => Ok(e.samples)
  }

  /** `SampleDataType`: the sample type a known sub-format and bit depth stand for. An unknown
      sub-format is not supported; a bit depth the sub-format does not allow is a format error. */
  function SampleDataType(f: WaveFormatChunk): (r: Result<WaveSampleDataType>)
    ensures r.Ok? ==> SampleBits(r.value) == f.bitsPerSample && r.value != Unknown
    ensures r.Ok? ==> (IsFloat(r.value) <==>
      f.extendedInfo.Some? && f.extendedInfo.value.extensible.subFormat == WaveFormatExtensible.SUBTYPE_IEEE_FLOAT)
    ensures f.extendedInfo.None? ==> (r.Ok? <==> f.bitsPerSample in {8, 16})
    ensures f.extendedInfo.Some? && f.extendedInfo.value.extensible.subFormat == WaveFormatExtensible.SUBTYPE_PCM ==>
      (r.Ok? <==> f.bitsPerSample in {8, 16, 24, 32, 64})
    ensures f.extendedInfo.Some? && f.extendedInfo.value.extensible.subFormat == WaveFormatExtensible.SUBTYPE_IEEE_FLOAT ==>
      (r.Ok? <==> f.bitsPerSample in {32, 64})
    ensures r.Err? ==>
      r.error == (if f.extendedInfo.Some? && f.extendedInfo.value.extensible.subFormat != WaveFormatExtensible.SUBTYPE_PCM
                     && f.extendedInfo.value.extensible.subFormat != WaveFormatExtensible.SUBTYPE_IEEE_FLOAT
                  then NotSupported else BadMediaFormat)
  {
    match f.extendedInfo
    case None =>
      if f.bitsPerSample == 8 then Ok(Unsigned8bit)
      else if f.bitsPerSample == 16 then Ok(LittleEndianSigned16bit)
      else Err(BadMediaFormat)
    case Some(ExtensibleInfo(e)) =>
      if e.subFormat == WaveFormatExtensible.SUBTYPE_PCM then
        if f.bitsPerSample == 8 then Ok(Unsigned8bit)
        else if f.bitsPerSample == 16 then Ok(LittleEndianSigned16bit)
        else if f.bitsPerSample == 24 then Ok(LittleEndianSigned24bit)
        else if f.bitsPerSample == 32 then Ok(LittleEndianSigned32bit)
        else if f.bitsPerSample == 64 then Ok(LittleEndianSigned64bit)
        else Err(BadMediaFormat)
      else if e.subFormat == WaveFormatExtensible.SUBTYPE_IEEE_FLOAT then
        if f.bitsPerSample == 32 then Ok(LittleEndian32bitFloat)
        else if f.bitsPerSample == 64 then Ok(LittleEndian64bitFloat)
        else Err(BadMediaFormat)
      else Err(NotSupported)
  }

  /** `ChannelLayout`: the extension's channel mask, or without an extension mono for one channel
      and stereo for two. */
  function ChannelLayout(f: WaveFormatChunk): (r: Result<uint32>)
    ensures f.extendedInfo.Some? ==> r == Ok(f.extendedInfo.value.extensible.channelMask)
    ensures f.extendedInfo.None? ==> (r.Ok? <==> f.channels == 1 || f.channels == 2)
    ensures f.extendedInfo.None? && f.channels == 1 ==> r == Ok(AUDIO_SPEAKER_MONO)
    ensures f.extendedInfo.None? && f.channels == 2 ==> r == Ok(AUDIO_SPEAKER_STEREO)
    ensures r.Err? ==> r.error == BadMediaFormat
  {
    match f.extendedInfo
    case None =>
      if f.channels == 1 then Ok(AUDIO_SPEAKER_MONO)
      else if f.channels == 2 then Ok(AUDIO_SPEAKER_STEREO)
      else Err(BadMediaFormat)
    case Some(ExtensibleInfo(e)) => Ok(e.channelMask)
  }

  /** Without an extension the valid bit depth and the sample type succeed together and agree. */
  lemma ValidBitsAgreeWithSampleType(f: WaveFormatChunk)
    requires f.extendedInfo.None?
    ensures ValidBitsPerSample(f).Ok? <==> SampleDataType(f).Ok?
    ensures ValidBitsPerSample(f).Ok? ==> ValidBitsPerSample(f).value == SampleBits(SampleDataType(f).value)
  {
  }

  /** The fields read back from `FieldBytes` are the fields written. */
  lemma FieldBytesRoundTrip(f: WaveFormatChunk, p: seq<byte>)
    requires |p| >= 16 && p[..16] == FieldBytes(f)
    ensures HasFields(f, p)
  {
    var b1 := LeBytes(f.formatType, 2) + LeBytes(f.channels, 2);
    var b2 := b1 + LeBytes(f.samplesPerSeconds, 4);
    var b3 := b2 + LeBytes(f.averageBytesPerSeconds, 4);
    var b4 := b3 + LeBytes(f.blockSize, 2);
    assert p[..16] == b4 + LeBytes(f.bitsPerSample, 2);
    assert p[..14] == b4;
    assert p[..12] == b3;
    assert p[..8] == b2;
    assert p[..4] == b1;
    assert p[0..2] == LeBytes(f.formatType, 2);
    assert p[2..4] == b1[2..4] == LeBytes(f.channels, 2);
    assert p[4..8] == b2[4..8] == LeBytes(f.samplesPerSeconds, 4);
    assert p[8..12] == b3[8..12] == LeBytes(f.averageBytesPerSeconds, 4);
    assert p[12..14] == b4[12..14] == LeBytes(f.blockSize, 2);
    assert p[14..16] == p[..16][14..16] == LeBytes(f.bitsPerSample, 2);
    LeValueOfLeBytes(f.formatType, 2);
    LeValueOfLeBytes(f.channels, 2);
    LeValueOfLeBytes(f.samplesPerSeconds, 4);
    LeValueOfLeBytes(f.averageBytesPerSeconds, 4);
    LeValueOfLeBytes(f.blockSize, 2);
    LeValueOfLeBytes(f.bitsPerSample, 2);
  }

  /** A PCM chunk parses back from its serialised bytes: every field is kept, any extension is
      dropped, and the total size is 24. */
  lemma RoundTripPcm(f: WaveFormatChunk)
    requires f.formatType == WAVE_FORMAT_PCM
    ensures Deserialize(ReadOnlySpan.FromArray(Concat(Serialize(f).value)))
      == Ok(f.(totalBytes := 24, extendedInfo := None))
  {
    var c := Concat(Serialize(f).value);
    assert c == PcmHeader(f) + [];
    PcmPrefix(ReadOnlySpan.FromArray(c), f, []);
  }

  /** A buffer that starts with a PCM chunk is parsed by that chunk's 16 field bytes alone, whatever
      follows them. */
  lemma PcmPrefix(buffer: ReadOnlySpan<byte>, f: WaveFormatChunk, tail: seq<byte>)
    requires f.formatType == WAVE_FORMAT_PCM
    requires buffer.Valid() && buffer.Contents() == PcmHeader(f) + tail
    ensures Deserialize(buffer) == Ok(f.(totalBytes := 24, extendedInfo := None))
  {
    var h := PcmHeader(f);
    var c := buffer.Contents();
    assert c[..4] == h[..4] && c[4..8] == h[4..8];
    assert Framed(c);
    assert c[8..8 + DeclaredSize(c)] == FieldBytes(f);
    PcmPayload(f);
  }

  lemma PcmPayload(f: WaveFormatChunk)
    requires f.formatType == WAVE_FORMAT_PCM
    ensures DeserializePayload(FieldBytes(f)) == Ok(f.(totalBytes := 24, extendedInfo := None))
  {
    var p := FieldBytes(f);
    assert p[..16] == p;
    FieldBytesRoundTrip(f, p);
    assert p[0..2] == p[..2];
  }

  /** A chunk image with the "fmt " id whose declared size is exactly the rest of the image is parsed
      by its payload alone. */
  lemma DeserializeFramed(c: seq<byte>)
    requires 8 <= |c| <= INT32_MAX && LeValue(c[..4]) == FMT_CHUNK_ID && DeclaredSize(c) == |c| - 8
    ensures Deserialize(ReadOnlySpan.FromArray(c)) == DeserializePayload(c[8..])
  {
    var buffer := ReadOnlySpan.FromArray(c);
    var payload := c[8..];
    assert buffer.Contents() == c;
    assert payload == buffer.Contents()[8..8 + DeclaredSize(buffer.Contents())];
    assert Framed(buffer.Contents()) && LeValue(buffer.Contents()[..4]) == FMT_CHUNK_ID;
  }

  lemma PayloadWithExtension(f: WaveFormatChunk, p: seq<byte>, e: WaveFormatExtensible.Extensible)
    requires f.formatType == WAVE_FORMAT_EXTENSIBLE
    requires |p| == 40 && p[..16] == FieldBytes(f) && U16At(p, 16) == 22
    requires WaveFormatExtensible.Deserialize(ReadOnlySpan.FromArray(p[18..])) == Ok(e)
    ensures DeserializePayload(p) == Ok(f.(totalBytes := 48, extendedInfo := Some(ExtensibleInfo(e))))
  {
    FieldBytesRoundTrip(f, p);
    assert p[16..][0..2] == p[16..18];
    assert p[16..][2..] == p[18..];
  }

  /** An extensible chunk whose channel mask fits 16 bits parses back with every field and the same
      extension; the total size is 48. */
  lemma RoundTripExtensible(f: WaveFormatChunk)
    requires f.formatType == WAVE_FORMAT_EXTENSIBLE && f.extendedInfo.Some?
    requires f.extendedInfo.value.extensible.channelMask <= 0xFFFF
    ensures Deserialize(ReadOnlySpan.FromArray(Concat(Serialize(f).value))) == Ok(f.(totalBytes := 48))
  {
    var c := Concat(Serialize(f).value);
    var h := ExtensibleHeader(f, 22);
    ExtensibleBytes(f);
    assert c[4..8] == h[4..8] && c[..4] == h[..4];
    DeserializeFramed(c);
    ExtensiblePayloadParses(f);
  }

  lemma ExtensiblePayloadParses(f: WaveFormatChunk)
    requires f.formatType == WAVE_FORMAT_EXTENSIBLE && f.extendedInfo.Some?
    requires f.extendedInfo.value.extensible.channelMask <= 0xFFFF
    ensures |Concat(Serialize(f).value)| == 48
    ensures DeserializePayload(Concat(Serialize(f).value)[8..]) == Ok(f.(totalBytes := 48))
  {
    var e := f.extendedInfo.value.extensible;
    var c := Concat(Serialize(f).value);
    var h := ExtensibleHeader(f, 22);
    var extBytes := Concat(WaveFormatExtensible.Serialize(e).value);
    ExtensibleBytes(f);
    var p := c[8..];
    assert c[..26] == h && c[26..] == extBytes;
    assert p[..16] == h[8..24];
    assert p[16..18] == h[24..26];
    assert p[18..] == extBytes;
    WaveFormatExtensible.RoundTrip(e);
    PayloadWithExtension(f, p, e);
    assert f.extendedInfo == Some(ExtensibleInfo(e));
  }

  lemma ExtensibleBytes(f: WaveFormatChunk)
    requires f.formatType == WAVE_FORMAT_EXTENSIBLE && f.extendedInfo.Some?
    requires f.extendedInfo.value.extensible.channelMask <= 0xFFFF
    ensures Concat(Serialize(f).value)
      == ExtensibleHeader(f, 22) + Concat(WaveFormatExtensible.Serialize(f.extendedInfo.value.extensible).value)
  {
    var segments := Serialize(f).value;
    var h := ExtensibleHeader(f, 22);
    ConcatAppend([h], segments[1..]);
    assert segments == [h] + segments[1..];
    assert Concat([h]) == h;
  }

  lemma PayloadWithEmptyExtension(f: WaveFormatChunk, p: seq<byte>)
    requires f.formatType == WAVE_FORMAT_EXTENSIBLE
    requires |p| == 18 && p[..16] == FieldBytes(f) && U16At(p, 16) == 0
    ensures DeserializePayload(p) == Err(ArgumentOutOfRange)
  {
    FieldBytesRoundTrip(f, p);
    assert p[16..][0..2] == p[16..18];
    assert WaveFormatExtensible.Deserialize(ReadOnlySpan.FromArray(p[18..])) == Err(ArgumentOutOfRange);
  }

  /** An extensible chunk without an extension is written with cbSize 0, and its own parser then
      rejects it: the empty extension is too short for the 22-byte block. */
  lemma ExtensibleWithoutExtensionIsRejected(f: WaveFormatChunk)
    requires f.formatType == WAVE_FORMAT_EXTENSIBLE && f.extendedInfo.None?
    ensures Deserialize(ReadOnlySpan.FromArray(Concat(Serialize(f).value))) == Err(ArgumentOutOfRange)
  {
    var h := ExtensibleHeader(f, 0);
    assert Serialize(f).value == [h];
    assert Concat([h]) == h;
    EmptyExtensionHeaderRejected(f);
  }

  lemma EmptyExtensionHeaderRejected(f: WaveFormatChunk)
    requires f.formatType == WAVE_FORMAT_EXTENSIBLE
    ensures Deserialize(ReadOnlySpan.FromArray(ExtensibleHeader(f, 0))) == Err(ArgumentOutOfRange)
  {
    var c := ExtensibleHeader(f, 0);
    DeserializeFramed(c);
    var p := c[8..];
    assert p[..16] == c[8..24];
    assert p[16..18] == c[24..26];
    PayloadWithEmptyExtension(f, p);
  }

  /** Only the EXTENSIBLE tag reaches the extension dispatch, so its format-error branch is never
      taken from a "fmt " chunk: every extension a parsed chunk carries came from that tag, and a PCM
      chunk with bytes after its 16 basic ones is rejected before the dispatch. */
  lemma ExtensionOnlyForExtensible(buffer: ReadOnlySpan<byte>)
    requires buffer.Valid()
    ensures Deserialize(buffer).Ok? && Deserialize(buffer).value.extendedInfo.Some? ==>
      Deserialize(buffer).value.formatType == WAVE_FORMAT_EXTENSIBLE
    ensures (Framed(buffer.Contents()) && LeValue(buffer.Contents()[..4]) == FMT_CHUNK_ID &&
             DeclaredSize(buffer.Contents()) > 16 && U16At(buffer.Contents(), 8) == WAVE_FORMAT_PCM) ==>
      Deserialize(buffer) == Err(BadMediaFormat)
  {
    var c := buffer.Contents();
    if Framed(c) && LeValue(c[..4]) == FMT_CHUNK_ID {
      var p := c[8..8 + DeclaredSize(c)];
      assert Deserialize(buffer) == DeserializePayload(p);
      assert DeclaredSize(c) > 16 ==> p[0..2] == c[8..10];
    }
  }
}

=== FILE: wave_format_extended_info.dfy ===
/** The optional extension block of a "fmt " chunk. WAVE_FORMAT_EXTENSIBLE is the only kind the
    codec knows, so the abstract base class becomes a datatype with that one variant. */
module WaveFormatExtendedInfo {
  import opened Errors
  import opened Ints
  import opened Spans
  import opened ChunkFraming
  import WaveFormatExtensible

  /** WAVE_FORMAT_PCM and WAVE_FORMAT_EXTENSIBLE, the `WaveFormatTag` values the codec names. */
  const WAVE_FORMAT_PCM: uint16 := 1
  const WAVE_FORMAT_EXTENSIBLE: uint16 := 0xFFFE

  datatype ExtendedInfo = ExtensibleInfo(extensible: WaveFormatExtensible.Extensible)

  /** Dispatch on the format tag: EXTENSIBLE parses the extensible block, any other tag is a format error. */
  function Deserialize(formatTag: uint16, data: ReadOnlySpan<byte>): (r: Result<ExtendedInfo>)
    requires data.Valid()
    ensures formatTag != WAVE_FORMAT_EXTENSIBLE ==> r == Err(BadMediaFormat)
    ensures formatTag == WAVE_FORMAT_EXTENSIBLE ==> (r.Ok? <==> data.length >= 22)
    ensures r.Ok? ==> Ok(r.value.extensible) == WaveFormatExtensible.Deserialize(data)
    ensures r.Err? && formatTag == WAVE_FORMAT_EXTENSIBLE ==> r.error == ArgumentOutOfRange
  {
    if formatTag == WAVE_FORMAT_EXTENSIBLE then
      var e :- WaveFormatExtensible.Deserialize(data);
      Ok(ExtensibleInfo(e))
    else Err(BadMediaFormat)
  }

  function Serialize(info: ExtendedInfo): (r: Result<seq<seq<byte>>>)
    ensures r.Ok? <==> info.extensible.channelMask <= 0xFFFF
    ensures r.Ok? ==> |Concat(r.value)| == TotalBytes(info)
  {
    WaveFormatExtensible.Serialize(info.extensible)
  }

  function TotalBytes(info: ExtendedInfo): (n: int32)
    ensures n == WaveFormatExtensible.TOTAL_BYTES
  {
    WaveFormatExtensible.TOTAL_BYTES
  }
}

=== FILE: wave_format_extensible.dfy ===
/** The 22-byte WAVE_FORMAT_EXTENSIBLE extension of a "fmt " chunk: valid bits per sample, the
    speaker channel mask and the sub-format GUID. */
module WaveFormatExtensible {
  import opened Errors
  import opened Ints
  import opened Spans
  import opened ByteOrder
  import opened ByteDataExtensions
  import opened ChunkFraming

  /** KSDATAFORMAT_SUBTYPE_PCM, 00000001-0000-0010-8000-00aa00389b71. */
  const SUBTYPE_PCM: Guid := Guid(1, 0, 0x10, [0x80, 0, 0, 0xaa, 0, 0x38, 0x9b, 0x71])

  /** KSDATAFORMAT_SUBTYPE_IEEE_FLOAT, 00000003-0000-0010-8000-00aa00389b71. */
  const SUBTYPE_IEEE_FLOAT: Guid := Guid(3, 0, 0x10, [0x80, 0, 0, 0xaa, 0, 0x38, 0x9b, 0x71])

  /** `samples` is wValidBitsPerSample (or wSamplesPerBlock / wReserved). */
  datatype Extensible = Extensible(samples: uint16, channelMask: uint32, subFormat: Guid)

  /** The extension always occupies 22 bytes. */
  const TOTAL_BYTES: int32 := 22

  /** The three fields at offsets 0, 2 and 6. Fewer than 22 bytes make one of the slices fail with an
      argument error; bytes after the 22nd are ignored. */
  function Deserialize(data: ReadOnlySpan<byte>): (r: Result<Extensible>)
    requires data.Valid()
    ensures r.Ok? <==> data.length >= 22
    ensures r.Err? ==> r.error == ArgumentOutOfRange
    ensures r.Ok? ==> r.value.samples == LeValue(data.Contents()[0..2])
    ensures r.Ok? ==> r.value.channelMask == LeValue(data.Contents()[2..6])
    ensures r.Ok? ==> GuidToByteArray(r.value.subFormat) == data.Contents()[6..22]
  {
    var samplesField :- data.SliceN(0, 2);
    var maskField :- data.SliceN(2, 4);
    var guidField :- data.SliceN(6, 16);
    Ok(Extensible(AsUint16Le(samplesField).value, AsUint32Le(maskField).value,
                  GuidFromByteArray(guidField.ToArray())))
  }

  /** One 22-byte segment in the layout `Deserialize` reads; the channel mask goes through
      `checked((ushort)mask)`, so a mask above 0xFFFF overflows although it was read as 32 bits. */
  function Serialize(e: Extensible): (r: Result<seq<seq<byte>>>)
    ensures r.Ok? <==> e.channelMask <= 0xFFFF
    ensures r.Err? ==> r.error == Overflow
    ensures r.Ok? ==> |r.value| == 1 && |Concat(r.value)| == TOTAL_BYTES
  {
    if e.channelMask > 0xFFFF then Err(Overflow)
    else Ok([LeBytes(e.samples, 2) + LeBytes(e.channelMask, 4) + GuidToByteArray(e.subFormat)])
  }

  /** Parsing what `Serialize` wrote gives the same fields back. */
  lemma RoundTrip(e: Extensible)
    requires e.channelMask <= 0xFFFF
    ensures Deserialize(ReadOnlySpan.FromArray(Concat(Serialize(e).value))) == Ok(e)
  {
    var bytes := Concat(Serialize(e).value);
    assert bytes == LeBytes(e.samples, 2) + LeBytes(e.channelMask, 4) + GuidToByteArray(e.subFormat);
    assert bytes[0..2] == LeBytes(e.samples, 2);
    assert bytes[2..6] == LeBytes(e.channelMask, 4);
    assert bytes[6..22] == GuidToByteArray(e.subFormat);
    LeValueOfLeBytes(e.samples, 2);
    LeValueOfLeBytes(e.channelMask, 4);
    GuidFromToByteArray(e.subFormat);
  }

  /** The two sub-format GUIDs differ only in their first field. */
  lemma SubtypesDifferInFirstField()
    ensures SUBTYPE_PCM != SUBTYPE_IEEE_FLOAT
    ensures SUBTYPE_PCM.(data1 := SUBTYPE_IEEE_FLOAT.data1) == SUBTYPE_IEEE_FLOAT
  {
  }
}

=== FILE: wave_id3_tag_chunk.dfy ===
/** The "id3 " chunk: its payload is kept as opaque raw bytes. */
module WaveId3TagChunk {
  import opened Errors
  import opened Ints
  import opened Spans
  import opened ByteOrder
  import opened ChunkFraming

  function Deserialize(buffer: ReadOnlySpan<byte>): (r: Result<RawChunk>)
    requires buffer.Valid()
    ensures buffer.length < 4 ==> r == Err(ArgumentOutOfRange)
    ensures buffer.length >= 4 && LeValue(buffer.Contents()[..4]) != ID3_CHUNK_ID ==> r == Err(ArgumentError)
    ensures 4 <= buffer.length < 8 && LeValue(buffer.Contents()[..4]) == ID3_CHUNK_ID ==> r == Err(ArgumentOutOfRange)
    ensures buffer.length >= 8 && LeValue(buffer.Contents()[..4]) == ID3_CHUNK_ID ==>
      var n := DeclaredSize(buffer.Contents());
      (8 + n > buffer.length ==> r == Err(OversizeError(buffer.Contents()))) &&
      (8 + n <= buffer.length && 8 + n + n % 2 > INT32_MAX ==> r == Err(Overflow))
    ensures r.Ok? <==>
      buffer.length >= 8 && LeValue(buffer.Contents()[..4]) == ID3_CHUNK_ID &&
      var n := DeclaredSize(buffer.Contents()); 8 + n <= buffer.length && 8 + n + n % 2 <= INT32_MAX
    ensures r.Ok? ==> r.value.chunkId == ID3_CHUNK_ID
    ensures r.Ok? ==> r.value.rawData == buffer.Contents()[8..8 + DeclaredSize(buffer.Contents())]
    ensures r.Ok? ==> r.value.totalBytes == 8 + |r.value.rawData| + |r.value.rawData| % 2
  {
    DeserializeRaw(Some(ID3_CHUNK_ID), buffer)
  }

  /** The 12-byte header (id, payload length, four zero bytes), the payload, and a zero pad byte
      after an odd-sized payload. */
  function Serialize(rawData: seq<byte>): (segments: seq<seq<byte>>)
    requires |rawData| <= INT32_MAX
    ensures |Concat(segments)| == 12 + |rawData| + |rawData| % 2
    ensures LeValue(Concat(segments)[..4]) == ID3_CHUNK_ID && LeValue(Concat(segments)[4..8]) == |rawData|
    ensures Concat(segments)[8..12] == [0, 0, 0, 0]
    ensures Concat(segments)[12..12 + |rawData|] == rawData
    ensures |rawData| % 2 == 1 ==> Concat(segments)[12 + |rawData|] == 0
  {
    var segments := SerializeRaw(ID3_CHUNK_ID, rawData);
    var c := Concat(segments);
    var h := StrayHeader(ID3_CHUNK_ID, |rawData|);
    assert c[..4] == h[..4] && c[4..8] == h[4..8] && c[8..12] == h[8..];
    segments
  }

  /** Parsing the serialised chunk keeps the id and the length but reads the payload four bytes
      early, so it comes back intact only when it is all zeros. */
  lemma Reparse(rawData: seq<byte>)
    requires |rawData| + 13 <= INT32_MAX
    ensures var r := Deserialize(ReadOnlySpan.FromArray(Concat(Serialize(rawData))));
      r.Ok? && r.value.chunkId == ID3_CHUNK_ID && |r.value.rawData| == |rawData| &&
      r.value.totalBytes == 8 + |rawData| + |rawData| % 2 &&
      r.value.rawData == ([0, 0, 0, 0] + rawData)[..|rawData|] &&
      (r.value.rawData == rawData <==> forall i :: 0 <= i < |rawData| ==> rawData[i] == 0)
  {
    RawReparse(Some(ID3_CHUNK_ID), ID3_CHUNK_ID, rawData);
    StrayHeaderShiftsPayload(rawData);
  }
}

=== FILE: wave_list_chunk.dfy ===
/** The "LIST" chunk: its payload is kept as opaque raw bytes. */
module WaveListChunk {
  import opened Errors
  import opened Ints
  import opened Spans
  import opened ByteOrder
  import opened ChunkFraming

  function Deserialize(buffer: ReadOnlySpan<byte>): (r: Result<RawChunk>)
    requires buffer.Valid()
    ensures buffer.length < 4 ==> r == Err(ArgumentOutOfRange)
    ensures buffer.length >= 4 && LeValue(buffer.Contents()[..4]) != LIST_CHUNK_ID ==> r == Err(ArgumentError)
    ensures 4 <= buffer.length < 8 && LeValue(buffer.Contents()[..4]) == LIST_CHUNK_ID ==> r == Err(ArgumentOutOfRange)
    ensures buffer.length >= 8 && LeValue(buffer.Contents()[..4]) == LIST_CHUNK_ID ==>
      var n := DeclaredSize(buffer.Contents());
      (8 + n > buffer.length ==> r == Err(OversizeError(buffer.Contents()))) &&
      (8 + n <= buffer.length && 8 + n + n % 2 > INT32_MAX ==> r == Err(Overflow))
    ensures r.Ok? <==>
      buffer.length >= 8 && LeValue(buffer.Contents()[..4]) == LIST_CHUNK_ID &&
      var n := DeclaredSize(buffer.Contents()); 8 + n <= buffer.length && 8 + n + n % 2 <= INT32_MAX
    ensures r.Ok? ==> r.value.chunkId == LIST_CHUNK_ID
    ensures r.Ok? ==> r.value.rawData == buffer.Contents()[8..8 + DeclaredSize(buffer.Contents())]
    ensures r.Ok? ==> r.value.totalBytes == 8 + |r.value.rawData| + |r.value.rawData| % 2
  {
    DeserializeRaw(Some(LIST_CHUNK_ID), buffer)
  }

  /** The 12-byte header (id, payload length, four zero bytes), the payload, and a zero pad byte
      after an odd-sized payload. */
  function Serialize(rawData: seq<byte>): (segments: seq<seq<byte>>)
    requires |rawData| <= INT32_MAX
    ensures |Concat(segments)| == 12 + |rawData| + |rawData| % 2
    ensures LeValue(Concat(segments)[..4]) == LIST_CHUNK_ID && LeValue(Concat(segments)[4..8]) == |rawData|
    ensures Concat(segments)[8..12] == [0, 0, 0, 0]
    ensures Concat(segments)[12..12 + |rawData|] == rawData
    ensures |rawData| % 2 == 1 ==> Concat(segments)[12 + |rawData|] == 0
  {
    var segments := SerializeRaw(LIST_CHUNK_ID, rawData);
    var c := Concat(segments);
    var h := StrayHeader(LIST_CHUNK_ID, |rawData|);
    assert c[..4] == h[..4] && c[4..8] == h[4..8] && c[8..12] == h[8..];
    segments
  }

  /** Parsing the serialised chunk keeps the id and the length but reads the payload four bytes
      early, so it comes back intact only when it is all zeros. */
  lemma Reparse(rawData: seq<byte>)
    requires |rawData| + 13 <= INT32_MAX
    ensures var r := Deserialize(ReadOnlySpan.FromArray(Concat(Serialize(rawData))));
      r.Ok? && r.value.chunkId == LIST_CHUNK_ID && |r.value.rawData| == |rawData| &&
      r.value.totalBytes == 8 + |rawData| + |rawData| % 2 &&
      r.value.rawData == ([0, 0, 0, 0] + rawData)[..|rawData|] &&
      (r.value.rawData == rawData <==> forall i :: 0 <= i < |rawData| ==> rawData[i] == 0)
  {
    RawReparse(Some(LIST_CHUNK_ID), LIST_CHUNK_ID, rawData);
    StrayHeaderShiftsPayload(rawData);
  }
}

=== FILE: wave_unknown_chunk.dfy ===
/** A chunk whose id the container does not recognise: any id is accepted and kept, with the payload
    as raw bytes. */
module WaveUnknownChunk {
  import opened Errors
  import opened Ints
  import opened Spans
  import opened ByteOrder
  import opened ChunkFraming

  function Deserialize(buffer: ReadOnlySpan<byte>): (r: Result<RawChunk>)
    requires buffer.Valid()
    ensures buffer.length < 8 ==> r == Err(ArgumentOutOfRange)
    ensures buffer.length >= 8 ==>
      var n := DeclaredSize(buffer.Contents());
      (8 + n > buffer.length ==> r == Err(OversizeError(buffer.Contents()))) &&
      (8 + n <= buffer.length && 8 + n + n % 2 > INT32_MAX ==> r == Err(Overflow))
    ensures r.Ok? <==>
      buffer.length >= 8 &&
      var n := DeclaredSize(buffer.Contents()); 8 + n <= buffer.length && 8 + n + n % 2 <= INT32_MAX
    ensures r.Ok? ==> r.value.chunkId == U32At(buffer.Contents(), 0)
    ensures r.Ok? ==> r.value.rawData == buffer.Contents()[8..8 + DeclaredSize(buffer.Contents())]
    ensures r.Ok? ==> r.value.totalBytes == 8 + |r.value.rawData| + |r.value.rawData| % 2
  {
    DeserializeRaw(None, buffer)
  }

  /** The 12-byte header re-emits the original id and the payload length, followed by four zero
      bytes, the payload, and a zero pad byte after an odd-sized payload. */
  function Serialize(chunk: RawChunk): (segments: seq<seq<byte>>)
    requires |chunk.rawData| <= INT32_MAX
    ensures |Concat(segments)| == 12 + |chunk.rawData| + |chunk.rawData| % 2
    ensures LeValue(Concat(segments)[..4]) == chunk.chunkId && LeValue(Concat(segments)[4..8]) == |chunk.rawData|
    ensures Concat(segments)[8..12] == [0, 0, 0, 0]
    ensures Concat(segments)[12..12 + |chunk.rawData|] == chunk.rawData
    ensures |chunk.rawData| % 2 == 1 ==> Concat(segments)[12 + |chunk.rawData|] == 0
  {
    var segments := SerializeRaw(chunk.chunkId, chunk.rawData);
    var c := Concat(segments);
    var h := StrayHeader(chunk.chunkId, |chunk.rawData|);
    assert c[..4] == h[..4] && c[4..8] == h[4..8] && c[8..12] == h[8..];
    segments
  }

  /** Parsing the serialised chunk keeps the id and the length but reads the payload four bytes
      early, so it comes back intact only when it is all zeros. */
  lemma Reparse(chunk: RawChunk)
    requires |chunk.rawData| + 13 <= INT32_MAX
    ensures var n := |chunk.rawData|;
      var r := Deserialize(ReadOnlySpan.FromArray(Concat(Serialize(chunk))));
      r.Ok? && r.value.chunkId == chunk.chunkId && |r.value.rawData| == n &&
      r.value.totalBytes == 8 + n + n % 2 &&
      r.value.rawData == ([0, 0, 0, 0] + chunk.rawData)[..n] &&
      (r.value.rawData == chunk.rawData <==> forall i :: 0 <= i < n ==> chunk.rawData[i] == 0)
  {
    RawReparse(None, chunk.chunkId, chunk.rawData);
    StrayHeaderShiftsPayload(chunk.rawData);
  }
}
